=== FILE: README.md ===
# klein relation engine in Dafny

A model of the relation engine of klein, a small object-relational layer over
knex that stores rows as Immutable maps. The model covers both engines of the
repository:

- the current engine (`model.js`);
- the older one it replaced (`lib/model.js`).

It also covers the scaffolding helpers the command-line tasks are built from
(`util.js`, `tasks/util.js`, `tasks/index.js`).

Both engines run through one set of functions, parameterised by an `Engine`
value, because they share most of their logic. The engine covers:

- how relation declarations resolve into tables, keys and join tables;
- how a record is serialised into a row;
- `save`, with its insert-or-update decision, its has_many detach-and-relink,
  its belongs_to write-back and its join-table synchronisation;
- `create` and `destroy`, with the cascading deletes;
- eager loading with `include` in one batch of queries per relation;
- `json` presentation through contexts;
- `page`.

The outside world is reduced to values and parameters:

- **The database** (`Store`) is an in-memory map from table to its rows in
  insertion order. Where clauses carry the SQL meaning knex gives them:
  - `where(col, null)` is `IS NULL`;
  - a `NULL` column is never `IN` a list;
  - `whereNotIn(col, [])` always holds.
- **`uuid()`** is a counter in the store state.
- **`new Date()`** is a `now` parameter, one instant per operation.
- **The inflection library `i`** is an `Inflector` of uninterpreted functions.
  Every property holds for any pluralisation rules.
- **JavaScript values** are one datatype (`Js.Value`). An `undefined`
  property is an absent map key. `JSON.stringify` of an object is an opaque
  `Json` tag.
- **The file system, environment variables, `Path.dirname`, `require` of
  `package.json`, template files and the knex migrator** are parameters or
  predicates of the functions that use them.

Modules, in dependency order:

| module | what it holds |
|---|---|
| `Js` | values, scalars, truthiness, the column form of a value |
| `Text` | split/join, `indexOf`, string order and `sort`, ASCII case, `\s`, the inflector |
| `Store` | rows, tables, where clauses, select/insert/update/delete |
| `Relations` | relation declarations and their resolution in the constructor |
| `Models` | model definitions, the registry, `_serialize` of both engines |
| `Persist` | `save`, `_saveRelations` and the three relation savers, `create`, `destroy` |
| `PersistFacts` | what `save`, `create` and `destroy` do to the tables |
| `Eager` | `_includeRelations` and the equivalence of batching with per-owner loading |
| `Present` | `json` with its contexts, and `page` |
| `Scaffold` | `util.js`: column and table guessing, `getConfig`, `firstPathThatExists` |
| `TaskUtil` | `tasks/util.js`: `appRoot`, `loadConfig`, `saveTemplate`, `justFilename` |
| `Tasks` | `tasks/index.js`: `newMigration`, `newModel`, the exported task, `migrate`/`rollback`, `version`, schema meta text |

### Where the code departs from the documented design

The model follows the code in each case.

- Default keys end in `_id`, not `Id` (model.js:38-51).
- A join-table relation's target table is the pluralised relation name, not
  the declared target (model.js:37).
- There is no has_one relation, no lifecycle hooks, no pluggable record
  adapter and no cached column schema in this code.
- The save of a has_many child and of a join-table target runs under
  `Promise.all`. The model runs them one after the other in list order, and
  the saved list is in input order.

## Model

| member | source | states |
|---|---|---|
| Js.ToColumn | model.js:407-417 | an object or array is stored as its JSON text; null and the string "null" become SQL null; any other scalar is stored unchanged |
| Js.Stringify | model.js:409-410 | stringifying an object-typed value gives text, and gives "null" exactly for null |
| Js.ToColumnIdempotent | model.js:407-417 | putting a column value through the conversion again changes nothing; a plain column value is kept; a Date is stringified |
| Text.Sort2 | model.js:36 | `[a, b].sort()` is a permutation of its input, in non-decreasing string order |
| Text.Sort2Symmetric | model.js:36 | the sorted pair does not depend on the order the two names come in |
| Text.SplitJoin | tasks/index.js:56 | joining the pieces of a split with the same separator gives back the original text |
| Text.Lower | tasks/index.js:103 | `toLowerCase` maps each character, keeping the length |
| Text.DashSpaces | tasks/index.js:30 | every whitespace character becomes a dash, every other character is kept |
| Text.LowerIdempotent | tasks/index.js:103 | lower-casing twice is lower-casing once |
| Text.DashSpacesLeavesNoSpace | tasks/index.js:30 | the dashed name holds no whitespace, differs from the input only where it has a dash, and dashing it again changes nothing |
| Relations.Or | model.js:36-39 | an override that is given and non-empty wins, otherwise the derived default |
| Relations.MarkerPrecedence | model.js:32-50 | a join-table marker makes the belongs_to and has_many markers irrelevant, and a belongs_to marker the has_many one |
| Relations.ForeignKeyAgrees | model.js:44-51 | a has_many and the matching belongs_to declared without overrides point at each other's tables and use the same foreign key, the owner's singular plus `_id`; the has_many side does not cascade |
| Relations.CascadesExactly | model.js:109 | a resolved relation cascades on destroy exactly when it is has_and_belongs_to_many, or a has_many declared with `dependent: true` |
| Relations.ResolveIdempotent | model.js:27-56 | resolving a relation object the constructor already resolved (it mutates the declarations in place) changes nothing, for both engines |
| Relations.JoinTableAgrees | model.js:36 | two tables declaring has_and_belongs_to_many on each other derive the same join table, whichever side resolves |
| Relations.LegacyIgnoresCurrentKeys | lib/model.js:27-56 | the older engine reads `key`, `source_key` and `through_table`; the current engine's override names make no difference to it |
| Relations.CurrentIgnoresLegacyKeys | model.js:27-56 | the current engine reads `foreign_key`, `primary_key` and `through`; `source_key` and `through_table` make no difference to it, and `key` only matters to a relation with no kind marker, which destroy deletes by |
| Relations.ResolveSameReads | model.js:32-53 | resolution depends only on the kind markers, `table`, `dependent` and the engine's own override keys |
| Models.StampColumn | model.js:12-17 | `timestamps: false` turns both columns off; unset keeps the default names; an object overrides per key, and a key set to false turns that column off |
| Models.IdDefault | model.js:19-21 | a model that declares no `id` default gets a generated uuid id |
| Models.OtherDefaults | model.js:19-21 | the non-id defaults are exactly the declared ones with a value |
| Models.ResolveAll | model.js:27-56 | every declared relation is resolved, in declaration order |
| Models.Define | model.js:7-56 | the model keeps its table and one relation per declaration, under its name; timestamp columns are the configured ones on the current engine and always `created_at`/`updated_at` on the older one |
| Models.NameRecorded | model.js:30 | a resolved relation records the name it was declared under |
| Models.ModelFor | index.js:29-41 | `klein.model(table)` returns the registered model, or a fresh one with no relations, no other defaults and a uuid id |
| Models.RelationNamed | model.js:141 | a relation is found exactly when one of that name is declared, and the one found has that name |
| Models.ToPlain | model.js:136 | an object record yields its fields; null fails with a TypeError |
| Models.SplitRelations | model.js:138-145 | the record's properties are partitioned into own columns and relation payloads, values unchanged |
| Models.ToColumns | model.js:407-417 | every property is kept under its name in column form, and no column is added |
| Models.DefaultValue | model.js:402 | a fixed default is used as is, a function default is called with the properties, and the id default draws a fresh uuid |
| Models.FillDefaults | model.js:397-405 | the given properties are kept; each declared default fills its key only when the key is absent; the first declaration of a key wins |
| Models.SetIfFalsy | lib/model.js:357-368 | the column keeps a truthy value and otherwise takes the new one; other properties are untouched |
| Models.CurrentId | model.js:392-395 | an absent id is generated by the id default; a non-function id default throws; a present id is kept |
| Models.SerializeCurrent | model.js:389-420 | every property is kept in column form, an absent id gets a fresh uuid, every default key is present, nothing else is added, and the only failure is a fixed id default |
| Models.LegacyStamps | lib/model.js:357-369 | a falsy id, updated_at or created_at is replaced by a fresh uuid or the current time; everything else is kept |
| Models.SerializeLegacy | lib/model.js:354-395 | the row always holds id, updated_at and created_at: the truthy given ones in column form, otherwise a fresh uuid and the stringified current time |
| Models.SerializeLegacyKeeps | lib/model.js:371-392 | every other property reaches the row in column form |
| Models.SerializeLegacyAdds | lib/model.js:354-395 | the row holds nothing besides the properties, the three stamped columns and the default keys |
| Models.Serialize | model.js:389-420 | both engines keep the properties in column form and add only the id, the defaults and, on the older engine, its timestamps; the older engine never fails |
| Persist.StampRow | model.js:653-657 | a configured timestamp column is set to now with nothing else changed; a disabled one leaves the row as it is |
| Persist.ProbeKey | model.js:158 | the existence probe looks up the truthy id, otherwise null |
| Persist.OwnerKey | model.js:468 | an owner's id is usable as a query value only when present and scalar; an absent id is an undefined binding |
| Persist.Link | model.js:472 | a has_many child gets the owner's id under the foreign key and nothing else changes |
| Persist.PrepareRow | model.js:136-149 | the detached payloads are exactly the record's relation properties; the row holds the other properties serialised and the update stamp |
| Persist.StampedRow | model.js:148-149 | the serialised row keeps the own properties and carries the update stamp at the current time |
| Persist.IsUpdate | model.js:151-161 | `exists` as given decides; otherwise an update exactly when some row of the table has the probed id |
| Persist.WriteRow | model.js:163-169 | an update rewrites the rows with the record's id and an insert appends one stamped row; no other table changes |
| Persist.Reattach | model.js:170-176 | the saved record is the first returned row with the detached payloads put back under their names |
| Persist.Save | model.js:131-185 | unconnected, the current engine refuses; a record that is not an object fails; the uuid counter never goes back |
| Persist.WriteRecord | model.js:136-172 | every payload on the written record is one the caller passed |
| Persist.KnexAsWritten | model.js:59-67 | the query accessor works on the older engine; on the current one it refuses when unconnected and, once connected, throws the TypeError `this._knex is not a function` |
| Persist.SaveAsWritten | model.js:59-67 | on the older engine, `save` as written is `save` |
| Persist.SaveRelations | model.js:423-455 | saving the relations keeps every own column except the belongs_to keys it writes back, and adds no other key |
| Persist.SaveOne | model.js:434-441 | one relation's save changes only its own property and, for belongs_to, its key |
| Persist.SaveCollection | model.js:442-447 | the saved list replaces the payload under the relation's name |
| Persist.SaveBelongsTo | model.js:443-450 | the saved target replaces the payload and its id is written into the foreign key |
| Persist.SaveTarget | model.js:487-491 | the saved belongs_to target is an object, and the id it returns is the id it holds |
| Persist.TruthyIds | model.js:465 | the ids collected are exactly the truthy ids the payload items carry |
| Persist.SaveHasMany | model.js:458-484 | a list payload gives a saved list of the same length; any other payload is a TypeError |
| Persist.SaveChildren | model.js:471-476 | the has_many loop saves one child per payload item |
| Persist.WriteBack | model.js:492-499 | the owner's row gets the target's id under the foreign key and no other table changes; a target without id is an empty update |
| Persist.SaveHabtm | model.js:505-558 | a list payload gives a saved list of the same length; any other payload is a TypeError |
| Persist.IdField | model.js:530 | a saved record's id is read when present and scalar, and an absent one is undefined |
| Persist.SaveTargets | model.js:527-549 | the join-table loop saves one target per payload item |
| Persist.JoinRow | model.js:533-542 | a new join row holds a fresh id, the owner under the source key, the target under the key, and the owner model's timestamps at now |
| Persist.JoinLinks | model.js:533-537 | the join row before stamping links the owner and the target and holds nothing else |
| Persist.StampJoin | model.js:539-540 | stamping a join row sets exactly the configured timestamp columns to now |
| Persist.InsertJoinRow | model.js:542 | exactly one row is appended to the join table and nothing else changes |
| Persist.Create | model.js:83-100 | a list creates a list of the same length, a single record creates an object, and an unconnected current engine refuses |
| Persist.CreateAll | model.js:90-95 | one created record per list item |
| Persist.CascadeTarget | model.js:113-117 | has_and_belongs_to_many deletes from the join table by the source key; has_many and an untyped relation delete from their `table` by their `key`; an untyped relation lacking either has no target |
| Persist.Cascade | model.js:109-119 | the dependent deletes fail exactly when some cascading relation has no table or key to delete by, which only an untyped dependent relation can lack |
| Persist.Destroy | model.js:103-128 | destroy returns the record as given; an unconnected current engine refuses; for a record with an id it succeeds exactly when every cascading relation has a table and key to delete by |
| PersistFacts.WriteRecordFrame | model.js:163-169 | writing a record's row touches only its table, never shrinks it, and an insert appends exactly one row |
| PersistFacts.WriteRecordById | model.js:158-169 | writing a record with a plain id changes only rows with that id, never changes any row's id, and returns the record under that id |
| PersistFacts.WriteRowById | model.js:163-169 | the row-level form of the fact above |
| PersistFacts.SaveFlat | model.js:178 | a model without relations saves by writing its row and nothing more |
| PersistFacts.ChildrenSpare | model.js:471-475 | the has_many loop leaves every row it was not given by id as the detach left it |
| PersistFacts.HasManyDetaches | model.js:465-468 | a has_many save deletes no row, unsets the key of the owner's other children, and leaves rows of other owners as they were |
| PersistFacts.HasManyAttaches | model.js:458-478 | after a has_many save every saved child carries the owner's id under the foreign key and keeps the id it was given, and a row with that id points at the owner |
| PersistFacts.ChildrenAttach | model.js:471-475 | the has_many loop attaches every child it saves to the owner and keeps the children attached before it |
| PersistFacts.ChildAttaches | model.js:472-474 | one saved child points at the owner, in its record and in a row with its id, and no row pointing at the owner loses that link |
| PersistFacts.DetachShape | model.js:468 | the detaching update clears the key of exactly the owner's rows whose id is not listed |
| PersistFacts.TargetsKeepJoins | model.js:527-545 | current engine: targets already joined to the owner add no join row |
| PersistFacts.LinkTargetKeepsJoins | model.js:529-531 | current engine: linking a target already joined leaves the join table unchanged |
| PersistFacts.HabtmRelinkInsertsNothing | model.js:515-545 | current engine: re-saving with already joined targets only deletes the join rows the payload dropped |
| PersistFacts.NothingUnlinked | model.js:519 | when the payload still carries every joined target, the unlinking delete removes nothing |
| PersistFacts.HabtmResaveKeepsJoins | model.js:505-558 | current engine: re-saving an owner with exactly its joined targets leaves the join table as it was |
| PersistFacts.TargetsAppendJoins | lib/model.js:518-535 | older engine: every payload item appends one join row |
| PersistFacts.LinkTargetAppendsJoin | lib/model.js:521-533 | older engine: linking one target appends exactly one join row |
| PersistFacts.LegacyHabtmAppendsJoins | lib/model.js:496-561 | older engine: a save leaves the join table as the rows the unlinking delete kept, in place, followed by one new row per payload item, even when every target was already joined |
| PersistFacts.LinkTargetJoins | model.js:527-545 | linking one target leaves the join table alone when it counts as already joined, and otherwise appends exactly its join row, under the last uuid drawn |
| PersistFacts.LinkedRows | model.js:531-542 | the join table after the insert `LinkTarget` makes or skips |
| PersistFacts.JoinRowAppended | model.js:533-542 | inserting a join row appends that row, with the uuid just drawn |
| PersistFacts.LinkedSurvive | model.js:515-519 | a target the owner was joined to and the payload still carries keeps its join row through the unlinking delete |
| PersistFacts.TargetsJoin | model.js:527-547 | the join-table loop joins the owner to every item it saves |
| PersistFacts.HabtmJoinsEvery | model.js:505-558 | on either engine, after a save the owner is joined to every target the payload carries, whether it was joined before or not |
| PersistFacts.CascadeDeletes | model.js:113-119 | a row survives the dependent deletes exactly when no cascading relation deletes from its table by a key that holds the record's id; no row is added and untargeted tables are unchanged |
| PersistFacts.DestroyDeletes | model.js:103-128 | a row survives destroy exactly when it is neither the record's own row nor a row some cascading relation points at the record with; no row is added |
| PersistFacts.UntypedDependentDeletes | model.js:109-117 | a relation declared with only `dependent`, `table` and `key` cascades, deleting from that table by that key |
| PersistFacts.CreateAppends | model.js:83-100 | creating one record of a flat model appends exactly its row and returns it |
| PersistFacts.InsertedRecord | model.js:166-171 | an insert reports back the row it appended |
| PersistFacts.CreateAllAppends | model.js:90-95 | creating a list appends one row per item, keeping the earlier rows as a prefix |
| PersistFacts.SaveAsWrittenNeverSaves | model.js:59-67 | as written, `save` on the current engine always fails |
| PersistFacts.KnexUnboundWitness | model.js:63-65 | a connected registry and an empty record: `save` as written throws where the corrected one inserts a row |
| Eager.MatchingMembers | model.js:635 | the filter keeps exactly the rows of the input whose column holds the value |
| Eager.Joined | model.js:641 | the join filter keeps exactly the rows of the input whose id is listed |
| Eager.Fetch | model.js:576-623 | has_many and belongs_to cost one query, a join-table relation two (join rows, then targets), and each query selects by the owners' ids or keys |
| Eager.FetchAll | model.js:570-574 | the batch fails exactly when an included name is not a relation, with the first such name; otherwise one fetch per name |
| Eager.Place | model.js:631 | `find` returning undefined leaves the key absent; a found row is placed under the key |
| Eager.GraftValueReads | model.js:627-646 | a graft reads the result only through `id` or the belongs_to key |
| Eager.Graft | model.js:629-643 | a graft writes only the relation's own name |
| Eager.IncludeRelations | model.js:565-650 | no owners or no names: nothing queried; an unknown name fails the batch; otherwise every owner keeps its columns and the batch costs a fixed number of queries per relation |
| Eager.MatchingSelected | model.js:581 | filtering the batch for one owner's value gives what a query for that value alone returns |
| Eager.JoinedSelected | model.js:595 | keeping the batched targets a join list names gives what a query for that list alone returns |
| Eager.BatchIsPerOwner | model.js:576-646 | what the batch grafts onto an owner is what that owner's own query would load |
| Eager.GraftAllSlots | model.js:627-646 | after all the grafts each relation's slot holds its graft onto the result as first read |
| Eager.GraftsKeepOwners | model.js:627-646 | owner columns that are not included names survive the grafts unchanged |
| Eager.IncludedAsPerOwner | model.js:565-650 | eager loading gives each owner what per-owner queries would load, at a cost independent of the number of owners |
| Present.Settle | model.js:317 | an absent context is `'default'` on the current engine and the key "undefined" on the older one |
| Present.Json | model.js:316-364 | an unprojecting context returns the instance unchanged; a field list keeps exactly the listed fields the instance has; a function context applies the function |
| Present.JsonItems | model.js:320-323 | a list is presented element by element and fails if any element does |
| Present.Contextualise | model.js:330-361 | the context mapping of one instance: a function, the model's named context, or nothing |
| Present.Project | model.js:341-359 | the projection copies exactly the listed keys the instance has, plain fields unchanged |
| Present.RelTable | model.js:350 | a relation's values are presented by the model of its resolved table; an unmarked declaration keeps the `table` it was given (model.js:27-56), and without one the registry is asked for `undefined` |
| Present.ProjectPresents | model.js:348-351 | every relation key the projection copies holds its value presented by the relation's table's model under the same context name |
| Present.RelationPresentedByItsTable | model.js:348-351 | a listed relation key is presented by the model of the relation's table, and if that presentation fails the whole `json` fails |
| Present.UntypedRelationWitness | model.js:348-351 | `notes: {table: 'comments'}` with no kind marker is presented by `comments`'s `['id']` context, leaving only the notes' ids |
| Present.JsonOf | model.js:316-364 | `json` with an absent context is `json` under `'default'` on the current engine |
| Present.ProjectionKeepsListed | model.js:341-359 | a field list naming no relation yields exactly the listed fields the instance has, with their values |
| Present.ProjectionIdempotent | model.js:341-359 | presenting a presented instance again under the same field list changes nothing |
| Present.ListElementwise | model.js:320-323 | a list is presented element-wise whatever the context |
| Present.PageWindow | model.js:289-299 | the current engine takes 20 per page by default and skips the earlier pages; the older one limits to n and skips n times the size |
| Present.Apply | model.js:292-295 | a window skips the offset and takes at most the limit, and a negative limit or offset is refused |
| Present.CurrentPageSlice | model.js:289-299 | page n is the slice from (n-1)·size to n·size, clipped to the rows |
| Present.PagesTile | model.js:289-299 | pages 1 to k are exactly the first k·size rows, nothing skipped or repeated |
| Present.LegacyPageSizeIsPageNumber | lib/model.js:258-266 | on the older engine page n holds n rows whatever size is asked for |
| Present.LegacyPageWitness | lib/model.js:258-266 | page 3 of 20 over 100 rows: rows 60 to 62 on the older engine, 40 to 59 on the current one |
| Scaffold.SeparatorAt | util.js:27 | only `-to-`, `-for-` or `-on-` is recognised, within the text |
| Scaffold.FirstSeparator | util.js:27 | the lazy `.*?` stops at the first separator |
| Scaffold.SplitAtSeparator | util.js:27 | a match cuts the name at its first separator, and a name with a line terminator never matches |
| Scaffold.MatchVerbName | util.js:27 | only names starting with `add-` or `update-` match, split after the verb |
| Scaffold.MatchTableName | util.js:50 | the table regular expression cuts at the first separator from the start |
| Scaffold.SplitAtSeparatorInverts | util.js:50 | a name built from a separator-free part, a separator and a tail is cut back into them |
| Scaffold.MatchVerbNameInverts | util.js:27 | matching a migration name built from verb, columns, separator and table gives back columns and table |
| Scaffold.ColonArgs | util.js:8 | exactly the arguments containing `:` are kept |
| Scaffold.ColumnFromArg | util.js:11-25 | the first part names the column, the second types it, and it is indexed when the name ends in `at` or `id` or a non-empty third part is given |
| Scaffold.ColumnFromArgInverts | util.js:12-24 | `name:type` is read back as that column |
| Scaffold.IndexedColumnFromArgInverts | util.js:12-24 | `name:type:index` is read back with a non-empty index part asking for an index |
| Scaffold.ColumnsFromName | util.js:31-40 | one string column per `-and-` piece, underscored and camel-cased |
| Scaffold.GuessColumns | util.js:7-42 | the `name:type` arguments when there are any, otherwise the columns the migration name lists, otherwise none |
| Scaffold.GuessColumnsAsWritten | util.js:7-42 | as written, the name branch throws a ReferenceError exactly when it is reached |
| Scaffold.GuessColumnsAgree | util.js:10-25 | off the name branch the function as written and as meant agree |
| Scaffold.GuessColumnsFromNameWitness | util.js:27-32 | `add-email-to-users`: as written it throws, as meant it gives one column |
| Scaffold.GuessColumnsFromNameInverts | util.js:27-40 | a migration name lists one string column per `-and-` piece of its columns part, in order |
| Scaffold.GuessTableName | util.js:48-56 | the underscored text after the first separator, or the empty name |
| Scaffold.GuessTableNameAsWritten | util.js:48-56 | as written, a matching name throws a ReferenceError and any other gives the empty name |
| Scaffold.GuessTableNameInverts | util.js:50-53 | `head-sep-table` names the underscored table as meant and throws as written |
| Scaffold.RootPath | util.js:62-67 | a non-empty `APP_ROOT` wins, otherwise the guessed root plus `/tmp` |
| Scaffold.FirstExisting | util.js:141 | `find` stops at the first candidate that exists under the base |
| Scaffold.FirstPathThatExists | util.js:140-142 | the first existing non-empty candidate, otherwise the first candidate; undefined only with no candidates |
| Scaffold.NormaliseTimestamps | util.js:115-130 | `true` in an object is spelled out as the key, false turns both off, unset names both, null throws, anything else stays |
| Scaffold.SpellOut | util.js:118-119 | only the given key changes, and only from true |
| Scaffold.NormaliseTimestampsIdempotent | util.js:115-130 | normalising a normalised setting changes nothing |
| Scaffold.Setting | util.js:98 | only an object section has settings |
| Scaffold.Assemble | util.js:97-132 | each path is the truthy setting or the first existing candidate; the timestamps are normalised; overrides replace what was found |
| Scaffold.GetConfigAsWritten | util.js:84-133 | a readable `package.json` without a `klein` section, or with a null one, throws |
| Scaffold.GetConfig | util.js:84-133 | a missing section counts as no settings; the only failure is a null timestamps setting; overrides always win |
| Scaffold.GetConfigAgrees | util.js:84-133 | wherever the function as written returns, the corrected one returns the same |
| Scaffold.GetConfigWithoutSectionWitness | util.js:91-98 | no `klein` section and an empty disk: as written it throws, as meant it gives the first candidates |
| Tasks.ModelStatements | tasks/index.js:45-48 | one `table.TYPE('NAME');` per `name:type` argument, in order |
| Tasks.MatchAddTo | tasks/index.js:51 | a match is `add-` columns `-to-` table, cut at the first `-to-` |
| Tasks.MatchAddToInverts | tasks/index.js:51-53 | `add-COLUMNS-to-TABLE` is taken apart into its two parts |
| Tasks.Underscored | tasks/index.js:56 | each piece is underscored, in order |
| Tasks.StringStatements | tasks/index.js:57-59 | one string column statement per name, in order |
| Tasks.Quoted | tasks/index.js:61 | each name is single-quoted, in order |
| Tasks.PlanFor | tasks/index.js:30-65 | a model migration is `create-` plus the plural with the typed columns; an `add-…-to-…` name adds and drops string columns on its table; any other name takes its table from after its last dash |
| Tasks.NewMigration | tasks/index.js:10-82 | no arguments reject; `no-migration` writes nothing; otherwise the migrator's file gets the rendered template, and a migrator error rejects |
| Tasks.ModelColumnsRoundTrip | tasks/index.js:45-48 | the joined column statements split back into one per `name:type` argument, in order |
| Tasks.AddToPlan | tasks/index.js:51-61 | `add-COLUMNS-to-TABLE` migrates TABLE with one added and one dropped string column per piece |
| Tasks.OtherNamePlan | tasks/index.js:62-64 | any other name takes its table from after its last dash and adds no column |
| Tasks.NewModel | tasks/index.js:85-123 | no arguments reject; `no-model` or an existing model file writes nothing; otherwise the model file gets the template |
| Tasks.NewModelTaskAsWritten | tasks/index.js:305-310 | the migration runs first; its failure ends the task; otherwise the model follows and the files are listed migration first |
| Tasks.NewModelTask | tasks/index.js:305-310 | with no arguments the task rejects before writing anything; otherwise it is the task as written |
| Tasks.NewModelTaskOrder | tasks/index.js:305-310 | a successful task lists the migration's file first, then the model's |
| Tasks.NewModelTaskEmptyWitness | tasks/index.js:305-310 | with no arguments, as written, a migration is written and then the task rejects; as meant nothing is written |
| Tasks.ReportedFiles | tasks/index.js:138-149 | the files reported are the migrator's files, in order, and each is listed by its name relative to the directory |
| Tasks.ReportedNames | tasks/index.js:141-147 | files the migrator names under the directory are listed by their bare names |
| Tasks.Version | tasks/index.js:204-212 | `none` means no version; any other answer is the version |
| Tasks.ColumnMeta | tasks/index.js:227-240 | the meta text is empty exactly when the column is nullable and has no truthy default |
| Tasks.ColumnMetaRoundTrip | tasks/index.js:227-240 | the meta text loses nothing: non-nullability and the shown default are read back |
| TaskUtil.Search | tasks/util.js:13-19 | a directory the walk finds is non-empty and holds a project marker |
| TaskUtil.StepsToMarker | tasks/util.js:13-19 | the walk finds a directory exactly when some step within the limit is marked, and it is that step's ancestor |
| TaskUtil.SearchFindsNearest | tasks/util.js:9-21 | the directory found is the nearest marked ancestor |
| TaskUtil.SearchMissesOnlyUnmarked | tasks/util.js:12-19 | the walk finds nothing only when no ancestor it reaches is marked |
| TaskUtil.AppRoot | tasks/util.js:6-22 | a non-empty `APP_ROOT` wins, otherwise the nearest marked ancestor within 50 steps, otherwise null |
| TaskUtil.Given | tasks/util.js:46-48 | a non-empty argument wins over the fallback |
| TaskUtil.Discovered | tasks/util.js:28-43 | a path under the root is the first candidate that exists, else the second, else the default: `/models`, `/app/models`, `/app/server/models` for models and `/app/migrations`, `/app/server/migrations`, `/migrations` for migrations |
| TaskUtil.LoadConfig | tasks/util.js:25-54 | each setting given by the caller wins; the others are discovered under the application root; the database is the caller's handle or a Postgres client |
| TaskUtil.LoadConfigUnderRoot | tasks/util.js:26-43 | without settings both paths lie under the root, an unknown root printing as "null" |
| TaskUtil.ReplaceAllAbsent | tasks/util.js:70 | a text without the placeholder is left as it is |
| TaskUtil.ReplaceAllSame | tasks/util.js:70 | replacing a placeholder by itself changes nothing |
| TaskUtil.Placeholder | tasks/util.js:70 | the placeholder is the key upper-cased in double braces |
| TaskUtil.WithTab | tasks/util.js:66-67 | the tab entry takes four spaces, in place if the key exists, otherwise last; other entries are kept |
| TaskUtil.TemplateSource | tasks/util.js:58-64 | a text with a newline is the template itself; anything else names a template file |
| TaskUtil.SaveTemplate | tasks/util.js:57-77 | the text written is the template with each key's placeholder replaced in turn, tab entry included; the caller's replacements gain the tab entry |
| TaskUtil.RenderWithoutPlaceholders | tasks/util.js:69-71 | a template with no `{{` is written unchanged |
| TaskUtil.SaveTemplateKeepsTabs | tasks/util.js:66-71 | as written, a template's bare tabs survive the tab entry |
| TaskUtil.ExpandTabs | tasks/util.js:66 | every tab becomes four spaces and a tab-free text is unchanged |
| TaskUtil.SaveTemplateExpanded | tasks/util.js:66-71 | as meant, the written text holds no tab and otherwise agrees with the function as written |
| TaskUtil.TabWitness | tasks/util.js:66-71 | a template with a tab keeps it as written, and has four spaces as meant |
| TaskUtil.JustFilename | tasks/util.js:80-82 | the first occurrence of the base and a slash right after it are removed; a path without the base is unchanged |
| TaskUtil.JustFilenameOfChild | tasks/util.js:80-82 | a file named under its directory comes back as its bare name |

## Left out

- I/O:
  - logging (`Log`);
  - `FS.mkdirsSync` and `ensureDir`;
  - writing files.

  The text a task would write is returned as a value.
- Concurrency: every `Promise.all` runs its items one after the other in list order. No interleaving of the concurrent saves, and no race between a has_many detach and another save, is modelled.
- Transactions: the `transaction` option of `knex()` is not modelled. A failure returns only the error; rows written before it are not described.
- The query-builder chain of the current engine:
  - `query`, `where`, `first`, `all`, `find`, `reload`, `delete`, `order`, `toString`, `_chain`;
  - the `default_scope`.

  `page` is modelled as the limit and offset it sets, applied to the rows a query returns. `include` is modelled as the list of names `_includeRelations` receives.
- The `klein.model(table, args)` registration and `klein.connect` (index.js): the registry is given as a value.
- `schema` and `schemaForTable` (tasks/index.js:218-299): only the meta text of a column is modelled, because the rest is database introspection. `schema` passes its whole configuration where `schemaForTable` expects arguments (tasks/index.js:261); this is not modelled.
- The knex migrator (`make`, `latest`, `rollback`, `currentVersion`) is a parameter or an input value.
- Regular expressions: the patterns built at run time (tasks/util.js:70, 81) are taken literally. Placeholder keys and base paths with metacharacters, and `$` patterns in replacement strings, are not modelled.
- `Object.keys` order of the replacements is the order of the entry list. Integer-like keys, which JavaScript lists first, are not modelled.
- `toLowerCase`/`toUpperCase` map only ASCII letters.
- `Path.join` and `Path.dirname` do not normalise: the first is `base + "/" + p`, the second a parameter.
- Arrays and Dates stored in a column are stringified to an opaque `Json` tag. Dates are instants, not wall-clock values.
- Loose `==` in `version` and in the join-id filter of the graft (model.js:640) is modelled as equality of values of one type.
- Eager.Fetch: a declaration carrying `type: 'one'`, or any other type string the engine does not know, is treated as untyped. The query model.js:601-606 issues for `'one'` (one `whereIn(key, ids).limit(1)` that grafts nothing) is not modelled.
- Property names of `Object.prototype` (`constructor`, `toString`, …) used as relation or context names are not modelled.
- A relation named `id` is excluded by the facts that need it.
- Eager.IncludeRelations: the unknown-name branch of the current engine calls a `reject` that is not in scope. This is modelled as a ReferenceError that fails the batch; Node's unhandled-error behaviour is not modelled.
- Persist.Save: its contract states the refusals and the state counter. What it writes is stated by the PersistFacts lemmas, under the hypotheses they name (plain ids, flat related models).
- Persist.SaveHasMany and Persist.SaveHabtm: their contracts state only the shape of the saved list. Their effect on the tables is in PersistFacts.HasManyDetaches, PersistFacts.HasManyAttaches, PersistFacts.HabtmJoinsEvery, PersistFacts.HabtmResaveKeepsJoins and PersistFacts.LegacyHabtmAppendsJoins, for related models without relations of their own.
- PersistFacts.HasManyAttaches: it needs every id the payload carries to be the id of a row already in the child table. A child given an id with no row is saved as an update, which writes nothing, so no row points at the owner for it.
- PersistFacts.HabtmJoinsEvery: it covers payloads whose items all carry a plain id; an item without one is saved as a new target under an id the save draws, which this lemma does not follow. It also needs the foreign key and the source key to differ and to be no timestamp column.
- Persist.Create: on the older engine a list `create` returns `Object.assign({}, o)` copies of the saved Immutable maps (lib/model.js:81), which expose none of the record's fields; the model returns the saved records on both engines.
- Persist.Save: the current engine copies a non-object record with `Object.assign({}, model)` (model.js:136), so a number or boolean saves an empty record and a string or array saves its characters or items under index keys. The model fails for every record that is not an object: null with a TypeError, anything else as an unsupported record. Only null and undefined throw in the source.
- Models.ToPlain: the same copy of a non-object record (model.js:136). The model fails for it where the source yields the index-keyed or empty object.
- Persist.SaveRelations: the savers are run in the order the relations were declared; the source starts them together in the order of the record's own keys (model.js:426), and which order the writes land in is not modelled.
- Caller's objects: the source writes the owner's id into each has_many payload object the caller passed (model.js:472, lib/model.js:450), and `saveTemplate` adds the tab entry to the caller's replacements object (tasks/util.js:66-67). The model has no shared mutable objects: it returns the changed values instead.
- Numbers: `Js.Value` holds integers only. Fractional numbers, `NaN` (which is falsy) and the infinities are not modelled.
- Tasks.Version: when the migrator's `currentVersion` fails, the promise `version` returns never settles, because the source has no `catch` (tasks/index.js:204-213). The model takes the migrator's answer as its input and does not model a failing migrator.
- TaskUtil.StepsToMarker, TaskUtil.AppRoot: the walk is bounded by its own 50-step limit, which is the source's `levels` counter.
- Scaffold.GuessColumns: the name branch's `index` is the truthiness of the match the source computes, not the match array itself.
- Persist.Destroy, Persist.Create, Eager.IncludeRelations: on the current engine these members, and the lemmas built on them (PersistFacts.DestroyDeletes, PersistFacts.CascadeDeletes, PersistFacts.CreateAppends, PersistFacts.CreateAllAppends, Eager.IncludedAsPerOwner), model the corrected `knex()` that queries the connected builder. As written, each query they issue (model.js:107, 118, 158-168, 581-615) calls the unbound `this._knex` and rejects with the TypeError that Persist.KnexAsWritten states, just as `save` does.
- Persist.Destroy, Present.Json: a record is one `Obj` whether the caller passes an Immutable map or a plain object. On a plain object the source throws a TypeError where the model goes on: `destroy` reads `model.get('id')` (model.js:107, lib/model.js:97), and a projecting `json` calls `instance.has(key)` (model.js:346, lib/model.js:311), also on a nested relation value. The model deletes and cascades in the first case and projects in the second.

## Findings

| source | as written | input that shows it | evidently intended | confidence | as-written member | corrected member |
|---|---|---|---|---|---|---|
| lib/model.js:258-266 | `page(n, per_page)` limits to `n` rows and skips `n * per_page` | page 3 of 20 over 100 rows gives rows 60-62 | `per_page` rows, skipping `(n - 1) * per_page`, as model.js:289-299 does | not executed | Present.LegacyPageSizeIsPageNumber | Present.PagesTile |
| lib/model.js:522 | the saved target is an Immutable map, so `object.id` is undefined and never found among the joined ids | re-saving an owner with a target it is already joined to | no second join row for a pair already joined, as model.js:530 does | not executed | PersistFacts.LegacyHabtmAppendsJoins | PersistFacts.HabtmResaveKeepsJoins |
| util.js:32 | `Inflect` is used without being required | `guessColumns([], 'add-email-to-users')` throws a ReferenceError | one string column `email` | not executed | Scaffold.GuessColumnsFromNameWitness | Scaffold.GuessColumns |
| util.js:52 | `Inflect` is used without being required | `guessTableName('add-email-to-users')` throws a ReferenceError | the table name `users` | not executed | Scaffold.GuessTableNameAsWritten | Scaffold.GuessTableName |
| util.js:92-98 | a `package.json` without a `klein` section leaves the section undefined, and reading `migrationsPath` from it throws | a project whose `package.json` has no `klein` key | fall back on the candidate directories, as for an unreadable file | not executed | Scaffold.GetConfigWithoutSectionWitness | Scaffold.GetConfig |
| model.js:63-65 | `knex()` calls `this._knex`, which the current constructor never assigns | any `save` on a connected current-engine model; likewise `create` (through `save`), `destroy` (model.js:107, 118) and `include` with owners and names (model.js:581-615) | query the connected knex, as lib/model.js:9 binds it | not executed | PersistFacts.KnexUnboundWitness | Persist.Save |
| tasks/index.js:305-310 | the migration runs before the argument check | `newModel([])` writes a `create-models` migration and then rejects | reject before writing anything | not executed | Tasks.NewModelTaskEmptyWitness | Tasks.NewModelTask |
| tasks/util.js:66-70 | the tab entry builds the placeholder `{{\t}}`, so bare tabs are never replaced | a template holding `x\n\ty` is written with its tab | tabs changed to four spaces, as the comment at line 66 says | not executed | TaskUtil.TabWitness | TaskUtil.SaveTemplateExpanded |

=== FILE: eager.dfy ===
/** Eager loading of the relations named by `include` (`_includeRelations`,
    model.js:564-647, lib/model.js:568-650): one batch of queries serves every
    owner row of a result, and each owner then gets its share of the fetched
    rows grafted on under the relation's name. The fan-out over the included
    names is taken in list order. */
module Eager {
  import opened Js
  import opened Relations
  import opened Store
  import opened Models

  /** `select ... from table where column in (values)`. */
  datatype Query = Query(table: string, column: string, values: seq<Scalar>)

  /** What the batch brought back for one included relation: the join rows
      (join-table relations only) and the related rows. */
  datatype Fetched = Fetched(rel: Relation, joins: seq<Row>, rows: seq<Row>)

  /** How many queries the batch spends on a relation. */
  function Cost(rel: Relation): nat {
    match rel
    case HasManyRel(_, _, _, _) => 1
    case BelongsToRel(_, _, _) => 1
    case HabtmRel(_, _, _, _, _) => 2
    case Untyped(_, _, _, _) => 0
  }

  /** The queries a list of included names costs; it depends on the model
      and the names only. */
  function TotalCost(m: ModelDef, names: seq<string>): nat {
    if |names| == 0 then 0
    else
      (match RelationNamed(m.relations, names[0])
       case Some(rel) => Cost(rel)
       case None => 0) + TotalCost(m, names[1..])
  }

  /** A row as the plain object the loader hands back. */
  function AsFields(r: Row): (f: Fields)
    ensures f.Keys == r.Keys && forall c :: c in r ==> f[c] == r[c]
  {
    map c | c in r :: r[c]
  }

  function AsValues(rows: seq<Row>): (vs: seq<Value>)
    ensures |vs| == |rows| && forall i :: 0 <= i < |rows| ==> vs[i] == Obj(AsFields(rows[i]))
  {
    seq(|rows|, i requires 0 <= i < |rows| => Obj(AsFields(rows[i])))
  }

  function AllFields(rows: seq<Row>): (fs: seq<Fields>)
    ensures |fs| == |rows| && forall i :: 0 <= i < |rows| ==> fs[i] == AsFields(rows[i])
  {
    seq(|rows|, i requires 0 <= i < |rows| => AsFields(rows[i]))
  }

  /** `rows.filter(r => r[c] === v)`. */
  function Matching(rows: seq<Row>, c: string, v: Value): (r: seq<Row>)
    ensures |r| <= |rows|
  {
    if |rows| == 0 then []
    else (if Col(rows[0], c) == v then [rows[0]] else []) + Matching(rows[1..], c, v)
  }

  /** The filter keeps exactly the rows whose column holds the value. */
  lemma {:induction false} MatchingMembers(rows: seq<Row>, c: string, v: Value)
    ensures forall x :: x in Matching(rows, c, v) <==> x in rows && Col(x, c) == v
  {
    if |rows| > 0 {
      MatchingMembers(rows[1..], c, v);
      assert rows == [rows[0]] + rows[1..];
    }
  }

  /** `rows.filter(r => ids.includes(r.id))`. */
  function Joined(rows: seq<Row>, ids: seq<Scalar>): (r: seq<Row>)
    ensures |r| <= |rows|
    ensures forall x :: x in r <==> x in rows && Col(x, "id") in ids
  {
    if |rows| == 0 then []
    else (if Col(rows[0], "id") in ids then [rows[0]] else []) + Joined(rows[1..], ids)
  }

  /** The queries of one included relation for the given owners. A
      relation with no kind is fetched as nothing and costs no query. */
  function Fetch(rel: Relation, owners: seq<Row>, db: Db): (r: (Fetched, seq<Query>))
    ensures r.0.rel == rel && |r.1| == Cost(rel)
    ensures rel.HasManyRel? ==> r.1[0] == Query(rel.table, rel.key, Column(owners, "id"))
    ensures rel.BelongsToRel? ==> r.1[0] == Query(rel.table, "id", Column(owners, rel.key))
    ensures rel.HabtmRel? ==>
      r.1[0] == Query(rel.throughTable, rel.sourceKey, Column(owners, "id")) && r.1[1].table == rel.table
  {
    var ids := Column(owners, "id");
    match rel
    case HasManyRel(_, table, key, _) =>
      (Fetched(rel, [], Select(Rows(db, table), [In(key, ids)])), [Query(table, key, ids)])
    case BelongsToRel(_, table, key) =>
      var keys := Column(owners, key);
      (Fetched(rel, [], Select(Rows(db, table), [In("id", keys)])), [Query(table, "id", keys)])
    case HabtmRel(_, table, key, sourceKey, through) =>
      var joins := Select(Rows(db, through), [In(sourceKey, ids)]);
      var targets := Column(joins, key);
      (Fetched(rel, joins, Select(Rows(db, table), [In("id", targets)])),
       [Query(through, sourceKey, ids), Query(table, "id", targets)])
    case Untyped(_, _, _, _) => (Fetched(rel, [], []), [])
  }

  /** The error for an included name that is not a relation. The current
      engine calls a `reject` that is not bound in that scope; the older
      engine rejects with "'name' is not a relation". */
  function UnknownRelation(engine: Engine, name: string): Error {
    if engine == Current then ReferenceError("reject") else NotARelation(name)
  }

  /** The fan-out over the included names: the first name that is not a
      relation fails the batch. */
  function FetchAll(engine: Engine, m: ModelDef, owners: seq<Row>, names: seq<string>, db: Db): (r: Result<(seq<Fetched>, seq<Query>)>)
    ensures r.Err? <==> exists j :: 0 <= j < |names| && !IsRelationName(m, names[j])
    ensures r.Err? ==> exists j :: (0 <= j < |names| && !IsRelationName(m, names[j])
      && r.error == UnknownRelation(engine, names[j])
      && forall i :: 0 <= i < j ==> IsRelationName(m, names[i]))
    ensures r.Ok? ==> |r.value.0| == |names| && |r.value.1| == TotalCost(m, names)
    ensures r.Ok? ==> forall j :: 0 <= j < |names| ==>
      IsRelationName(m, names[j]) && r.value.0[j] == Fetch(RelationNamed(m.relations, names[j]).value, owners, db).0
  {
    if |names| == 0 then Ok(([], []))
    else
      match RelationNamed(m.relations, names[0])
      case None => Err(UnknownRelation(engine, names[0]))
      case Some(rel) =>
        var (f, qs) := Fetch(rel, owners, db);
        var rest := FetchAll(engine, m, owners, names[1..], db);
        if rest.Err? then
          assert forall i :: 1 <= i < |names| ==> names[1..][i - 1] == names[i];
          rest.PropagateFailure()
        else
          var (fs, log) := rest.value;
          assert forall i :: 1 <= i < |names| ==> names[1..][i - 1] == names[i];
          Ok(([f] + fs, qs + log))
  }

  /** Puts an optional value under a key; `None` (JavaScript's `undefined`)
      leaves the key absent. */
  function Place(f: Fields, key: string, v: Option<Value>): (r: Fields)
    ensures v.Some? ==> key in r && r[key] == v.value
    ensures v.None? ==> key !in r
    ensures forall c :: c != key ==> (c in r <==> c in f) && (c in f ==> r[c] == f[c])
  {
    match v
    case Some(x) => f[key := x]
    case None => f - {key}
  }

  /** What a key holds, `None` when it is absent. */
  function Slot(f: Fields, key: string): Option<Value> {
    if key in f then Some(f[key]) else None
  }

  /** The columns of a result that a graft of this relation reads. */
  function Reads(rel: Relation): set<string> {
    match rel
    case HasManyRel(_, _, _, _) => {"id"}
    case BelongsToRel(_, _, key) => {key}
    case HabtmRel(_, _, _, _, _) => {"id"}
    case Untyped(_, _, _, _) => {}
  }

  /** The value one fetched relation grafts onto one result: for belongs_to
      the first fetched row whose id is the result's key (or `undefined`),
      for has_many the fetched rows whose key is the result's id, and for a
      join-table relation the fetched rows whose id some join row of the
      result names. */
  function GraftValue(f: Fetched, result: Fields): Option<Value> {
    match f.rel
    case BelongsToRel(_, _, key) =>
      var hits := Matching(f.rows, "id", Get(result, key));
      if |hits| == 0 then None else Some(Obj(AsFields(hits[0])))
    case HasManyRel(_, _, key, _) =>
      Some(Arr(AsValues(Matching(f.rows, key, Get(result, "id")))))
    case HabtmRel(_, _, key, sourceKey, _) =>
      var linked := Column(Matching(f.joins, sourceKey, Get(result, "id")), key);
      Some(Arr(AsValues(Joined(f.rows, linked))))
    case Untyped(_, _, _, _) => None
  }

  /** A graft depends on the result only through the columns it reads. */
  lemma GraftValueReads(f: Fetched, a: Fields, b: Fields)
    requires forall c :: c in Reads(f.rel) ==> Get(a, c) == Get(b, c)
    ensures GraftValue(f, a) == GraftValue(f, b)
  {
    match f.rel
    case BelongsToRel(_, _, key) => assert key in Reads(f.rel);
    case HasManyRel(_, _, _, _) => assert "id" in Reads(f.rel);
    case HabtmRel(_, _, _, _, _) => assert "id" in Reads(f.rel);
    case Untyped(_, _, _, _) =>
  }

  /** One case of the grafting `switch`; a relation with no kind matches no
      case and leaves the result alone. */
  function Graft(f: Fetched, result: Fields): (r: Fields)
    ensures !f.rel.Untyped? ==> Slot(r, f.rel.name) == GraftValue(f, result)
    ensures forall c :: c != f.rel.name ==> (c in r <==> c in result) && (c in result ==> r[c] == result[c])
  {
    if f.rel.Untyped? then result else Place(result, f.rel.name, GraftValue(f, result))
  }

  /** The grafts of every included relation onto one result, in order, each
      reading the result as the earlier ones left it. */
  function GraftAll(fs: seq<Fetched>, result: Fields): (r: Fields)
  {
    if |fs| == 0 then result else GraftAll(fs[1..], Graft(fs[0], result))
  }

  /** `_includeRelations`: with no owners or nothing included the owners come
      back as they are and nothing is queried; otherwise the batch is fetched
      and every owner, in order, gets the grafts. */
  function IncludeRelations(engine: Engine, m: ModelDef, owners: seq<Row>, names: seq<string>, db: Db): (r: Result<(seq<Fields>, seq<Query>)>)
    ensures |owners| == 0 || |names| == 0 ==> r == Ok((AllFields(owners), []))
    ensures r.Err? <==> |owners| > 0 && exists j :: 0 <= j < |names| && !IsRelationName(m, names[j])
    ensures r.Err? ==> exists j :: (0 <= j < |names| && !IsRelationName(m, names[j])
      && r.error == UnknownRelation(engine, names[j])
      && forall i :: 0 <= i < j ==> IsRelationName(m, names[i]))
    ensures r.Ok? ==> |r.value.0| == |owners|
    ensures r.Ok? ==> forall i, c :: 0 <= i < |owners| && c in owners[i] && c !in names ==>
      c in r.value.0[i] && r.value.0[i][c] == owners[i][c]
    ensures r.Ok? && |owners| > 0 ==> |r.value.1| == TotalCost(m, names)
  {
    if |owners| == 0 || |names| == 0 then Ok((AllFields(owners), []))
    else
      var (fs, log) :- FetchAll(engine, m, owners, names, db);
      assert forall j :: 0 <= j < |fs| ==> fs[j].rel.name == names[j];
      GraftsKeepOwners(fs, owners, names);
      Ok((seq(|owners|, i requires 0 <= i < |owners| => GraftAll(fs, AsFields(owners[i]))), log))
  }

  /** No included relation is named after a column that some relation's
      graft reads (`id`, or a belongs_to key): then no graft disturbs
      another's reading of the result. */
  predicate NoReadClash(m: ModelDef, names: seq<string>) {
    forall a, b :: 0 <= a < |names| && 0 <= b < |m.relations| ==> names[a] !in Reads(m.relations[b])
  }

  /** What one owner's own query would load: the rows of the related table
      whose key is the owner's id; the first row whose id is the owner's key;
      the target rows whose id a join row of the owner names. A null id or
      key loads nothing. */
  function PerOwner(rel: Relation, owner: Row, db: Db): Option<Value>
    requires !rel.Untyped?
  {
    match rel
    case HasManyRel(_, table, key, _) =>
      var id := Col(owner, "id");
      Some(Arr(AsValues(if id == Null then [] else Select(Rows(db, table), [Eq(key, id)]))))
    case BelongsToRel(_, table, key) =>
      var k := Col(owner, key);
      var hits := if k == Null then [] else Select(Rows(db, table), [Eq("id", k)]);
      if |hits| == 0 then None else Some(Obj(AsFields(hits[0])))
    case HabtmRel(_, table, key, sourceKey, through) =>
      var id := Col(owner, "id");
      var linked := if id == Null then [] else Column(Select(Rows(db, through), [Eq(sourceKey, id)]), key);
      Some(Arr(AsValues(Select(Rows(db, table), [In("id", linked)]))))
  }

  lemma {:induction false} MatchingAppend(a: seq<Row>, b: seq<Row>, c: string, v: Value)
    ensures Matching(a + b, c, v) == Matching(a, c, v) + Matching(b, c, v)
    decreases |a|, 1
  {
    if |a| == 0 {
      assert a + b == b;
    } else {
      MatchingAppendStep(a, b, c, v);
    }
  }

  /** The inductive step of `MatchingAppend`. */
  lemma {:induction false} MatchingAppendStep(a: seq<Row>, b: seq<Row>, c: string, v: Value)
    requires |a| > 0
    ensures Matching(a + b, c, v) == Matching(a, c, v) + Matching(b, c, v)
    decreases |a|, 0
  {
    var h := if Col(a[0], c) == v then [a[0]] else [];
    assert (a + b)[0] == a[0] && (a + b)[1..] == a[1..] + b;
    assert Matching(a + b, c, v) == h + Matching(a[1..] + b, c, v);
    MatchingAppend(a[1..], b, c, v);
    assert Matching(a, c, v) == h + Matching(a[1..], c, v);
  }

  lemma {:induction false} JoinedAppend(a: seq<Row>, b: seq<Row>, ids: seq<Scalar>)
    ensures Joined(a + b, ids) == Joined(a, ids) + Joined(b, ids)
    decreases |a|, 1
  {
    if |a| == 0 {
      assert a + b == b;
    } else {
      JoinedAppendStep(a, b, ids);
    }
  }

  /** The inductive step of `JoinedAppend`. */
  lemma {:induction false} JoinedAppendStep(a: seq<Row>, b: seq<Row>, ids: seq<Scalar>)
    requires |a| > 0
    ensures Joined(a + b, ids) == Joined(a, ids) + Joined(b, ids)
    decreases |a|, 0
  {
    var h := if Col(a[0], "id") in ids then [a[0]] else [];
    assert (a + b)[0] == a[0] && (a + b)[1..] == a[1..] + b;
    assert Joined(a + b, ids) == h + Joined(a[1..] + b, ids);
    JoinedAppend(a[1..], b, ids);
    assert Joined(a, ids) == h + Joined(a[1..], ids);
  }

  /** A single condition holds exactly when its one test does. */
  lemma MatchesOne(r: Row, c: Cond)
    ensures MatchesAll(r, [c]) <==> Holds(r, c)
  {
    assert [c][0] == c;
  }

  /** The first step of a select with one condition. */
  lemma SelectOneStep(rows: seq<Row>, c: Cond)
    requires |rows| > 0
    ensures Select(rows, [c]) == (if Holds(rows[0], c) then [rows[0]] else []) + Select(rows[1..], [c])
  {
    MatchesOne(rows[0], c);
  }

  /** Filtering the batch for one owner's value gives what a query for that
      value alone returns, provided the value was among those batched. */
  lemma {:induction false} MatchingSelected(rows: seq<Row>, c: string, vs: seq<Scalar>, v: Scalar)
    requires v in vs
    ensures Matching(Select(rows, [In(c, vs)]), c, v) == if v == Null then [] else Select(rows, [Eq(c, v)])
  {
    if |rows| > 0 {
      MatchingSelected(rows[1..], c, vs, v);
      SelectOneStep(rows, In(c, vs));
      SelectOneStep(rows, Eq(c, v));
      var head := if Holds(rows[0], In(c, vs)) then [rows[0]] else [];
      MatchingAppend(head, Select(rows[1..], [In(c, vs)]), c, v);
    }
  }

  /** Keeping the batched targets a join list names gives what a query for
      that list alone returns, when every non-null id of the list was batched. */
  lemma {:induction false} JoinedSelected(rows: seq<Row>, all: seq<Scalar>, linked: seq<Scalar>)
    requires forall x :: x in linked && x != Null ==> x in all
    ensures Joined(Select(rows, [In("id", all)]), linked) == Select(rows, [In("id", linked)])
  {
    if |rows| > 0 {
      JoinedSelected(rows[1..], all, linked);
      SelectOneStep(rows, In("id", all));
      SelectOneStep(rows, In("id", linked));
      var head := if Holds(rows[0], In("id", all)) then [rows[0]] else [];
      JoinedAppend(head, Select(rows[1..], [In("id", all)]), linked);
    }
  }

  lemma ColumnOfSubset(sub: seq<Row>, rows: seq<Row>, c: string)
    requires forall x :: x in sub ==> x in rows
    ensures forall v :: v in Column(sub, c) ==> v in Column(rows, c)
  {
    forall v | v in Column(sub, c)
      ensures v in Column(rows, c)
    {
      var i :| 0 <= i < |sub| && Column(sub, c)[i] == v;
      assert sub[i] in sub;
      var j :| 0 <= j < |rows| && rows[j] == sub[i];
      assert Column(rows, c)[j] == v;
    }
  }

  /** Batching is invisible to each owner: what the batch grafts onto an
      owner is what that owner's own query would have loaded. */
  lemma BatchIsPerOwner(rel: Relation, owners: seq<Row>, db: Db, i: nat)
    requires !rel.Untyped? && i < |owners|
    ensures GraftValue(Fetch(rel, owners, db).0, AsFields(owners[i])) == PerOwner(rel, owners[i], db)
  {
    var f := Fetch(rel, owners, db).0;
    var owner := AsFields(owners[i]);
    var ids := Column(owners, "id");
    assert ids[i] == Col(owners[i], "id");
    match rel
    case HasManyRel(_, table, key, _) =>
      MatchingSelected(Rows(db, table), key, ids, Col(owners[i], "id"));
    case BelongsToRel(_, table, key) =>
      var keys := Column(owners, key);
      assert keys[i] == Col(owners[i], key);
      MatchingSelected(Rows(db, table), "id", keys, Col(owners[i], key));
    case HabtmRel(_, table, key, sourceKey, through) =>
      var joins := Select(Rows(db, through), [In(sourceKey, ids)]);
      var id := Col(owners[i], "id");
      MatchingSelected(Rows(db, through), sourceKey, ids, id);
      var mine := Matching(joins, sourceKey, Get(owner, "id"));
      var linked := Column(mine, key);
      MatchingMembers(joins, sourceKey, Get(owner, "id"));
      ColumnOfSubset(mine, joins, key);
      JoinedSelected(Rows(db, table), Column(joins, key), linked);
  }

  /** No graft writes a column any graft reads, and grafts under the same
      name were fetched alike. */
  predicate GraftsApart(fs: seq<Fetched>) {
    && (forall a, b :: 0 <= a < |fs| && 0 <= b < |fs| ==> fs[a].rel.name !in Reads(fs[b].rel))
    && (forall a, b :: 0 <= a < |fs| && 0 <= b < |fs| && fs[a].rel.name == fs[b].rel.name ==> fs[a] == fs[b])
  }

  /** Every column a graft reads is the same in `acc` as in `base`. */
  predicate ReadsAgree(fs: seq<Fetched>, acc: Fields, base: Fields) {
    forall b, c :: 0 <= b < |fs| && c in Reads(fs[b].rel) ==> Get(acc, c) == Get(base, c)
  }

  /** With no read clashes and equal names fetched alike, every typed
      relation's slot after all the grafts is its graft onto the result as
      it first was. */
  lemma {:induction false} GraftAllSlots(fs: seq<Fetched>, acc: Fields, base: Fields)
    requires GraftsApart(fs) && ReadsAgree(fs, acc, base)
    ensures forall j :: 0 <= j < |fs| && !fs[j].rel.Untyped? ==> Slot(GraftAll(fs, acc), fs[j].rel.name) == GraftValue(fs[j], base)
    decreases |fs|, 1
  {
    if |fs| > 0 {
      GraftAllSlotsStep(fs, acc, base);
    }
  }

  /** The inductive step of `GraftAllSlots`. */
  lemma {:induction false} GraftAllSlotsStep(fs: seq<Fetched>, acc: Fields, base: Fields)
    requires |fs| > 0
    requires GraftsApart(fs) && ReadsAgree(fs, acc, base)
    ensures forall j :: 0 <= j < |fs| && !fs[j].rel.Untyped? ==> Slot(GraftAll(fs, acc), fs[j].rel.name) == GraftValue(fs[j], base)
    decreases |fs|, 0
  {
    var acc1 := Graft(fs[0], acc);
    var rest := fs[1..];
    GraftRestReads(fs, acc, base);
    GraftAllSlots(rest, acc1, base);
    assert GraftAll(fs, acc) == GraftAll(rest, acc1);
    forall j | 0 <= j < |fs| && !fs[j].rel.Untyped?
      ensures Slot(GraftAll(fs, acc), fs[j].rel.name) == GraftValue(fs[j], base)
    {
      if j > 0 {
        assert rest[j - 1] == fs[j];
      } else {
        GraftFirstSlot(fs, acc, base);
      }
    }
  }

  /** The first graft's slot survives the later ones: either a later graft
      of the same name writes the same value again, or none touches it. */
  lemma GraftFirstSlot(fs: seq<Fetched>, acc: Fields, base: Fields)
    requires |fs| > 0 && !fs[0].rel.Untyped?
    requires GraftsApart(fs) && ReadsAgree(fs, acc, base)
    requires forall j :: 0 <= j < |fs[1..]| && !fs[1..][j].rel.Untyped? ==>
      Slot(GraftAll(fs[1..], Graft(fs[0], acc)), fs[1..][j].rel.name) == GraftValue(fs[1..][j], base)
    ensures Slot(GraftAll(fs[1..], Graft(fs[0], acc)), fs[0].rel.name) == GraftValue(fs[0], base)
  {
    var rest := fs[1..];
    var name := fs[0].rel.name;
    if exists k :: 0 <= k < |rest| && rest[k].rel.name == name {
      var k :| 0 <= k < |rest| && rest[k].rel.name == name;
      assert rest[k] == fs[k + 1];
    } else {
      GraftUntouched(rest, Graft(fs[0], acc), name);
      GraftFirstReads(fs, acc, base);
    }
  }

  /** The first graft reads the columns it reads as in `base`. */
  lemma GraftFirstReads(fs: seq<Fetched>, acc: Fields, base: Fields)
    requires |fs| > 0 && !fs[0].rel.Untyped? && ReadsAgree(fs, acc, base)
    ensures Slot(Graft(fs[0], acc), fs[0].rel.name) == GraftValue(fs[0], base)
  {
    GraftValueReads(fs[0], acc, base);
  }

  /** Grafts under other names leave a slot as it was. */
  lemma {:induction false} GraftUntouched(fs: seq<Fetched>, acc: Fields, name: string)
    requires forall k :: 0 <= k < |fs| ==> fs[k].rel.name != name
    ensures Slot(GraftAll(fs, acc), name) == Slot(acc, name)
  {
    if |fs| > 0 {
      assert fs[0].rel.name != name;
      GraftUntouched(fs[1..], Graft(fs[0], acc), name);
    }
  }

  /** Grafts under other names leave a column, present or absent, as it was. */
  lemma {:induction false} GraftKeeps(fs: seq<Fetched>, acc: Fields, c: string)
    requires forall k :: 0 <= k < |fs| ==> fs[k].rel.name != c
    ensures c in GraftAll(fs, acc) <==> c in acc
    ensures c in acc ==> GraftAll(fs, acc)[c] == acc[c]
  {
    if |fs| > 0 {
      assert fs[0].rel.name != c;
      GraftKeeps(fs[1..], Graft(fs[0], acc), c);
    }
  }

  /** Every owner column that is not an included relation's name survives
      the grafts unchanged. */
  lemma GraftsKeepOwners(fs: seq<Fetched>, owners: seq<Row>, names: seq<string>)
    requires |fs| == |names| && forall j :: 0 <= j < |fs| ==> fs[j].rel.name == names[j]
    ensures forall i, c :: 0 <= i < |owners| && c in owners[i] && c !in names ==>
      c in GraftAll(fs, AsFields(owners[i])) && GraftAll(fs, AsFields(owners[i]))[c] == owners[i][c]
  {
    forall i, c | 0 <= i < |owners| && c in owners[i] && c !in names
      ensures c in GraftAll(fs, AsFields(owners[i])) && GraftAll(fs, AsFields(owners[i]))[c] == owners[i][c]
    {
      forall k | 0 <= k < |fs| ensures fs[k].rel.name != c { assert names[k] in names; }
      GraftKeeps(fs, AsFields(owners[i]), c);
    }
  }

  /** After the first graft, the columns the remaining grafts read are still
      as in `base`: the first graft writes only its own name, which no graft
      reads. */
  lemma GraftRestReads(fs: seq<Fetched>, acc: Fields, base: Fields)
    requires |fs| > 0
    requires GraftsApart(fs) && ReadsAgree(fs, acc, base)
    ensures GraftsApart(fs[1..]) && ReadsAgree(fs[1..], Graft(fs[0], acc), base)
  {
    forall b, c | 0 <= b < |fs[1..]| && c in Reads(fs[1..][b].rel)
      ensures Get(Graft(fs[0], acc), c) == Get(base, c)
    {
      assert fs[1..][b] == fs[b + 1];
      assert c != fs[0].rel.name;
    }
    forall a, b | 0 <= a < |fs[1..]| && 0 <= b < |fs[1..]|
      ensures fs[1..][a].rel.name !in Reads(fs[1..][b].rel)
      ensures fs[1..][a].rel.name == fs[1..][b].rel.name ==> fs[1..][a] == fs[1..][b]
    {
      assert fs[1..][a] == fs[a + 1] && fs[1..][b] == fs[b + 1];
    }
  }

  /** Eager loading gives every owner, under each included relation's name,
      exactly what a query of that owner's own would load, while the batch
      costs one query per has_many or belongs_to relation and two per
      join-table relation, however many owners there are. */
  lemma IncludedAsPerOwner(engine: Engine, m: ModelDef, owners: seq<Row>, names: seq<string>, db: Db, i: nat, j: nat)
    requires IncludeRelations(engine, m, owners, names, db).Ok?
    requires i < |owners| && j < |names| && NoReadClash(m, names)
    ensures IsRelationName(m, names[j])
    ensures var rel := RelationNamed(m.relations, names[j]).value;
      !rel.Untyped? ==> Slot(IncludeRelations(engine, m, owners, names, db).value.0[i], names[j]) == PerOwner(rel, owners[i], db)
    ensures |IncludeRelations(engine, m, owners, names, db).value.1| == TotalCost(m, names)
  {
    var fs := FetchAll(engine, m, owners, names, db).value.0;
    var base := AsFields(owners[i]);
    assert forall a :: 0 <= a < |fs| ==> fs[a].rel.name == names[a] && fs[a].rel in m.relations;
    GraftAllSlots(fs, base, base);
    var rel := RelationNamed(m.relations, names[j]).value;
    if !rel.Untyped? {
      BatchIsPerOwner(rel, owners, db, i);
    }
  }
}

=== FILE: js.dfy ===
/** JavaScript values as the relation engine handles them, and the few pieces
    of JavaScript semantics the engine branches on: truthiness, `typeof x ===
    "object"`, and the JSON stringification `_serialize` applies to object
    values. A JavaScript `undefined` is never a `Value`: a property holding
    `undefined` is modelled as an absent key of the enclosing map. */
module Js {

  datatype Option<+T> = None | Some(value: T) {
    function GetOr(default: T): T {
      match this
      case Some(v) => v
      case None => default
    }
  }

  /** The ways an operation of the engine or of the scaffolding rejects. */
  datatype Error =
    | NotConnected                 // "Klein must be connected ..." thrown before any query
    | TypeError(what: string)      // a property read on null, `.map` of a non-array, ...
    | ReferenceError(name: string) // an identifier the source uses but never binds
    | NotARelation(name: string)   // "'x' is not a relation"
    | UndefinedBinding             // the query builder refuses an `undefined` value in a where clause
    | EmptyUpdate                  // the query builder refuses an update with no defined value
    | Unsupported(what: string)    // a record shape whose JavaScript behaviour is not modelled
    | Rejected(message: string)    // a task rejecting with an Error carrying this message

  datatype Result<+T> = Ok(value: T) | Err(error: Error) {
    predicate IsFailure() {
      Err?
    }

    function PropagateFailure<U>(): Result<U>
      requires Err?
    {
      Err(error)
    }

    function Extract(): T
      requires Ok?
    {
      value
    }
  }

  /** A JavaScript value. `Date(t)` is a `Date` object for instant `t`;
      `Uuid(n)` is the n-th string the uuid generator hands out; `Json(v)` is
      the string `JSON.stringify` produces for the object value `v` (kept
      opaque); `Obj` is a plain object or Immutable map, `Arr` an array or
      Immutable list. Numbers are integers here. */
  datatype Value =
    | Null
    | Bool(b: bool)
    | Num(n: int)
    | Str(s: string)
    | Date(t: int)
    | Uuid(u: nat)
    | Json(of: Value)
    | Obj(fields: map<string, Value>)
    | Arr(items: seq<Value>)
  {
    /** JavaScript truthiness. Every Json string is non-empty. */
    predicate Truthy() {
      match this
      case Null => false
      case Bool(b) => b
      case Num(n) => n != 0
      case Str(s) => s != ""
      case _ => true
    }

    /** `typeof v === "object"`: null, dates, objects and arrays. */
    predicate IsObjectTyped() {
      Null? || Date? || Obj? || Arr?
    }

    /** A value that can sit in a table column. */
    predicate IsScalar() {
      !Obj? && !Arr?
    }
  }

  type Scalar = v: Value | v.IsScalar() witness Null

  /** The fields of a plain object; an absent key reads as `undefined`. */
  type Fields = map<string, Value>

  /** `JSON.stringify` of an object-typed value: null becomes the string
      "null", everything else an opaque JSON text. */
  function Stringify(v: Value): (r: Value)
    requires v.IsObjectTyped()
    ensures r.Str? || r.Json?
    ensures r == Str("null") <==> v.Null?
  {
    if v.Null? then Str("null") else Json(v)
  }

  /** What `_serialize` stores for one property: object-typed values are
      stringified, and the string "null" (whether stringified or given)
      becomes null (model.js:408-417, lib/model.js:383-392). */
  function ToColumn(v: Value): (r: Scalar)
    ensures v.IsObjectTyped() && !v.Null? ==> r == Json(v)
    ensures v.Null? || v == Str("null") ==> r == Null
    ensures !v.IsObjectTyped() && v != Str("null") ==> r == v
  {
    var w := if v.IsObjectTyped() then Stringify(v) else v;
    if w == Str("null") then Null else w
  }

  /** A column value that `_serialize` leaves exactly as it is. */
  predicate IsColumnValue(v: Value) {
    v.IsScalar() && !v.Date? && !v.Null? && v != Str("null")
  }

  /** Converting twice is converting once: a stored value survives a re-save
      unchanged, except that dates turn into their JSON text on the first. */
  lemma ToColumnIdempotent(v: Value)
    ensures ToColumn(ToColumn(v)) == ToColumn(v)
    ensures IsColumnValue(v) ==> ToColumn(v) == v
    ensures v.Date? ==> ToColumn(v) == Json(v)
  {
  }

  /** Reads a property of a row or object; an absent key reads as null, as a
      missing column does in the database. */
  function Get(m: map<string, Value>, key: string): Value {
    if key in m then m[key] else Null
  }
}

=== FILE: models.dfy ===
/** A model definition as the `Model` constructor builds it (model.js:7-56,
    lib/model.js:7-56), the registry the engine looks related models up in
    (index.js:29-43), and the conversion `_serialize` applies to a record
    before it is written (model.js:389-420, lib/model.js:354-395). */
module Models {
  import opened Js
  import opened Text
  import opened Relations
  import opened Store

  /** A value under `defaults`: a constant, a function of the record being
      serialised, or the registry's uuid generator (`klein.uuid`). */
  datatype Default = Fixed(v: Value) | Computed(f: Fields -> Value) | NewId

  /** A context under `contexts`: a list of field names, a mapping function,
      or anything else (which `json` ignores). */
  datatype Context = FieldList(keys: seq<string>) | Mapper(f: Value -> Value) | OtherContext

  /** One entry of the `timestamps` argument: not given, given as a falsy
      value, or given as a column name. */
  datatype Stamp = Unset | Off | Named(column: string)

  /** The `timestamps` argument: `false`, absent, or an object. */
  datatype TimestampsArg = NoTimestamps | DefaultTimestamps | Timestamps(created: Stamp, updated: Stamp)

  /** The constructor arguments the engine reads. A default paired with
      `None` is a key given the value `undefined`. */
  datatype ModelArgs = ModelArgs(
    relations: seq<(string, RelationObject)>,
    timestamps: TimestampsArg,
    defaults: seq<(string, Option<Default>)>,
    contexts: map<string, Context>)

  /** A constructed model. A stamp column of `""` means the stamp is off. */
  datatype ModelDef = ModelDef(
    table: string,
    relations: seq<Relation>,
    createdColumn: string,
    updatedColumn: string,
    idDefault: Option<Default>,
    defaults: seq<(string, Default)>,
    contexts: map<string, Context>)

  /** The registry: which engine, whether `connect` has bound a query
      builder, the models defined so far, and the inflection library. */
  datatype Klein = Klein(engine: Engine, connected: bool, models: map<string, ModelDef>, infl: Inflector)

  /** The column a timestamp is written to (model.js:13-17): the object's
      entry replaces the default name, and a falsy entry turns it off. */
  function StampColumn(arg: TimestampsArg, created: bool): (r: string)
    ensures arg == DefaultTimestamps ==> r == (if created then "created_at" else "updated_at")
    ensures arg == NoTimestamps ==> r == ""
    ensures arg.Timestamps? ==>
      var s := if created then arg.created else arg.updated;
      (s == Unset ==> r == (if created then "created_at" else "updated_at"))
      && (s == Off ==> r == "")
      && (s.Named? ==> r == s.column)
  {
    var s := match arg
      case NoTimestamps => Off
      case DefaultTimestamps => Unset
      case Timestamps(c, u) => if created then c else u;
    match s
    case Unset => if created then "created_at" else "updated_at"
    case Off => ""
    case Named(column) => column
  }

  /** The effective id default: `klein.uuid` unless the arguments give `id`. */
  function IdDefault(defaults: seq<(string, Option<Default>)>): (r: Option<Default>)
    ensures (forall i :: 0 <= i < |defaults| ==> defaults[i].0 != "id") ==> r == Some(NewId)
  {
    if |defaults| == 0 then Some(NewId)
    else if defaults[0].0 == "id" then defaults[0].1
    else IdDefault(defaults[1..])
  }

  /** The defaults other than `id` that hold a value, in order. */
  function OtherDefaults(defaults: seq<(string, Option<Default>)>): (r: seq<(string, Default)>)
    ensures forall i :: 0 <= i < |r| ==> r[i].0 != "id"
    ensures forall i :: 0 <= i < |r| ==> (r[i].0, Some(r[i].1)) in defaults
    ensures forall p :: p in defaults && p.0 != "id" && p.1.Some? ==> (p.0, p.1.value) in r
  {
    if |defaults| == 0 then []
    else
      var rest := OtherDefaults(defaults[1..]);
      if defaults[0].0 != "id" && defaults[0].1.Some? then [(defaults[0].0, defaults[0].1.value)] + rest else rest
  }

  /** Resolves each declared relation, in declaration order. */
  function ResolveAll(engine: Engine, infl: Inflector, table: string, decls: seq<(string, RelationObject)>): (r: seq<Relation>)
    ensures |r| == |decls|
    ensures forall i :: 0 <= i < |decls| ==> r[i] == ResolveRelation(engine, infl, table, decls[i].0, decls[i].1)
  {
    seq(|decls|, i requires 0 <= i < |decls| => ResolveRelation(engine, infl, table, decls[i].0, decls[i].1))
  }

  /** `new Model(table, args)`. The older engine has no `timestamps`
      argument: it always writes `updated_at`, and `created_at` through
      `_serialize`. */
  function Define(engine: Engine, infl: Inflector, table: string, args: ModelArgs): (m: ModelDef)
    ensures m.table == table && |m.relations| == |args.relations|
    ensures forall i :: 0 <= i < |m.relations| ==> m.relations[i].name == args.relations[i].0
    ensures engine == Current ==>
      m.createdColumn == StampColumn(args.timestamps, true) && m.updatedColumn == StampColumn(args.timestamps, false)
    ensures engine == Legacy ==> m.createdColumn == "created_at" && m.updatedColumn == "updated_at"
    ensures forall i :: 0 <= i < |m.defaults| ==> m.defaults[i].0 != "id"
  {
    var rels := ResolveAll(engine, infl, table, args.relations);
    assert forall i :: 0 <= i < |rels| ==> rels[i].name == args.relations[i].0 by {
      forall i | 0 <= i < |rels| ensures rels[i].name == args.relations[i].0 {
        NameRecorded(engine, infl, table, args.relations[i].0, args.relations[i].1);
      }
    }
    ModelDef(table, rels,
      if engine == Current then StampColumn(args.timestamps, true) else "created_at",
      if engine == Current then StampColumn(args.timestamps, false) else "updated_at",
      IdDefault(args.defaults), OtherDefaults(args.defaults), args.contexts)
  }

  lemma NameRecorded(engine: Engine, infl: Inflector, owner: string, relName: string, o: RelationObject)
    ensures ResolveRelation(engine, infl, owner, relName, o).name == relName
  {
  }

  /** `klein.model(table)` with no arguments: the registered model, or a new
      one with no relations, default timestamps and a uuid id. */
  function ModelFor(k: Klein, table: string): (m: ModelDef)
    ensures table !in k.models ==> m.table == table && m.relations == [] && m.idDefault == Some(NewId) && m.defaults == []
    ensures table in k.models ==> m == k.models[table]
  {
    if table in k.models then k.models[table]
    else Define(k.engine, k.infl, table, ModelArgs([], DefaultTimestamps, [], map[]))
  }

  /** The relation registered under a name, if any. */
  function RelationNamed(rels: seq<Relation>, name: string): (r: Option<Relation>)
    ensures r.Some? ==> r.value in rels && r.value.name == name
    ensures r.None? ==> forall i :: 0 <= i < |rels| ==> rels[i].name != name
  {
    if |rels| == 0 then None
    else if rels[0].name == name then Some(rels[0])
    else RelationNamed(rels[1..], name)
  }

  predicate IsRelationName(m: ModelDef, name: string) {
    RelationNamed(m.relations, name).Some?
  }

  /** `model.toJS ? model.toJS() : Object.assign({}, model)`: the plain
      fields of a record. Reading `toJS` of null throws; spreading a string,
      a number, a date or an array into an object is not modelled. */
  function ToPlain(v: Value): (r: Result<Fields>)
    ensures r.Ok? <==> v.Obj?
    ensures v.Obj? ==> r.value == v.fields
    ensures v.Null? ==> r.Err? && r.error.TypeError?
  {
    match v
    case Obj(fields) => Ok(fields)
    case Null => Err(TypeError("Cannot read property 'toJS' of null"))
    case _ => Err(Unsupported("a record that is not an object"))
  }

  /** Splits relation-named keys off a record: `rest` is written as the row,
      `detached` is saved through the relations afterwards. */
  function SplitRelations(m: ModelDef, props: Fields): (r: (Fields, Fields))
    ensures r.0.Keys + r.1.Keys == props.Keys && r.0.Keys !! r.1.Keys
    ensures forall k :: k in r.0 ==> !IsRelationName(m, k) && r.0[k] == props[k]
    ensures forall k :: k in r.1 ==> IsRelationName(m, k) && r.1[k] == props[k]
  {
    (map k | k in props && !IsRelationName(m, k) :: props[k],
     map k | k in props && IsRelationName(m, k) :: props[k])
  }

  /** Converts every property for its column (the last loop of `_serialize`). */
  function ToColumns(p: Fields): (r: Row)
    ensures r.Keys == p.Keys && forall k :: k in p ==> r[k] == ToColumn(p[k])
  {
    map k | k in p :: ToColumn(p[k])
  }

  /** The value a default gives for the record `p`, drawing a uuid when it is
      the generator. */
  function DefaultValue(d: Default, p: Fields, st: St): (r: (Value, St))
    ensures d.Fixed? ==> r == (d.v, st)
    ensures d.NewId? ==> r == (Uuid(st.next), st.(next := st.next + 1))
    ensures d.Computed? ==> r == (d.f(p), st)
  {
    match d
    case Fixed(v) => (v, st)
    case Computed(f) => (f(p), st)
    case NewId =>
      var (u, st1) := NewUuid(st);
      (u, st1)
  }

  /** The keys a list of defaults names. */
  function DefaultKeys(ds: seq<(string, Default)>): set<string> {
    set i | 0 <= i < |ds| :: ds[i].0
  }

  /** The defaults loop: each default whose key the record does not have is
      filled in, in order, a function default seeing the record as filled so
      far. */
  function FillDefaults(p: Fields, ds: seq<(string, Default)>, st: St): (r: (Fields, St))
    ensures r.0.Keys == p.Keys + DefaultKeys(ds)
    ensures forall i :: 0 <= i < |ds| ==> ds[i].0 in r.0
    ensures forall k :: k in p ==> r.0[k] == p[k]
    ensures forall i :: (0 <= i < |ds| && ds[i].0 !in p && ds[i].1.Fixed?
      && (forall j :: 0 <= j < i ==> ds[j].0 != ds[i].0)) ==> r.0[ds[i].0] == ds[i].1.v
    ensures r.1.db == st.db && r.1.next >= st.next
    decreases |ds|
  {
    if |ds| == 0 then (p, st)
    else
      var (key, d) := ds[0];
      var (p1, st1) := if key in p then (p, st) else
        var (v, s) := DefaultValue(d, p, st);
        (p[key := v], s);
      var r := FillDefaults(p1, ds[1..], st1);
      assert forall i :: 1 <= i < |ds| ==> ds[1..][i - 1] == ds[i];
      assert DefaultKeys(ds) == {key} + DefaultKeys(ds[1..]) by {
        forall c | c in DefaultKeys(ds) ensures c in {key} + DefaultKeys(ds[1..]) {
          var i :| 0 <= i < |ds| && ds[i].0 == c;
          if i > 0 { assert ds[1..][i - 1].0 == c; }
        }
      }
      r
  }

  /** `if (!p[c]) p[c] = v`. */
  function SetIfFalsy(p: Fields, c: string, v: Value): (r: Fields)
    ensures r.Keys == p.Keys + {c}
    ensures r[c] == (if Get(p, c).Truthy() then p[c] else v)
    ensures forall k :: k in p && k != c ==> r[k] == p[k]
  {
    if Get(p, c).Truthy() then p else p[c := v]
  }

  /** `_serialize` of the current engine (model.js:389-420): the id default
      is called only when the record has no `id` at all, and a constant id
      default throws because it is called as a function. */
  function SerializeCurrent(m: ModelDef, p: Fields, st: St): (r: Result<(Row, St)>)
    ensures m.idDefault == Some(NewId) && "id" !in p ==> r.Ok? && "id" in r.value.0 && r.value.0["id"] == Uuid(st.next)
    ensures "id" in p ==> r.Ok? && "id" in r.value.0 && r.value.0["id"] == ToColumn(p["id"])
    ensures r.Ok? ==> forall k :: k in p ==> k in r.value.0 && r.value.0[k] == ToColumn(p[k])
    ensures r.Ok? ==> forall i :: 0 <= i < |m.defaults| ==> m.defaults[i].0 in r.value.0
    ensures r.Ok? ==> r.value.1.db == st.db
    ensures r.Ok? ==> forall k :: k in r.value.0 ==> k in p || k == "id" || k in DefaultKeys(m.defaults)
    ensures r.Err? <==> "id" !in p && m.idDefault.Some? && m.idDefault.value.Fixed?
  {
    var (p1, st1) :- CurrentId(m, p, st);
    var (p2, st2) := FillDefaults(p1, m.defaults, st1);
    Ok((ToColumns(p2), st2))
  }

  /** The id step of the current `_serialize`: a record without `id` gets
      the id default's value, called as a function. */
  function CurrentId(m: ModelDef, p: Fields, st: St): (r: Result<(Fields, St)>)
    ensures r.Err? <==> "id" !in p && m.idDefault.Some? && m.idDefault.value.Fixed?
    ensures r.Ok? ==> forall k :: k in r.value.0 <==> k in p || (k == "id" && m.idDefault.Some?)
    ensures r.Ok? ==> forall k :: k in p ==> r.value.0[k] == p[k]
    ensures r.Ok? ==> r.value.1.db == st.db && r.value.1.next >= st.next
    ensures m.idDefault == Some(NewId) && "id" !in p ==> r.Ok? && "id" in r.value.0 && r.value.0["id"] == Uuid(st.next)
  {
    if "id" in p || m.idDefault.None? then Ok((p, st))
    else if m.idDefault.value.Fixed? then Err(TypeError("this.defaults.id is not a function"))
    else
      var (v, s) := DefaultValue(m.idDefault.value, p, st);
      Ok((p["id" := v], s))
  }

  /** The first three steps of the older `_serialize`: a falsy `id` set to
      `u`, falsy `updated_at` and `created_at` to the current time. */
  function LegacyStamps(p: Fields, u: Value, now: int): (q: Fields)
    ensures "id" in q && "updated_at" in q && "created_at" in q
    ensures forall k :: k in q <==> k in p || k == "id" || k == "updated_at" || k == "created_at"
    ensures q["id"] == (if Get(p, "id").Truthy() then p["id"] else u)
    ensures q["updated_at"] == (if Get(p, "updated_at").Truthy() then p["updated_at"] else Date(now))
    ensures q["created_at"] == (if Get(p, "created_at").Truthy() then p["created_at"] else Date(now))
    ensures forall k :: k in p && k != "id" && k != "updated_at" && k != "created_at" ==> q[k] == p[k]
  {
    var p1 := SetIfFalsy(p, "id", u);
    var p2 := SetIfFalsy(p1, "updated_at", Date(now));
    SetIfFalsy(p2, "created_at", Date(now))
  }

  /** `_serialize` of the older engine (lib/model.js:354-395): a falsy id is
      replaced by a fresh uuid, falsy `updated_at` and `created_at` by the
      current time (the `is_persisted` flag is never passed), and only then
      are the defaults filled in. */
  function SerializeLegacy(m: ModelDef, p: Fields, now: int, st: St): (r: (Row, St))
    ensures "id" in r.0 && "updated_at" in r.0 && "created_at" in r.0
    ensures r.0["id"] == (if Get(p, "id").Truthy() then ToColumn(p["id"]) else Uuid(st.next))
    ensures r.0["updated_at"] == (if Get(p, "updated_at").Truthy() then ToColumn(p["updated_at"]) else Json(Date(now)))
    ensures r.0["created_at"] == (if Get(p, "created_at").Truthy() then ToColumn(p["created_at"]) else Json(Date(now)))
    ensures r.1.db == st.db
  {
    var (u, st1) := if Get(p, "id").Truthy() then (Null, st) else NewUuid(st);
    var p3 := LegacyStamps(p, u, now);
    var (p4, st2) := FillDefaults(p3, m.defaults, st1);
    assert p4["id"] == p3["id"] && p4["updated_at"] == p3["updated_at"] && p4["created_at"] == p3["created_at"];
    (ToColumns(p4), st2)
  }

  /** The older `_serialize` keeps every property and converts each one it
      does not stamp. */
  lemma SerializeLegacyKeeps(m: ModelDef, p: Fields, now: int, st: St)
    ensures var row := SerializeLegacy(m, p, now, st).0;
      forall k :: k in p ==> k in row && (k != "id" && k != "updated_at" && k != "created_at" ==> row[k] == ToColumn(p[k]))
  {
    var (u, st1) := if Get(p, "id").Truthy() then (Null, st) else NewUuid(st);
    var p3 := LegacyStamps(p, u, now);
    var p4 := FillDefaults(p3, m.defaults, st1).0;
    var row := SerializeLegacy(m, p, now, st).0;
    assert row == ToColumns(p4);
    forall k | k in p
      ensures k in row && (k != "id" && k != "updated_at" && k != "created_at" ==> row[k] == ToColumn(p[k]))
    {
      assert k in p3 && k in p4;
    }
  }

  /** The older `_serialize` adds only the stamps and the defaults. */
  lemma SerializeLegacyAdds(m: ModelDef, p: Fields, now: int, st: St)
    ensures forall k :: k in SerializeLegacy(m, p, now, st).0 ==>
      k in p || k == "id" || k == "updated_at" || k == "created_at" || k in DefaultKeys(m.defaults)
  {
    var (u, st1) := if Get(p, "id").Truthy() then (Null, st) else NewUuid(st);
    var p3 := LegacyStamps(p, u, now);
    var p4 := FillDefaults(p3, m.defaults, st1).0;
    var row := SerializeLegacy(m, p, now, st).0;
    assert row == ToColumns(p4);
    forall k | k in row
      ensures k in p || k == "id" || k == "updated_at" || k == "created_at" || k in DefaultKeys(m.defaults)
    {
      assert k in p4;
      if k !in DefaultKeys(m.defaults) {
        assert k in p3;
      }
    }
  }

  /** `_serialize` of the given engine. */
  function Serialize(engine: Engine, m: ModelDef, p: Fields, now: int, st: St): (r: Result<(Row, St)>)
    ensures r.Ok? ==> r.value.1.db == st.db && r.value.1.next >= st.next
    ensures r.Ok? ==> "id" in p ==> "id" in r.value.0
    ensures engine == Legacy ==> r.Ok? && "id" in r.value.0
    ensures r.Ok? ==> forall k :: k in p && (engine == Current || (k != "id" && k != "updated_at" && k != "created_at")) ==>
      k in r.value.0 && r.value.0[k] == ToColumn(p[k])
    ensures r.Ok? && "id" in p && (engine == Current || p["id"].Truthy()) ==> r.value.0["id"] == ToColumn(p["id"])
    ensures r.Ok? ==> forall k :: k in r.value.0 ==>
      k in p || k == "id" || k in DefaultKeys(m.defaults) || (engine != Current && (k == "updated_at" || k == "created_at"))
  {
    if engine == Current then SerializeCurrent(m, p, st)
    else
      SerializeLegacyKeeps(m, p, now, st);
      SerializeLegacyAdds(m, p, now, st);
      Ok(SerializeLegacy(m, p, now, st))
  }
}

=== FILE: persist.dfy ===
/** The cascading save (model.js:131-185, 423-558; lib/model.js:121-178,
    398-561), `create` (model.js:83-100, lib/model.js:69-92) and the
    dependent destroy (model.js:103-128, lib/model.js:95-118), as pure
    functions threading the store. The fan-outs `Promise.all` starts are run
    one after another: relations in the order they were declared (the
    source starts them in the order of the record's keys), payload items in
    list order. A failure returns only the error, not the writes made before it. */
module Persist {
  import opened Js
  import opened Relations
  import opened Store
  import opened Models

  /** `options.exists`: not given (probe the table), or given. */
  datatype Exists = Probe | Known(b: bool)

  /** A saved record and the store after the save. */
  datatype Saved = Saved(record: Fields, st: St)

  /** `v[key]` for any value: only objects have properties here. */
  function Prop(v: Value, key: string): (r: Option<Value>)
    ensures r.Some? <==> v.Obj? && key in v.fields
    ensures r.Some? ==> r.value == v.fields[key]
  {
    if v.Obj? && key in v.fields then Some(v.fields[key]) else None
  }

  /** `xs.includes(v)`; an `undefined` argument is never included. */
  predicate IncludesProp(xs: seq<Scalar>, v: Option<Value>) {
    v.Some? && Includes(xs, v.value)
  }

  predicate Includes(xs: seq<Scalar>, v: Value) {
    exists i :: 0 <= i < |xs| && xs[i] == v
  }

  /** `_updateTimestamp` (model.js:653-657): writes the time into the
      configured column unless that stamp is off. */
  function StampRow(row: Row, column: string, now: int): (r: Row)
    ensures column != "" ==> column in r && r[column] == Date(now)
    ensures column != "" ==> r.Keys == row.Keys + {column}
    ensures forall c :: c in row && c != column ==> c in r && r[c] == row[c]
    ensures column == "" ==> r == row
  {
    if column != "" then row[column := Date(now)] else row
  }

  /** The column `save` stamps on every write: the configured one on the
      current engine, always `updated_at` on the older one. */
  function UpdatedColumn(engine: Engine, m: ModelDef): string {
    if engine == Current then m.updatedColumn else "updated_at"
  }

  /** `properties.id || null`: the key the existence probe looks up. */
  function ProbeKey(row: Row): (r: Scalar)
    ensures r == Null || (r == Col(row, "id") && r.Truthy())
  {
    if Col(row, "id").Truthy() then Col(row, "id") else Null
  }

  /** `model.id` read by a saver: an absent id makes the query builder refuse
      the where clause. */
  function OwnerKey(owner: Fields): (r: Result<Scalar>)
    ensures r.Ok? <==> "id" in owner && owner["id"].IsScalar()
    ensures r.Ok? ==> r.value == owner["id"]
    ensures "id" !in owner ==> r == Err(UndefinedBinding)
  {
    if "id" !in owner then Err(UndefinedBinding)
    else if owner["id"].IsScalar() then Ok(owner["id"])
    else Err(Unsupported("an object-valued id"))
  }

  /** Why a value that is not an object cannot be saved as a record. */
  function RecordError(v: Value): Error {
    if v.Null? then TypeError("Cannot read property 'toJS' of null") else Unsupported("a record that is not an object")
  }

  /** Applies the has_many foreign key to a child record before it is saved
      (`related_object[relation.key] = model.id`). */
  function Link(fields: Fields, link: Option<(string, Scalar)>): (r: Fields)
    ensures link.None? ==> r == fields
    ensures link.Some? ==> r == fields[link.value.0 := link.value.1]
    ensures forall n :: n in r && !r[n].IsScalar() ==> n in fields && r[n] == fields[n]
  {
    if link.Some? then fields[link.value.0 := link.value.1] else fields
  }

  /** The row `save` writes and the relation payloads it detached: the record
      without its relation-named keys, serialised, with the update stamp. */
  function PrepareRow(k: Klein, m: ModelDef, fields: Fields, now: int, st: St): (r: Result<(Row, Fields, St)>)
    ensures r.Ok? ==> r.value.2.db == st.db && r.value.2.next >= st.next
    ensures r.Ok? ==> forall n :: n in r.value.1 <==> n in fields && IsRelationName(m, n)
    ensures r.Ok? ==> forall n :: n in r.value.1 ==> r.value.1[n] == fields[n]
    ensures r.Ok? ==> forall c ::
      (c in fields && !IsRelationName(m, c) && c != UpdatedColumn(k.engine, m) && (k.engine == Current || (c != "id" && c != "created_at")))
      ==> c in r.value.0 && r.value.0[c] == ToColumn(fields[c])
    ensures r.Ok? && UpdatedColumn(k.engine, m) != "" ==>
      UpdatedColumn(k.engine, m) in r.value.0 && r.value.0[UpdatedColumn(k.engine, m)] == Date(now)
    ensures r.Ok? && "id" in fields && PlainId(fields["id"]) && !IsRelationName(m, "id") && UpdatedColumn(k.engine, m) != "id" ==>
      "id" in r.value.0 && r.value.0["id"] == fields["id"]
    ensures r.Ok? ==> forall n :: n in r.value.0 && IsRelationName(m, n) ==>
      n == "id" || n in DefaultKeys(m.defaults) || n == UpdatedColumn(k.engine, m) || (k.engine == Legacy && n == "created_at")
  {
    var (rest, detached) := SplitRelations(m, fields);
    var (row, st1) :- StampedRow(k.engine, m, rest, now, st);
    Ok((row, detached, st1))
  }

  /** The record's own properties serialised and stamped with the update
      time. */
  function StampedRow(engine: Engine, m: ModelDef, rest: Fields, now: int, st: St): (r: Result<(Row, St)>)
    ensures r.Ok? ==> r.value.1.db == st.db && r.value.1.next >= st.next
    ensures r.Ok? ==> forall c :: c in rest && c != UpdatedColumn(engine, m) && (engine == Current || (c != "id" && c != "created_at")) ==>
      c in r.value.0 && r.value.0[c] == ToColumn(rest[c])
    ensures r.Ok? && UpdatedColumn(engine, m) != "" ==>
      UpdatedColumn(engine, m) in r.value.0 && r.value.0[UpdatedColumn(engine, m)] == Date(now)
    ensures r.Ok? && "id" in rest && PlainId(rest["id"]) && UpdatedColumn(engine, m) != "id" ==>
      "id" in r.value.0 && r.value.0["id"] == rest["id"]
    ensures r.Ok? ==> forall n :: n in r.value.0 ==>
      n in rest || n == "id" || n in DefaultKeys(m.defaults) || n == UpdatedColumn(engine, m) || (engine == Legacy && n == "created_at")
  {
    var (ser, st1) :- Serialize(engine, m, rest, now, st);
    ToColumnIdempotent(Get(rest, "id"));
    Ok((StampRow(ser, UpdatedColumn(engine, m), now), st1))
  }

  /** An id a record can be looked up by: truthy, and stored as it is. */
  predicate PlainId(v: Value) {
    IsColumnValue(v) && v.Truthy()
  }

  /** Whether `save` takes the update path (model.js:151-162): as given, or
      when a row with the record's id (or a null id, for a falsy one)
      exists. */
  function IsUpdate(given: Exists, m: ModelDef, row: Row, st: St): (r: bool)
    ensures given.Known? ==> r == given.b
    ensures given.Probe? ==> (r <==> exists x :: x in Rows(st.db, m.table) && Col(x, "id") == ProbeKey(row))
  {
    match given
    case Known(b) => b
    case Probe =>
      var found := SelectWhere(st, m.table, [Eq("id", ProbeKey(row))]);
      var conds := [Eq("id", ProbeKey(row))];
      assert |found| > 0 ==> found[0] in found && Holds(found[0], conds[0]);
      assert forall x :: x in Rows(st.db, m.table) && Col(x, "id") == ProbeKey(row) ==> x in found by {
        forall x | x in Rows(st.db, m.table) && Col(x, "id") == ProbeKey(row) ensures x in found {
          assert MatchesAll(x, [Eq("id", ProbeKey(row))]);
        }
      }
      |found| > 0
  }

  /** The write itself (model.js:163-169): an update of the rows with the
      record's id, or an insert that also stamps the creation time. Returns
      the rows the statement reports back. */
  function WriteRow(k: Klein, m: ModelDef, row: Row, update: bool, now: int, st: St): (r: Result<(St, seq<Row>)>)
    ensures r.Ok? ==> forall t :: t != m.table ==> Rows(r.value.0.db, t) == Rows(st.db, t)
    ensures r.Ok? ==> r.value.0.next == st.next
    ensures update && "id" !in row ==> r.Err?
    ensures update && "id" in row ==>
      && r.Ok?
      && Rows(r.value.0.db, m.table) == UpdateRows(Rows(st.db, m.table), [Eq("id", row["id"])], row)
      && |r.value.1| == |Select(Rows(st.db, m.table), [Eq("id", row["id"])])|
      && (forall x :: x in r.value.1 ==> row.Keys <= x.Keys && forall c :: c in row ==> x[c] == row[c])
    ensures !update ==>
      && r.Ok?
      && r.value.1 == [if k.engine == Current then StampRow(row, m.createdColumn, now) else row]
      && Rows(r.value.0.db, m.table) == Rows(st.db, m.table) + r.value.1
  {
    if update then
      if |row| == 0 then Err(EmptyUpdate)
      else if "id" !in row then Err(UndefinedBinding)
      else UpdateWhere(st, m.table, [Eq("id", row["id"])], row)
    else
      var inserted := if k.engine == Current then StampRow(row, m.createdColumn, now) else row;
      var (st1, x) := InsertRow(st, m.table, inserted);
      Ok((st1, [x]))
  }

  /** `Object.assign({}, results[0])` with the detached relations put back. */
  function Reattach(results: seq<Row>, detached: Fields): (r: Fields)
    ensures forall n :: n in detached ==> n in r && r[n] == detached[n]
    ensures |results| > 0 ==> forall c :: c in results[0] && c !in detached ==> c in r && r[c] == results[0][c]
    ensures r.Keys == (if |results| > 0 then results[0].Keys else {}) + detached.Keys
    ensures forall n :: n in r && !r[n].IsScalar() ==> n in detached && r[n] == detached[n]
  {
    var first: Row := if |results| > 0 then results[0] else map[];
    map c | c in first.Keys + detached.Keys :: if c in detached then detached[c] else first[c]
  }

  /** Every non-scalar property of `object` is the parent record's own
      value: only those are saved recursively. */
  predicate PayloadsFrom(owner: Fields, parent: Fields) {
    forall n :: n in owner && !owner[n].IsScalar() ==> n in parent && owner[n] == parent[n]
  }

  /** The names a model's belongs_to relations write back into. */
  predicate IsBelongsToKey(m: ModelDef, c: string) {
    exists i :: 0 <= i < |m.relations| && m.relations[i].BelongsToRel? && m.relations[i].key == c
  }

  /** `save` (model.js:131-185, lib/model.js:121-178). `link` is the has_many
      foreign key a parent assigns before the call. */
  function Save(k: Klein, m: ModelDef, v: Value, link: Option<(string, Scalar)>, given: Exists, now: int, st: St): (r: Result<Saved>)
    ensures k.engine == Current && !k.connected ==> r == Err(NotConnected)
    ensures !v.Obj? && (k.engine == Legacy || k.connected) ==> r == Err(RecordError(v))
    ensures r.Ok? ==> r.value.st.next >= st.next
    decreases v, 4
  {
    if k.engine == Current && !k.connected then Err(NotConnected)
    else if !v.Obj? then Err(RecordError(v))
    else
      var (owner, st1) :- WriteRecord(k, m, v, link, given, now, st);
      SaveRelations(k, m, v.fields, owner, 0, owner, now, st1)
  }

  /** The record's own row written (model.js:136-172): the row prepared, the
      update or insert, and the record as the write reported it with the
      relation payloads put back. */
  function WriteRecord(k: Klein, m: ModelDef, v: Value, link: Option<(string, Scalar)>, given: Exists, now: int, st: St): (r: Result<(Fields, St)>)
    requires v.Obj?
    ensures r.Ok? ==> PayloadsFrom(r.value.0, v.fields)
    ensures r.Ok? ==> r.value.1.next >= st.next
  {
    var (row, detached, st1) :- PrepareRow(k, m, Link(v.fields, link), now, st);
    var (st2, results) :- WriteRow(k, m, row, IsUpdate(given, m, row, st1), now, st1);
    Ok((Reattach(results, detached), st2))
  }

  /** `Model.prototype.knex` as model.js:59-66 writes it: once connected it
      calls `this._knex`, which the current engine's constructor never
      assigns (the older one sets it from its arguments, lib/model.js:9), so
      the call throws. */
  function KnexAsWritten(k: Klein): (r: Result<()>)
    ensures k.engine == Legacy ==> r.Ok?
    ensures k.engine == Current ==> r.Err?
    ensures k.engine == Current && !k.connected ==> r == Err(NotConnected)
    ensures k.engine == Current && k.connected ==> r == Err(TypeError("this._knex is not a function"))
  {
    if k.engine == Current && !k.connected then Err(NotConnected)
    else if k.engine == Current then Err(TypeError("this._knex is not a function"))
    else Ok(())
  }

  /** `save` as written: its first query goes through `knex` above. */
  function SaveAsWritten(k: Klein, m: ModelDef, v: Value, link: Option<(string, Scalar)>, given: Exists, now: int, st: St): (r: Result<Saved>)
    ensures k.engine == Legacy ==> r == Save(k, m, v, link, given, now, st)
  {
    if k.engine == Current && !k.connected then Err(NotConnected)
    else if !v.Obj? then Err(RecordError(v))
    else
      var _ :- PrepareRow(k, m, Link(v.fields, link), now, st);
      var _ :- KnexAsWritten(k);
      Save(k, m, v, link, given, now, st)
  }

  /** `_saveRelations` (model.js:423-455): each relation named in the record
      is saved by its kind's saver and its saved value put in the record.
      The source starts the savers together, in the order of the record's
      own keys; the model runs them one after another in the order the
      relations were declared. Untyped relations are left as they are. */
  function SaveRelations(k: Klein, m: ModelDef, parent: Fields, owner: Fields, i: nat, record: Fields, now: int, st: St): (r: Result<Saved>)
    requires i <= |m.relations|
    requires PayloadsFrom(owner, parent)
    ensures r.Ok? ==> record.Keys <= r.value.record.Keys
    ensures r.Ok? ==> forall c :: c in record && !IsRelationName(m, c) && !IsBelongsToKey(m, c) ==> r.value.record[c] == record[c]
    ensures r.Ok? ==> r.value.st.next >= st.next
    decreases Obj(parent), 3, |m.relations| - i
  {
    if i == |m.relations| then Ok(Saved(record, st))
    else
      var rel := m.relations[i];
      if rel.name !in owner || rel.Untyped? then SaveRelations(k, m, parent, owner, i + 1, record, now, st)
      else
        var (record1, st1) :- SaveOne(k, m, parent, owner, rel, record, now, st);
        InRelations(m, i);
        SaveRelations(k, m, parent, owner, i + 1, record1, now, st1)
  }

  /** A declared relation's name is a relation name, and a declared
      belongs_to relation's key a belongs_to key. */
  lemma InRelations(m: ModelDef, i: nat)
    requires i < |m.relations|
    ensures IsRelationName(m, m.relations[i].name)
    ensures m.relations[i].BelongsToRel? ==> IsBelongsToKey(m, m.relations[i].key)
  {
  }

  /** One relation's saver (model.js:434-451), with the record it leaves. A
      payload that is not the parent's own value is a column value the row
      came back with, which no saver can use. */
  function SaveOne(k: Klein, m: ModelDef, parent: Fields, owner: Fields, rel: Relation, record: Fields, now: int, st: St): (r: Result<(Fields, St)>)
    requires rel.name in owner && !rel.Untyped?
    requires PayloadsFrom(owner, parent)
    ensures r.Ok? ==> record.Keys <= r.value.0.Keys
    ensures r.Ok? ==> forall c :: c in record && c != rel.name && !(rel.BelongsToRel? && c == rel.key) ==> r.value.0[c] == record[c]
    ensures r.Ok? ==> r.value.1.next >= st.next
    decreases Obj(parent), 2
  {
    if rel.BelongsToRel? then SaveBelongsTo(k, m, parent, owner, rel, record, now, st)
    else SaveCollection(k, m, parent, owner, rel, record, now, st)
  }

  /** A has_many or has_and_belongs_to_many relation: the saved list
      replaces the payload, item for item. */
  function SaveCollection(k: Klein, m: ModelDef, parent: Fields, owner: Fields, rel: Relation, record: Fields, now: int, st: St): (r: Result<(Fields, St)>)
    requires rel.name in owner && (rel.HasManyRel? || rel.HabtmRel?)
    requires PayloadsFrom(owner, parent)
    ensures r.Ok? ==> rel.name in r.value.0 && r.value.0 == record[rel.name := r.value.0[rel.name]]
    ensures r.Ok? ==>
      && owner[rel.name].Arr? && r.value.0[rel.name].Arr?
      && |r.value.0[rel.name].items| == |owner[rel.name].items|
    ensures r.Ok? ==> r.value.1.next >= st.next
    decreases Obj(parent), 1
  {
    var payload := owner[rel.name];
    var (value, st1) :-
      if !(rel.name in parent && parent[rel.name] == payload) then Err(TypeError("related_objects.map is not a function"))
      else if rel.HasManyRel? then SaveHasMany(k, rel, parent[rel.name], owner, now, st)
      else SaveHabtm(k, m, rel, parent[rel.name], owner, now, st);
    Ok((record[rel.name := value], st1))
  }

  /** A belongs_to relation: the saved target replaces the payload and its id
      is written into the record's key field. */
  function SaveBelongsTo(k: Klein, m: ModelDef, parent: Fields, owner: Fields, rel: Relation, record: Fields, now: int, st: St): (r: Result<(Fields, St)>)
    requires rel.name in owner && rel.BelongsToRel?
    requires PayloadsFrom(owner, parent)
    ensures r.Ok? ==> record.Keys <= r.value.0.Keys
    ensures r.Ok? ==> forall c :: c in record && c != rel.name && c != rel.key ==> r.value.0[c] == record[c]
    ensures r.Ok? && rel.key != "" && rel.key != rel.name ==>
      && rel.name in r.value.0 && r.value.0[rel.name].Obj? && "id" in r.value.0[rel.name].fields
      && rel.key in r.value.0 && r.value.0[rel.key] == r.value.0[rel.name].fields["id"]
    ensures r.Ok? ==> r.value.1.next >= st.next
    decreases Obj(parent), 1
  {
    var (value, id, st1) :- SaveTarget(k, m, parent, owner, rel, now, st);
    var record1 := record[rel.name := value];
    Ok((if rel.key != "" then record1[rel.key := id] else record1, st1))
  }

  /** The belongs_to target saved (model.js:486-490) and its id written back
      into the owner's row. */
  function SaveTarget(k: Klein, m: ModelDef, parent: Fields, owner: Fields, rel: Relation, now: int, st: St): (r: Result<(Value, Scalar, St)>)
    requires rel.name in owner && rel.BelongsToRel?
    requires PayloadsFrom(owner, parent)
    ensures r.Ok? ==> r.value.0.Obj? && "id" in r.value.0.fields && r.value.1 == r.value.0.fields["id"]
    ensures r.Ok? ==> r.value.2.next >= st.next
    decreases Obj(parent), 0
  {
    var payload := owner[rel.name];
    var s :- if rel.name in parent && parent[rel.name] == payload
             then Save(k, ModelFor(k, rel.table), parent[rel.name], None, Probe, now, st)
             else Err(RecordError(payload));
    WriteBack(k, m, rel, owner, s)
  }

  /** The ids a payload list already carries (`related_objects.map(r =>
      r.id).filter(id => id)`): reading `id` of a null item throws. */
  function TruthyIds(items: seq<Value>): (r: Result<seq<Scalar>>)
    ensures r.Ok? <==> forall i :: 0 <= i < |items| ==>
      && !items[i].Null?
      && (Prop(items[i], "id").Some? && Prop(items[i], "id").value.Truthy() ==> Prop(items[i], "id").value.IsScalar())
    ensures r.Ok? ==> forall x :: x in r.value ==> x.Truthy()
    ensures r.Ok? ==> forall i :: 0 <= i < |items| && Prop(items[i], "id").Some? && Prop(items[i], "id").value.Truthy() ==>
      Includes(r.value, Prop(items[i], "id").value)
    ensures r.Ok? ==> forall x :: x in r.value ==> exists i :: 0 <= i < |items| && Prop(items[i], "id") == Some(x)
  {
    if |items| == 0 then Ok([])
    else
      var rest :- TruthyIds(items[1..]);
      assert forall i :: 1 <= i < |items| ==> items[1..][i - 1] == items[i];
      var item := items[0];
      if item.Null? then Err(TypeError("Cannot read property 'id' of null"))
      else match Prop(item, "id")
        case Some(id) =>
          if !id.Truthy() then Ok(rest)
          else if id.IsScalar() then
            var sid: Scalar := id;
            var ids := [sid] + rest;
            assert ids[0] == id;
            assert forall x :: x in rest ==> Includes(ids, x) by {
              forall x | x in rest ensures Includes(ids, x) {
                var j :| 0 <= j < |rest| && rest[j] == x;
                assert ids[j + 1] == x;
              }
            }
            Ok(ids)
          else Err(Unsupported("an object-valued id"))
        case None => Ok(rest)
  }

  /** `_saveHasManyRelation` (model.js:458-484): rows pointing at the owner
      whose id is not among the payload's ids are detached by nulling their
      key, never deleted; every payload item is then given the owner's id
      and saved, as an update exactly when it carries one of those ids. The
      existence query at model.js:470 does not influence anything. */
  function SaveHasMany(k: Klein, rel: Relation, payload: Value, owner: Fields, now: int, st: St): (r: Result<(Value, St)>)
    requires rel.HasManyRel?
    ensures r.Ok? ==> payload.Arr? && r.value.0.Arr? && |r.value.0.items| == |payload.items|
    ensures r.Ok? ==> r.value.1.next >= st.next
    ensures !payload.Arr? ==> r.Err? && r.error.TypeError?
    decreases payload, 1
  {
    if !payload.Arr? then Err(TypeError("related_objects.map is not a function"))
    else
      var ids :- TruthyIds(payload.items);
      var ownerId :- OwnerKey(owner);
      var (st1, _) :- UpdateWhere(st, rel.table, DetachConds(rel, ownerId, ids), map[rel.key := Null]);
      var (saved, st2) :- SaveChildren(k, ModelFor(k, rel.table), rel.key, ownerId, ids, payload, 0, [], now, st1);
      Ok((Arr(saved), st2))
  }

  /** The rows a has_many save detaches: pointing at the owner, id not among
      the payload's ids. */
  function DetachConds(rel: Relation, ownerId: Scalar, ids: seq<Scalar>): seq<Cond>
    requires rel.HasManyRel?
  {
    [Eq(rel.key, ownerId), NotIn("id", ids)]
  }

  /** The per-item loop of the has_many saver. */
  function SaveChildren(k: Klein, child: ModelDef, key: string, ownerId: Scalar, ids: seq<Scalar>,
                        payload: Value, j: nat, acc: seq<Value>, now: int, st: St): (r: Result<(seq<Value>, St)>)
    requires payload.Arr? && j <= |payload.items|
    ensures r.Ok? ==> |r.value.0| == |acc| + |payload.items| - j
    ensures r.Ok? ==> r.value.1.next >= st.next
    decreases payload, 0, |payload.items| - j
  {
    if j == |payload.items| then Ok((acc, st))
    else
      var (saved, st1) :- SaveChild(k, child, key, ownerId, ids, payload.items[j], now, st);
      SaveChildren(k, child, key, ownerId, ids, payload, j + 1, acc + [saved], now, st1)
  }

  /** One item of the has_many loop: the foreign key assigned, the child
      saved, flagged as existing when its id is one of the payload's. */
  function SaveChild(k: Klein, child: ModelDef, key: string, ownerId: Scalar, ids: seq<Scalar>,
                     item: Value, now: int, st: St): (r: Result<(Value, St)>)
    ensures r.Ok? ==> r.value.1.next >= st.next
    decreases item, 5
  {
    if !item.Obj? then Err(AssignError(item))
    else
      var s :- Save(k, child, item, Some((key, ownerId)), Known(ChildExists(item, key, ownerId, ids)), now, st);
      Ok((Obj(s.record), s.st))
  }

  /** The `exists` flag a has_many child is saved with: its id, after the
      foreign key is assigned, is one of the payload's ids. */
  predicate ChildExists(item: Value, key: string, ownerId: Scalar, ids: seq<Scalar>)
    requires item.Obj?
  {
    IncludesProp(ids, Prop(Obj(Link(item.fields, Some((key, ownerId)))), "id"))
  }

  /** Assigning a property on a primitive throws in strict mode; assigning
      one on an array or a date works, but the record is then not modelled. */
  function AssignError(v: Value): Error {
    if v.Arr? || v.Date? then Unsupported("a record that is not an object") else TypeError("Cannot create property on a primitive")
  }

  /** `_saveBelongsToRelation` after the target is saved (model.js:491-499):
      the owner row's key column is set to the target's id, which the record
      then also carries. An undefined target id leaves the update with
      nothing to set. */
  function WriteBack(k: Klein, m: ModelDef, rel: Relation, owner: Fields, s: Saved): (r: Result<(Value, Scalar, St)>)
    requires rel.BelongsToRel?
    ensures r.Ok? ==> "id" in s.record && r.value.1 == s.record["id"] && r.value.0 == Obj(s.record)
    ensures r.Ok? ==>
      && "id" in owner && owner["id"].IsScalar()
      && Rows(r.value.2.db, m.table) == UpdateRows(Rows(s.st.db, m.table), [Eq("id", owner["id"])], map[rel.key := r.value.1])
    ensures r.Ok? ==> forall t :: t != m.table ==> Rows(r.value.2.db, t) == Rows(s.st.db, t)
    ensures r.Ok? ==> r.value.2.next == s.st.next
    ensures "id" !in s.record ==> r == Err(EmptyUpdate)
  {
    var id :- if "id" !in s.record then Err(EmptyUpdate)
              else if s.record["id"].IsScalar() then var id: Scalar := s.record["id"]; Ok(id)
              else Err(Unsupported("an object-valued id"));
    var ownerId :- OwnerKey(owner);
    var (st1, _) :- UpdateWhere(s.st, m.table, [Eq("id", ownerId)], map[rel.key := id]);
    Ok((Obj(s.record), id, st1))
  }

  /** `_saveHasAndBelongsToManyRelation` (model.js:505-558,
      lib/model.js:496-561). The targets the owner is linked to are read
      once, before anything changes; join rows to targets no longer in the
      payload are deleted; each item is saved, and a join row is inserted
      for it unless it was linked before the call. The older engine reads
      the saved target's id as a plain property of an immutable map, which
      is always undefined, so it never finds a link. */
  function SaveHabtm(k: Klein, m: ModelDef, rel: Relation, payload: Value, owner: Fields, now: int, st: St): (r: Result<(Value, St)>)
    requires rel.HabtmRel?
    ensures r.Ok? ==> payload.Arr? && r.value.0.Arr? && |r.value.0.items| == |payload.items|
    ensures r.Ok? ==> r.value.1.next >= st.next
    ensures !payload.Arr? ==> r.Err? && r.error.TypeError?
    decreases payload, 1
  {
    if !payload.Arr? then Err(TypeError("related_objects.map is not a function"))
    else
      var ids :- TruthyIds(payload.items);
      var ownerId :- OwnerKey(owner);
      var linked := Linked(rel, ownerId, st);
      var st1 := DeleteWhere(st, rel.throughTable, UnlinkConds(rel, ownerId, ids));
      var existing := Column(SelectWhere(st1, rel.table, [In("id", ids)]), "id");
      var (saved, st2) :- SaveTargets(k, m, rel, ModelFor(k, rel.table), ownerId, linked, existing, payload, 0, [], now, st1);
      Ok((Arr(saved), st2))
  }

  /** The targets an owner is joined to (model.js:515-516). */
  function Linked(rel: Relation, ownerId: Scalar, st: St): seq<Scalar>
    requires rel.HabtmRel?
  {
    Column(SelectWhere(st, rel.throughTable, [Eq(rel.sourceKey, ownerId)]), rel.key)
  }

  /** The join rows a HABTM save deletes (model.js:519). */
  function UnlinkConds(rel: Relation, ownerId: Scalar, ids: seq<Scalar>): seq<Cond>
    requires rel.HabtmRel?
  {
    [Eq(rel.sourceKey, ownerId), NotIn(rel.key, ids)]
  }

  /** The id of a saved record, if it has one. */
  function IdField(record: Fields): (r: Result<Option<Scalar>>)
    ensures "id" !in record ==> r == Ok(None)
    ensures "id" in record && record["id"].IsScalar() ==> r == Ok(Some(record["id"]))
  {
    if "id" !in record then Ok(None)
    else if record["id"].IsScalar() then var id: Scalar := record["id"]; Ok(Some(id))
    else Err(Unsupported("an object-valued id"))
  }

  /** Whether a saved target is treated as already joined to the owner. */
  predicate AlreadyLinked(engine: Engine, linked: seq<Scalar>, targetId: Option<Scalar>) {
    engine == Current && targetId.Some? && Includes(linked, targetId.value)
  }

  /** The per-item loop of the HABTM saver. */
  function SaveTargets(k: Klein, m: ModelDef, rel: Relation, target: ModelDef, ownerId: Scalar,
                       linked: seq<Scalar>, existing: seq<Scalar>,
                       payload: Value, j: nat, acc: seq<Value>, now: int, st: St): (r: Result<(seq<Value>, St)>)
    requires rel.HabtmRel? && payload.Arr? && j <= |payload.items|
    ensures r.Ok? ==> |r.value.0| == |acc| + |payload.items| - j
    ensures r.Ok? ==> r.value.1.next >= st.next
    decreases payload, 0, |payload.items| - j
  {
    if j == |payload.items| then Ok((acc, st))
    else
      var (saved, st1) :- LinkTarget(k, m, rel, target, ownerId, linked, existing, payload.items[j], now, st);
      SaveTargets(k, m, rel, target, ownerId, linked, existing, payload, j + 1, acc + [saved], now, st1)
  }

  /** One item of the HABTM loop: the target saved, flagged as existing when
      its id was found, and a join row inserted unless it counts as linked. */
  function LinkTarget(k: Klein, m: ModelDef, rel: Relation, target: ModelDef, ownerId: Scalar,
                      linked: seq<Scalar>, existing: seq<Scalar>, item: Value, now: int, st: St): (r: Result<(Value, St)>)
    requires rel.HabtmRel?
    ensures r.Ok? ==> r.value.1.next >= st.next
    decreases item, 5
  {
    var s :- Save(k, target, item, None, Known(IncludesProp(existing, Prop(item, "id"))), now, st);
    var targetId :- IdField(s.record);
    var st1 := if AlreadyLinked(k.engine, linked, targetId) then s.st
               else InsertJoinRow(k, m, rel, targetId, ownerId, now, s.st);
    Ok((Obj(s.record), st1))
  }

  /** The timestamp columns a join row is stamped with: the owner model's
      configured ones on the current engine, the fixed names on the older. */
  function JoinStamps(k: Klein, m: ModelDef): set<string> {
    if k.engine == Current then {m.updatedColumn, m.createdColumn} - {""} else {"updated_at", "created_at"}
  }

  /** The join row for a newly linked target (model.js:533-542,
      lib/model.js:525-533), under a fresh id and with both timestamps.
      Later properties of the literal win over earlier ones. */
  function JoinRow(k: Klein, m: ModelDef, rel: Relation, targetId: Option<Scalar>, ownerId: Scalar, id: Scalar, now: int): (r: Row)
    requires rel.HabtmRel?
    ensures forall c :: c in r <==> c == "id" || c == rel.sourceKey || (targetId.Some? && c == rel.key) || c in JoinStamps(k, m)
    ensures rel.sourceKey !in JoinStamps(k, m) ==> r[rel.sourceKey] == ownerId
    ensures targetId.Some? && rel.key != rel.sourceKey && rel.key !in JoinStamps(k, m) ==> r[rel.key] == targetId.value
    ensures forall c :: c in JoinStamps(k, m) ==> r[c] == Date(now)
  {
    StampJoin(k, m, JoinLinks(rel, targetId, ownerId, id), now)
  }

  /** The join row before its timestamps: its id, the target's id under the
      relation's key and the owner's id under the source key. */
  function JoinLinks(rel: Relation, targetId: Option<Scalar>, ownerId: Scalar, id: Scalar): (r: Row)
    requires rel.HabtmRel?
    ensures forall c :: c in r <==> c == "id" || c == rel.sourceKey || (targetId.Some? && c == rel.key)
    ensures r[rel.sourceKey] == ownerId
    ensures targetId.Some? && rel.key != rel.sourceKey ==> r[rel.key] == targetId.value
  {
    var row := map["id" := id];
    var row := if targetId.Some? then row[rel.key := targetId.value] else row;
    row[rel.sourceKey := ownerId]
  }

  /** Both timestamps of a join row set to the current time. */
  function StampJoin(k: Klein, m: ModelDef, row: Row, now: int): (r: Row)
    ensures forall c :: c in r <==> c in row || c in JoinStamps(k, m)
    ensures forall c :: c in row && c !in JoinStamps(k, m) ==> r[c] == row[c]
    ensures forall c :: c in JoinStamps(k, m) ==> r[c] == Date(now)
  {
    if k.engine == Current then
      StampRow(StampRow(row, m.updatedColumn, now), m.createdColumn, now)
    else
      row["updated_at" := Date(now)]["created_at" := Date(now)]
  }

  /** Inserts the join row for a newly linked target. */
  function InsertJoinRow(k: Klein, m: ModelDef, rel: Relation, targetId: Option<Scalar>, ownerId: Scalar, now: int, st: St): (r: St)
    requires rel.HabtmRel?
    ensures |Rows(r.db, rel.throughTable)| == |Rows(st.db, rel.throughTable)| + 1
    ensures Rows(r.db, rel.throughTable)[..|Rows(st.db, rel.throughTable)|] == Rows(st.db, rel.throughTable)
    ensures forall t :: t != rel.throughTable ==> Rows(r.db, t) == Rows(st.db, t)
    ensures r.next == st.next + 1
  {
    var (id, st1) := NewUuid(st);
    InsertRow(st1, rel.throughTable, JoinRow(k, m, rel, targetId, ownerId, id, now)).0
  }

  /** `create` (model.js:83-100, lib/model.js:69-92): `save` with `exists`
      forced to false, item by item for a list. */
  function Create(k: Klein, m: ModelDef, v: Value, now: int, st: St): (r: Result<(Value, St)>)
    ensures k.engine == Current && !k.connected && !(v.Arr? && |v.items| == 0) ==> r == Err(NotConnected)
    ensures r.Ok? && v.Arr? ==> r.value.0.Arr? && |r.value.0.items| == |v.items|
    ensures r.Ok? && !v.Arr? ==> r.value.0.Obj?
  {
    if v.Arr? then
      var (items, st1) :- CreateAll(k, m, v.items, 0, [], now, st);
      Ok((Arr(items), st1))
    else
      var s :- Save(k, m, v, None, Known(false), now, st);
      Ok((Obj(s.record), s.st))
  }

  function CreateAll(k: Klein, m: ModelDef, items: seq<Value>, j: nat, acc: seq<Value>, now: int, st: St): (r: Result<(seq<Value>, St)>)
    requires j <= |items|
    ensures r.Ok? ==> |r.value.0| == |acc| + |items| - j
    ensures k.engine == Current && !k.connected && j < |items| ==> r == Err(NotConnected)
    decreases |items| - j
  {
    if j == |items| then Ok((acc, st))
    else
      var s :- Save(k, m, items[j], None, Known(false), now, st);
      CreateAll(k, m, items, j + 1, acc + [Obj(s.record)], now, s.st)
  }

  /** The table and key a cascading relation deletes by: the join table and
      the owner's key in it, the related table and its foreign key, or the
      `table` and `key` an untyped relation was declared with. An untyped
      relation missing either has nothing the query builder can delete by. */
  function CascadeTarget(rel: Relation): (r: Option<(string, string)>)
    ensures rel.HabtmRel? ==> r == Some((rel.throughTable, rel.sourceKey))
    ensures rel.HasManyRel? ==> r == Some((rel.table, rel.key))
    ensures rel.BelongsToRel? ==> r == None
    ensures rel.Untyped? ==> (r.Some? <==> rel.declaredTable.Some? && rel.declaredKey.Some?)
    ensures rel.Untyped? && r.Some? ==> r.value == (rel.declaredTable.value, rel.declaredKey.value)
  {
    match rel
    case HabtmRel(_, _, _, sourceKey, throughTable) => Some((throughTable, sourceKey))
    case HasManyRel(_, table, key, _) => Some((table, key))
    case BelongsToRel(_, _, _) => None
    case Untyped(_, table, key, _) =>
      if table.Some? && key.Some? then Some((table.value, key.value)) else None
  }

  /** `destroy` (model.js:103-128, lib/model.js:95-118): deletes the rows
      with the record's id, then for each cascading relation in order the
      rows that point at it. The record itself is returned as given. */
  function Destroy(k: Klein, m: ModelDef, record: Value, st: St): (r: Result<(Value, St)>)
    ensures k.engine == Current && !k.connected ==> r == Err(NotConnected)
    ensures r.Ok? ==> r.value.0 == record && record.Obj?
    ensures r.Ok? ==> r.value.1.next == st.next
    ensures (k.engine == Legacy || k.connected) && record.Obj? && OwnerKey(record.fields).Ok? ==>
      (r.Ok? <==> forall j :: 0 <= j < |m.relations| && m.relations[j].Cascades() ==> CascadeTarget(m.relations[j]).Some?)
  {
    if k.engine == Current && !k.connected then Err(NotConnected)
    else if !record.Obj? then Err(TypeError("model.get is not a function"))
    else
      var id :- OwnerKey(record.fields);
      var st1 := DeleteWhere(st, m.table, [Eq("id", id)]);
      var st2 :- Cascade(m.relations, 0, id, st1);
      Ok((record, st2))
  }

  /** The dependent deletes, one relation after another. Only an untyped
      dependent relation declared without a table or a key can fail. */
  function Cascade(rels: seq<Relation>, i: nat, id: Scalar, st: St): (r: Result<St>)
    requires i <= |rels|
    ensures r.Ok? ==> r.value.next == st.next
    ensures r.Err? <==> exists j :: i <= j < |rels| && rels[j].Cascades() && CascadeTarget(rels[j]).None?
    ensures r.Err? ==> exists j :: i <= j < |rels| && rels[j].Untyped? && rels[j].dependent
    decreases |rels| - i
  {
    if i == |rels| then Ok(st)
    else if !rels[i].Cascades() then Cascade(rels, i + 1, id, st)
    else match CascadeTarget(rels[i])
      case Some((table, key)) => Cascade(rels, i + 1, id, DeleteWhere(st, table, [Eq(key, id)]))
      case None => Err(UndefinedBinding)
  }
}

=== FILE: persist_facts.dfy ===
/** What a save and a destroy do to the store. The savers of related rows
    are stated for related models that declare no relations of their own
    ("flat"), whose saves write only their own table. */
module PersistFacts {
  import opened Js
  import Text
  import opened Relations
  import opened Store
  import opened Models
  import opened Persist

  /** Neither timestamp of a model is written into its `id` column. */
  predicate StampsSpareId(m: ModelDef) {
    m.createdColumn != "id" && m.updatedColumn != "id"
  }

  /** The model `klein.model(table)` finds declares no relations and keeps
      its timestamps out of `id`. */
  predicate FlatAt(k: Klein, table: string) {
    var c := ModelFor(k, table);
    c.table == table && c.relations == [] && StampsSpareId(c)
  }

  /** Writing a record's own row touches only the model's table and never
      removes a row from it; forcing `exists: false` appends exactly one row
      and leaves the others in place. */
  lemma WriteRecordFrame(k: Klein, m: ModelDef, v: Value, link: Option<(string, Scalar)>, given: Exists, now: int, st: St)
    requires v.Obj?
    ensures var r := WriteRecord(k, m, v, link, given, now, st);
      var before := Rows(st.db, m.table);
      r.Ok? ==>
        && (forall t :: t != m.table ==> Rows(r.value.1.db, t) == Rows(st.db, t))
        && |Rows(r.value.1.db, m.table)| >= |before|
        && (given == Known(false) ==>
              |Rows(r.value.1.db, m.table)| == |before| + 1
              && Rows(r.value.1.db, m.table)[..|before|] == before)
  {
    var r := WriteRecord(k, m, v, link, given, now, st);
    if r.Ok? {
      var (row, detached, st1) := PrepareRow(k, m, Link(v.fields, link), now, st).value;
      var (st2, results) := WriteRow(k, m, row, IsUpdate(given, m, row, st1), now, st1).value;
      assert r.value.1 == st2;
      if !IsUpdate(given, m, row, st1) {
        assert Rows(st2.db, m.table)[..|Rows(st.db, m.table)|] == Rows(st.db, m.table);
      }
    }
  }

  /** Writing a record whose id is a plain value touches only the rows with
      that id and never changes any row's id. The written record carries the
      id whenever the write found or made a row: always, unless `exists:
      true` was forced for an id no row has. */
  lemma WriteRecordById(k: Klein, m: ModelDef, v: Value, link: Option<(string, Scalar)>, given: Exists, now: int, st: St)
    requires v.Obj? && !IsRelationName(m, "id") && StampsSpareId(m)
    requires "id" in Link(v.fields, link) && PlainId(Link(v.fields, link)["id"])
    ensures var r := WriteRecord(k, m, v, link, given, now, st);
      var id := Link(v.fields, link)["id"];
      var before := Rows(st.db, m.table);
      r.Ok? ==>
        var after := Rows(r.value.1.db, m.table);
        && (forall p :: 0 <= p < |before| && Col(before[p], "id") != id ==> after[p] == before[p])
        && (forall p :: 0 <= p < |before| ==> Col(after[p], "id") == Col(before[p], "id"))
        && ((given != Known(true) || exists p :: 0 <= p < |before| && Col(before[p], "id") == id) ==>
              "id" in r.value.0 && r.value.0["id"] == id)
  {
    var r := WriteRecord(k, m, v, link, given, now, st);
    if r.Ok? {
      var props := Link(v.fields, link);
      var (row, detached, st1) := PrepareRow(k, m, props, now, st).value;
      assert row["id"] == props["id"];
      assert "id" !in detached;
      var update := IsUpdate(given, m, row, st1);
      WriteRowById(k, m, row, given, now, st1);
      var (st2, results) := WriteRow(k, m, row, update, now, st1).value;
      assert r.value == (Reattach(results, detached), st2);
    }
  }

  /** The row-level half of `WriteRecordById`. */
  lemma WriteRowById(k: Klein, m: ModelDef, row: Row, given: Exists, now: int, st: St)
    requires "id" in row && PlainId(row["id"]) && StampsSpareId(m)
    ensures var update := IsUpdate(given, m, row, st);
      var r := WriteRow(k, m, row, update, now, st);
      var id := row["id"];
      var before := Rows(st.db, m.table);
      r.Ok? ==>
        var after := Rows(r.value.0.db, m.table);
        && (forall p :: 0 <= p < |before| && Col(before[p], "id") != id ==> after[p] == before[p])
        && (forall p :: 0 <= p < |before| ==> Col(after[p], "id") == Col(before[p], "id"))
        && ((given != Known(true) || exists p :: 0 <= p < |before| && Col(before[p], "id") == id) ==>
              |r.value.1| > 0 && "id" in r.value.1[0] && r.value.1[0]["id"] == id)
  {
    var update := IsUpdate(given, m, row, st);
    var r := WriteRow(k, m, row, update, now, st);
    var id := row["id"];
    var before := Rows(st.db, m.table);
    if r.Ok? && update {
      UpdateByIdRows(before, id, row);
      if given != Known(true) || exists p :: 0 <= p < |before| && Col(before[p], "id") == id {
        if given.Probe? {
          var x :| x in before && Col(x, "id") == ProbeKey(row);
          SelectByIdFinds(before, id, x);
        } else {
          var p :| 0 <= p < |before| && Col(before[p], "id") == id;
          SelectByIdFinds(before, id, before[p]);
        }
        assert r.value.1[0] in r.value.1;
      }
    }
  }

  /** An update by id changes only the rows with that id, and leaves every
      row's id as it was when the values written carry the same id. */
  lemma UpdateByIdRows(before: seq<Row>, id: Scalar, row: Row)
    requires "id" in row && row["id"] == id
    ensures var after := UpdateRows(before, [Eq("id", id)], row);
      && (forall p :: 0 <= p < |before| && Col(before[p], "id") != id ==> after[p] == before[p])
      && (forall p :: 0 <= p < |before| ==> Col(after[p], "id") == Col(before[p], "id"))
  {
    var cs := [Eq("id", id)];
    var after := UpdateRows(before, cs, row);
    forall p | 0 <= p < |before|
      ensures Col(after[p], "id") == Col(before[p], "id")
      ensures Col(before[p], "id") != id ==> after[p] == before[p]
    {
      if MatchesAll(before[p], cs) {
        assert Holds(before[p], cs[0]);
      } else {
        assert !Holds(before[p], cs[0]);
      }
    }
  }

  /** A row holding the id is selected by it. */
  lemma SelectByIdFinds(before: seq<Row>, id: Scalar, x: Row)
    requires x in before && Col(x, "id") == id
    ensures |Select(before, [Eq("id", id)])| > 0
  {
    var cs := [Eq("id", id)];
    assert Holds(x, cs[0]);
    assert x in Select(before, cs);
  }

  /** A model without relations saves by writing its own row and nothing
      else. */
  lemma SaveFlat(k: Klein, m: ModelDef, v: Value, link: Option<(string, Scalar)>, given: Exists, now: int, st: St)
    requires m.relations == [] && v.Obj? && (k.engine == Legacy || k.connected)
    ensures var w := WriteRecord(k, m, v, link, given, now, st);
      && (w.Ok? ==> Save(k, m, v, link, given, now, st) == Ok(Saved(w.value.0, w.value.1)))
      && (w.Err? ==> Save(k, m, v, link, given, now, st) == Err(w.error))
  {
  }

  /** No row was removed, and the rows of `mid` whose id is not among `ids`
      are still in place. */
  predicate Spared(rows: seq<Row>, mid: seq<Row>, ids: seq<Scalar>) {
    |rows| >= |mid| && forall p :: 0 <= p < |mid| && !Includes(ids, Col(mid[p], "id")) ==> rows[p] == mid[p]
  }

  /** Every present, truthy id of a payload item is a plain value. */
  predicate PlainIds(items: seq<Value>) {
    forall i :: 0 <= i < |items| && Prop(items[i], "id").Some? && Prop(items[i], "id").value.Truthy() ==>
      PlainId(Prop(items[i], "id").value)
  }

  /** Saving one has_many child writes only the row of a child the payload
      carries the id of, or a new row. */
  lemma ChildSpares(k: Klein, child: ModelDef, key: string, ownerId: Scalar, ids: seq<Scalar>,
                    item: Value, now: int, st: St, mid: seq<Row>)
    requires item.Obj? && child.relations == [] && StampsSpareId(child) && key != "id"
    requires Prop(item, "id").Some? && Prop(item, "id").value.Truthy() ==> PlainId(Prop(item, "id").value)
    requires forall x :: x in ids ==> x.Truthy()
    requires Spared(Rows(st.db, child.table), mid, ids)
    ensures var w := WriteRecord(k, child, item, Some((key, ownerId)), Known(ChildExists(item, key, ownerId, ids)), now, st);
      w.Ok? ==> Spared(Rows(w.value.1.db, child.table), mid, ids)
  {
    var link := Some((key, ownerId));
    var b := ChildExists(item, key, ownerId, ids);
    WriteRecordFrame(k, child, item, link, Known(b), now, st);
    if b {
      var x := Link(item.fields, link)["id"];
      assert Includes(ids, x);
      assert Prop(item, "id") == Some(x);
      WriteRecordById(k, child, item, link, Known(b), now, st);
    }
  }

  /** The has_many child loop writes only rows of children the payload
      carries the id of, or new rows. */
  lemma {:induction false} ChildrenSpare(k: Klein, child: ModelDef, key: string, ownerId: Scalar, ids: seq<Scalar>,
                                         payload: Value, j: nat, acc: seq<Value>, now: int, st: St, mid: seq<Row>)
    requires payload.Arr? && j <= |payload.items|
    requires child.relations == [] && StampsSpareId(child) && key != "id"
    requires PlainIds(payload.items) && forall x :: x in ids ==> x.Truthy()
    requires Spared(Rows(st.db, child.table), mid, ids)
    ensures SparedBy(SaveChildren(k, child, key, ownerId, ids, payload, j, acc, now, st), child.table, mid, ids)
    decreases |payload.items| - j, 1
  {
    if j < |payload.items| {
      ChildrenSpareFrom(k, child, key, ownerId, ids, payload, j, acc, now, st, mid);
    }
  }

  /** The inductive step of `ChildrenSpare`. */
  lemma {:induction false} ChildrenSpareFrom(k: Klein, child: ModelDef, key: string, ownerId: Scalar, ids: seq<Scalar>,
                                             payload: Value, j: nat, acc: seq<Value>, now: int, st: St, mid: seq<Row>)
    requires payload.Arr? && j < |payload.items|
    requires child.relations == [] && StampsSpareId(child) && key != "id"
    requires PlainIds(payload.items) && forall x :: x in ids ==> x.Truthy()
    requires Spared(Rows(st.db, child.table), mid, ids)
    ensures SparedBy(SaveChildren(k, child, key, ownerId, ids, payload, j, acc, now, st), child.table, mid, ids)
    decreases |payload.items| - j, 0
  {
    if SaveChildren(k, child, key, ownerId, ids, payload, j, acc, now, st).Ok? {
      var saved, st1 := ChildStep(k, child, key, ownerId, ids, payload, j, acc, now, st, mid);
      ChildrenSpare(k, child, key, ownerId, ids, payload, j + 1, acc + [saved], now, st1, mid);
    }
  }

  /** One iteration of the has_many loop, as the state it hands on. */
  lemma ChildStep(k: Klein, child: ModelDef, key: string, ownerId: Scalar, ids: seq<Scalar>,
                  payload: Value, j: nat, acc: seq<Value>, now: int, st: St, mid: seq<Row>) returns (saved: Value, st1: St)
    requires payload.Arr? && j < |payload.items|
    requires child.relations == [] && StampsSpareId(child) && key != "id"
    requires PlainIds(payload.items) && forall x :: x in ids ==> x.Truthy()
    requires Spared(Rows(st.db, child.table), mid, ids)
    requires SaveChildren(k, child, key, ownerId, ids, payload, j, acc, now, st).Ok?
    ensures SaveChildren(k, child, key, ownerId, ids, payload, j, acc, now, st)
         == SaveChildren(k, child, key, ownerId, ids, payload, j + 1, acc + [saved], now, st1)
    ensures Spared(Rows(st1.db, child.table), mid, ids)
  {
    SaveChildSpares(k, child, key, ownerId, ids, payload.items[j], now, st, mid);
    var step := SaveChild(k, child, key, ownerId, ids, payload.items[j], now, st).value;
    saved, st1 := step.0, step.1;
  }

  /** A loop outcome that, if it succeeds, still spares `mid`. */
  predicate SparedBy(r: Result<(seq<Value>, St)>, table: string, mid: seq<Row>, ids: seq<Scalar>) {
    r.Ok? ==> Spared(Rows(r.value.1.db, table), mid, ids)
  }

  /** One child saved by the has_many loop spares what its state spared. */
  lemma SaveChildSpares(k: Klein, child: ModelDef, key: string, ownerId: Scalar, ids: seq<Scalar>,
                        item: Value, now: int, st: St, mid: seq<Row>)
    requires child.relations == [] && StampsSpareId(child) && key != "id"
    requires Prop(item, "id").Some? && Prop(item, "id").value.Truthy() ==> PlainId(Prop(item, "id").value)
    requires forall x :: x in ids ==> x.Truthy()
    requires Spared(Rows(st.db, child.table), mid, ids)
    ensures var r := SaveChild(k, child, key, ownerId, ids, item, now, st);
      r.Ok? ==> Spared(Rows(r.value.1.db, child.table), mid, ids)
  {
    var r := SaveChild(k, child, key, ownerId, ids, item, now, st);
    if r.Ok? {
      var b := ChildExists(item, key, ownerId, ids);
      SaveFlat(k, child, item, Some((key, ownerId)), Known(b), now, st);
      ChildSpares(k, child, key, ownerId, ids, item, now, st, mid);
    }
  }

  /** A has_many save never deletes a related row (model.js:466-468): the
      rows that pointed at the owner but whose id the payload no longer
      carries stay in place with their key set to null, and every other row
      whose id the payload does not carry is left as it was. Rows are only
      ever added. */
  lemma HasManyDetaches(k: Klein, rel: Relation, payload: Value, owner: Fields, now: int, st: St)
    requires rel.HasManyRel? && rel.key != "id" && FlatAt(k, rel.table)
    requires payload.Arr? && PlainIds(payload.items)
    ensures var r := SaveHasMany(k, rel, payload, owner, now, st);
      var before := Rows(st.db, rel.table);
      r.Ok? ==>
        && TruthyIds(payload.items).Ok? && "id" in owner
        && var ids := TruthyIds(payload.items).value;
           var after := Rows(r.value.1.db, rel.table);
           && |after| >= |before|
           && forall p :: 0 <= p < |before| && !Includes(ids, Col(before[p], "id")) ==>
                after[p] == (if Col(before[p], rel.key) == owner["id"] && Holds(before[p], NotIn("id", ids))
                             then Cleared(before[p], rel.key) else before[p])
  {
    var r := SaveHasMany(k, rel, payload, owner, now, st);
    if r.Ok? {
      var ids := TruthyIds(payload.items).value;
      var ownerId := OwnerKey(owner).value;
      var before := Rows(st.db, rel.table);
      var cs := DetachConds(rel, ownerId, ids);
      var st1 := UpdateWhere(st, rel.table, cs, map[rel.key := Null]).value.0;
      DetachShape(before, rel, ownerId, ids);
      ChildrenSpare(k, ModelFor(k, rel.table), rel.key, ownerId, ids, payload, 0, [], now, st1, Rows(st1.db, rel.table));
    }
  }

  /** The table after the detaching update: the rows of the owner whose id
      the payload dropped have their key cleared; ids are untouched. */
  lemma DetachShape(before: seq<Row>, rel: Relation, ownerId: Scalar, ids: seq<Scalar>)
    requires rel.HasManyRel? && rel.key != "id"
    ensures var mid := UpdateRows(before, DetachConds(rel, ownerId, ids), map[rel.key := Null]);
      forall p :: 0 <= p < |before| ==>
        && Col(mid[p], "id") == Col(before[p], "id")
        && mid[p] == (if Col(before[p], rel.key) == ownerId && Holds(before[p], NotIn("id", ids))
                      then Cleared(before[p], rel.key) else before[p])
  {
    var cs := DetachConds(rel, ownerId, ids);
    var mid := UpdateRows(before, cs, map[rel.key := Null]);
    forall p | 0 <= p < |before|
      ensures Col(mid[p], "id") == Col(before[p], "id")
      ensures mid[p] == (if Col(before[p], rel.key) == ownerId && Holds(before[p], NotIn("id", ids))
                         then Cleared(before[p], rel.key) else before[p])
    {
      assert Holds(before[p], cs[0]) <==> Col(before[p], rel.key) == ownerId;
      assert cs[1] == NotIn("id", ids);
      if MatchesAll(before[p], cs) {
        assert mid[p] == Cleared(before[p], rel.key);
      }
    }
  }

  /** The foreign key is none of the columns a save fills in by itself: not
      the id and no timestamp of the child model. */
  predicate KeySpared(child: ModelDef, key: string) {
    && key != "id" && key != "created_at" && key != "updated_at"
    && key != child.createdColumn && key != child.updatedColumn
  }

  /** The rows of `before` keep their place and their id, a row pointing at
      the owner keeps pointing at it, and rows are only added after them. */
  predicate KeepsLinks(before: seq<Row>, after: seq<Row>, key: string, ownerId: Scalar) {
    && |after| >= |before|
    && forall p :: 0 <= p < |before| ==>
         && Col(after[p], "id") == Col(before[p], "id")
         && (Col(before[p], key) == ownerId ==> Col(after[p], key) == ownerId)
  }

  /** A saved child points at the owner, and so does a row of the table
      with the child's id. */
  predicate Attached(rows: seq<Row>, v: Value, key: string, ownerId: Scalar) {
    && v.Obj? && key in v.fields && v.fields[key] == ownerId
    && exists p :: 0 <= p < |rows| && Col(rows[p], "id") == Get(v.fields, "id") && Col(rows[p], key) == ownerId
  }

  /** A saved child carries the truthy id its payload item had. */
  predicate SameId(saved: Value, item: Value) {
    Prop(item, "id").Some? && Prop(item, "id").value.Truthy() ==>
      saved.Obj? && Get(saved.fields, "id") == Prop(item, "id").value
  }

  /** Every id among `ids` is the id of a row. */
  predicate HasIds(rows: seq<Row>, ids: seq<Scalar>) {
    forall x :: x in ids ==> exists p :: 0 <= p < |rows| && Col(rows[p], "id") == x
  }

  /** Every truthy id of a payload item is a plain value among `ids`. */
  predicate ItemIdsListed(items: seq<Value>, ids: seq<Scalar>) {
    forall i :: 0 <= i < |items| && Prop(items[i], "id").Some? && Prop(items[i], "id").value.Truthy() ==>
      PlainId(Prop(items[i], "id").value) && Includes(ids, Prop(items[i], "id").value)
  }

  lemma KeepsLinksTrans(a: seq<Row>, b: seq<Row>, c: seq<Row>, key: string, ownerId: Scalar)
    requires KeepsLinks(a, b, key, ownerId) && KeepsLinks(b, c, key, ownerId)
    ensures KeepsLinks(a, c, key, ownerId)
  {
  }

  /** What is attached stays attached, and ids stay present, while rows keep
      their links. */
  lemma LinksKept(rows: seq<Row>, after: seq<Row>, key: string, ownerId: Scalar, v: Value, ids: seq<Scalar>)
    requires KeepsLinks(rows, after, key, ownerId)
    ensures Attached(rows, v, key, ownerId) ==> Attached(after, v, key, ownerId)
    ensures HasIds(rows, ids) ==> HasIds(after, ids)
  {
    if Attached(rows, v, key, ownerId) {
      var p :| 0 <= p < |rows| && Col(rows[p], "id") == Get(v.fields, "id") && Col(rows[p], key) == ownerId;
      assert Col(after[p], "id") == Get(v.fields, "id") && Col(after[p], key) == ownerId;
    }
    if HasIds(rows, ids) {
      forall x | x in ids ensures exists p :: 0 <= p < |after| && Col(after[p], "id") == x {
        var p :| 0 <= p < |rows| && Col(rows[p], "id") == x;
        assert Col(after[p], "id") == x;
      }
    }
  }

  /** An update by id with values that point at the owner keeps every row's
      link, and leaves the row with that id pointing at the owner. */
  lemma UpdateKeepsLinks(before: seq<Row>, id: Scalar, row: Row, key: string, ownerId: Scalar)
    requires "id" in row && row["id"] == id && key in row && row[key] == ownerId
    ensures var after := UpdateRows(before, [Eq("id", id)], row);
      && KeepsLinks(before, after, key, ownerId)
      && forall p :: 0 <= p < |before| && Col(before[p], "id") == id ==> Col(after[p], key) == ownerId
  {
    var cs := [Eq("id", id)];
    var after := UpdateRows(before, cs, row);
    UpdateByIdRows(before, id, row);
    forall p | 0 <= p < |before|
      ensures Col(before[p], "id") == id ==> Col(after[p], key) == ownerId
      ensures Col(before[p], key) == ownerId ==> Col(after[p], key) == ownerId
    {
      if MatchesAll(before[p], cs) {
        assert after[p][key] == row[key];
      } else {
        assert !Holds(before[p], cs[0]);
      }
    }
  }

  /** One has_many child saved: it comes back pointing at the owner, with
      the id its item had, and the table holds a row with its id pointing at
      the owner; the rows already there keep their links. */
  lemma ChildAttaches(k: Klein, child: ModelDef, key: string, ownerId: Scalar, ids: seq<Scalar>,
                      item: Value, now: int, st: St)
    requires child.relations == [] && StampsSpareId(child) && KeySpared(child, key) && IsColumnValue(ownerId)
    requires Prop(item, "id").Some? && Prop(item, "id").value.Truthy() ==>
      PlainId(Prop(item, "id").value) && Includes(ids, Prop(item, "id").value)
    requires forall x :: x in ids ==> x.Truthy()
    requires HasIds(Rows(st.db, child.table), ids)
    ensures var r := SaveChild(k, child, key, ownerId, ids, item, now, st);
      r.Ok? ==>
        && Attached(Rows(r.value.1.db, child.table), r.value.0, key, ownerId)
        && SameId(r.value.0, item)
        && KeepsLinks(Rows(st.db, child.table), Rows(r.value.1.db, child.table), key, ownerId)
  {
    var r := SaveChild(k, child, key, ownerId, ids, item, now, st);
    if r.Ok? {
      var b := ChildExists(item, key, ownerId, ids);
      var row, st1 := ChildWritten(k, child, key, ownerId, ids, item, now, st);
      var id := Prop(item, "id");
      assert Prop(Obj(Link(item.fields, Some((key, ownerId)))), "id") == id;
      if b {
        var i :| 0 <= i < |ids| && ids[i] == id.value;
        assert ids[i] in ids;
        var p :| 0 <= p < |Rows(st1.db, child.table)| && Col(Rows(st1.db, child.table)[p], "id") == id.value;
      }
      WrittenChild(k, child, row, b, key, ownerId, now, st1);
    }
  }

  /** A has_many child's save is the write of its row: the record it
      returns is what that write reports back. */
  lemma ChildWritten(k: Klein, child: ModelDef, key: string, ownerId: Scalar, ids: seq<Scalar>,
                     item: Value, now: int, st: St) returns (row: Row, st1: St)
    requires child.relations == [] && StampsSpareId(child) && KeySpared(child, key) && IsColumnValue(ownerId)
    requires SaveChild(k, child, key, ownerId, ids, item, now, st).Ok?
    ensures item.Obj?
    ensures var written := WriteRow(k, child, row, ChildExists(item, key, ownerId, ids), now, st1);
      && written.Ok?
      && SaveChild(k, child, key, ownerId, ids, item, now, st).value == (Obj(Reattach(written.value.1, map[])), written.value.0)
    ensures st1.db == st.db
    ensures key in row && row[key] == ownerId
    ensures "id" in item.fields && PlainId(item.fields["id"]) ==> "id" in row && row["id"] == item.fields["id"]
  {
    var link := Some((key, ownerId));
    var b := ChildExists(item, key, ownerId, ids);
    ChildSaveIsWrite(k, child, key, ownerId, ids, item, now, st);
    row, st1 := ChildRow(k, child, key, ownerId, item, now, st);
    RecordIsRow(k, child, item, link, b, row, st1, now, st);
  }

  /** A has_many child of a model without relations is saved by writing its
      record. */
  lemma ChildSaveIsWrite(k: Klein, child: ModelDef, key: string, ownerId: Scalar, ids: seq<Scalar>,
                         item: Value, now: int, st: St)
    requires child.relations == []
    requires SaveChild(k, child, key, ownerId, ids, item, now, st).Ok?
    ensures item.Obj?
    ensures var w := WriteRecord(k, child, item, Some((key, ownerId)), Known(ChildExists(item, key, ownerId, ids)), now, st);
      w.Ok? && SaveChild(k, child, key, ownerId, ids, item, now, st).value == (Obj(w.value.0), w.value.1)
  {
    SaveFlat(k, child, item, Some((key, ownerId)), Known(ChildExists(item, key, ownerId, ids)), now, st);
  }

  /** With nothing detached, the written record is the first row the write
      reports back. */
  lemma RecordIsRow(k: Klein, m: ModelDef, item: Value, link: Option<(string, Scalar)>, b: bool,
                    row: Row, st1: St, now: int, st: St)
    requires item.Obj?
    requires PrepareRow(k, m, Link(item.fields, link), now, st) == Ok((row, map[], st1))
    requires WriteRecord(k, m, item, link, Known(b), now, st).Ok?
    ensures var written := WriteRow(k, m, row, b, now, st1);
      && written.Ok?
      && WriteRecord(k, m, item, link, Known(b), now, st) == Ok((Reattach(written.value.1, map[]), written.value.0))
  {
  }

  /** The row a has_many child is written as: it points at the owner and
      keeps the child's plain id, and nothing is detached from it. */
  lemma ChildRow(k: Klein, child: ModelDef, key: string, ownerId: Scalar, item: Value, now: int, st: St) returns (row: Row, st1: St)
    requires item.Obj?
    requires child.relations == [] && StampsSpareId(child) && KeySpared(child, key) && IsColumnValue(ownerId)
    requires PrepareRow(k, child, Link(item.fields, Some((key, ownerId))), now, st).Ok?
    ensures PrepareRow(k, child, Link(item.fields, Some((key, ownerId))), now, st) == Ok((row, map[], st1))
    ensures st1.db == st.db
    ensures key in row && row[key] == ownerId
    ensures "id" in item.fields && PlainId(item.fields["id"]) ==> "id" in row && row["id"] == item.fields["id"]
  {
    var props := Link(item.fields, Some((key, ownerId)));
    var prepared := PrepareRow(k, child, props, now, st).value;
    assert forall n :: !IsRelationName(child, n);
    assert prepared.1 == map[];
    row, st1 := prepared.0, prepared.2;
    ToColumnIdempotent(ownerId);
  }

  /** The write of a has_many child's row: an update finds the row with its
      id, an insert appends it, and either way the record reported back
      points at the owner, as the table's row with its id does. */
  lemma WrittenChild(k: Klein, child: ModelDef, row: Row, update: bool, key: string, ownerId: Scalar, now: int, st: St)
    requires StampsSpareId(child) && KeySpared(child, key)
    requires key in row && row[key] == ownerId
    requires update ==> "id" in row && exists p :: 0 <= p < |Rows(st.db, child.table)| && Col(Rows(st.db, child.table)[p], "id") == row["id"]
    ensures var w := WriteRow(k, child, row, update, now, st);
      w.Ok? ==>
        && |w.value.1| > 0
        && Attached(Rows(w.value.0.db, child.table), Obj(Reattach(w.value.1, map[])), key, ownerId)
        && (update ==> Get(Reattach(w.value.1, map[]), "id") == row["id"])
        && KeepsLinks(Rows(st.db, child.table), Rows(w.value.0.db, child.table), key, ownerId)
  {
    var w := WriteRow(k, child, row, update, now, st);
    var before := Rows(st.db, child.table);
    if w.Ok? {
      var (st2, results) := w.value;
      var after := Rows(st2.db, child.table);
      if update {
        var x := row["id"];
        var p :| 0 <= p < |before| && Col(before[p], "id") == x;
        SelectByIdFinds(before, x, before[p]);
        UpdateKeepsLinks(before, x, row, key, ownerId);
        ReattachNothing(results);
        assert results[0] in results;
        assert Col(after[p], "id") == x && Col(after[p], key) == ownerId;
      } else {
        ReattachNothing(results);
        assert after == before + [results[0]];
        assert after[|before|] == results[0];
      }
    }
  }

  /** A has_many loop outcome that, if it succeeds, saved every item attached
      and with its id, and kept the links of `before`. */
  predicate AttachedBy(r: Result<(seq<Value>, St)>, table: string, before: seq<Row>, items: seq<Value>, key: string, ownerId: Scalar) {
    r.Ok? ==>
      && |r.value.0| == |items|
      && KeepsLinks(before, Rows(r.value.1.db, table), key, ownerId)
      && forall i :: 0 <= i < |items| ==>
           Attached(Rows(r.value.1.db, table), r.value.0[i], key, ownerId) && SameId(r.value.0[i], items[i])
  }

  /** The has_many child loop attaches every item it saves. */
  lemma {:induction false} ChildrenAttach(k: Klein, child: ModelDef, key: string, ownerId: Scalar, ids: seq<Scalar>,
                                          payload: Value, j: nat, acc: seq<Value>, now: int, st: St, before: seq<Row>)
    requires payload.Arr? && j <= |payload.items| && |acc| == j
    requires child.relations == [] && StampsSpareId(child) && KeySpared(child, key) && IsColumnValue(ownerId)
    requires ItemIdsListed(payload.items, ids) && forall x :: x in ids ==> x.Truthy()
    requires HasIds(Rows(st.db, child.table), ids)
    requires KeepsLinks(before, Rows(st.db, child.table), key, ownerId)
    requires forall i :: 0 <= i < j ==>
      Attached(Rows(st.db, child.table), acc[i], key, ownerId) && SameId(acc[i], payload.items[i])
    ensures AttachedBy(SaveChildren(k, child, key, ownerId, ids, payload, j, acc, now, st), child.table, before, payload.items, key, ownerId)
    decreases |payload.items| - j, 1
  {
    if j < |payload.items| {
      ChildrenAttachFrom(k, child, key, ownerId, ids, payload, j, acc, now, st, before);
    }
  }

  /** The inductive step of `ChildrenAttach`. */
  lemma {:induction false} ChildrenAttachFrom(k: Klein, child: ModelDef, key: string, ownerId: Scalar, ids: seq<Scalar>,
                                              payload: Value, j: nat, acc: seq<Value>, now: int, st: St, before: seq<Row>)
    requires payload.Arr? && j < |payload.items| && |acc| == j
    requires child.relations == [] && StampsSpareId(child) && KeySpared(child, key) && IsColumnValue(ownerId)
    requires ItemIdsListed(payload.items, ids) && forall x :: x in ids ==> x.Truthy()
    requires HasIds(Rows(st.db, child.table), ids)
    requires KeepsLinks(before, Rows(st.db, child.table), key, ownerId)
    requires forall i :: 0 <= i < j ==>
      Attached(Rows(st.db, child.table), acc[i], key, ownerId) && SameId(acc[i], payload.items[i])
    ensures AttachedBy(SaveChildren(k, child, key, ownerId, ids, payload, j, acc, now, st), child.table, before, payload.items, key, ownerId)
    decreases |payload.items| - j, 0
  {
    if SaveChildren(k, child, key, ownerId, ids, payload, j, acc, now, st).Ok? {
      var saved, st1 := AttachStep(k, child, key, ownerId, ids, payload, j, acc, now, st);
      var rows, rows1 := Rows(st.db, child.table), Rows(st1.db, child.table);
      KeepsLinksTrans(before, rows, rows1, key, ownerId);
      LinksKept(rows, rows1, key, ownerId, saved, ids);
      AttachedExtend(rows, rows1, key, ownerId, payload.items, acc, saved, ids);
      ChildrenAttach(k, child, key, ownerId, ids, payload, j + 1, acc + [saved], now, st1, before);
    }
  }

  /** The children attached so far stay attached once the table moves on,
      and the one just saved joins them. */
  lemma AttachedExtend(rows: seq<Row>, rows1: seq<Row>, key: string, ownerId: Scalar, items: seq<Value>,
                       acc: seq<Value>, saved: Value, ids: seq<Scalar>)
    requires |acc| < |items|
    requires KeepsLinks(rows, rows1, key, ownerId)
    requires forall i :: 0 <= i < |acc| ==> Attached(rows, acc[i], key, ownerId) && SameId(acc[i], items[i])
    requires Attached(rows1, saved, key, ownerId) && SameId(saved, items[|acc|])
    ensures forall i :: 0 <= i < |acc| + 1 ==>
      Attached(rows1, (acc + [saved])[i], key, ownerId) && SameId((acc + [saved])[i], items[i])
  {
    var acc' := acc + [saved];
    forall i | 0 <= i < |acc| + 1
      ensures Attached(rows1, acc'[i], key, ownerId) && SameId(acc'[i], items[i])
    {
      if i < |acc| {
        LinksKept(rows, rows1, key, ownerId, acc[i], ids);
      }
    }
  }

  /** One iteration of the has_many loop, as the state it hands on. */
  lemma AttachStep(k: Klein, child: ModelDef, key: string, ownerId: Scalar, ids: seq<Scalar>,
                   payload: Value, j: nat, acc: seq<Value>, now: int, st: St) returns (saved: Value, st1: St)
    requires payload.Arr? && j < |payload.items|
    requires child.relations == [] && StampsSpareId(child) && KeySpared(child, key) && IsColumnValue(ownerId)
    requires ItemIdsListed(payload.items, ids) && forall x :: x in ids ==> x.Truthy()
    requires HasIds(Rows(st.db, child.table), ids)
    requires SaveChildren(k, child, key, ownerId, ids, payload, j, acc, now, st).Ok?
    ensures SaveChildren(k, child, key, ownerId, ids, payload, j, acc, now, st)
         == SaveChildren(k, child, key, ownerId, ids, payload, j + 1, acc + [saved], now, st1)
    ensures Attached(Rows(st1.db, child.table), saved, key, ownerId) && SameId(saved, payload.items[j])
    ensures KeepsLinks(Rows(st.db, child.table), Rows(st1.db, child.table), key, ownerId)
  {
    ChildAttaches(k, child, key, ownerId, ids, payload.items[j], now, st);
    var step := SaveChild(k, child, key, ownerId, ids, payload.items[j], now, st).value;
    saved, st1 := step.0, step.1;
  }

  /** A has_many save gives every payload child the owner's id
      (model.js:471-475): each saved child carries it under the relation's
      key and keeps the id its item had, and the table holds a row with the
      child's id that points at the owner. A child whose id the payload
      carries is saved as an update, so a row with that id must exist: an
      update of an id no row has reports nothing back, and the saved child
      is then an empty record. */
  lemma HasManyAttaches(k: Klein, rel: Relation, payload: Value, owner: Fields, now: int, st: St)
    requires rel.HasManyRel? && FlatAt(k, rel.table) && KeySpared(ModelFor(k, rel.table), rel.key)
    requires payload.Arr? && PlainIds(payload.items)
    requires "id" in owner && IsColumnValue(owner["id"])
    requires forall i :: 0 <= i < |payload.items| && Prop(payload.items[i], "id").Some? && Prop(payload.items[i], "id").value.Truthy() ==>
      exists p :: 0 <= p < |Rows(st.db, rel.table)| && Col(Rows(st.db, rel.table)[p], "id") == Prop(payload.items[i], "id").value
    ensures var r := SaveHasMany(k, rel, payload, owner, now, st);
      r.Ok? ==>
        && |r.value.0.items| == |payload.items|
        && forall i :: 0 <= i < |payload.items| ==>
             && Attached(Rows(r.value.1.db, rel.table), r.value.0.items[i], rel.key, owner["id"])
             && SameId(r.value.0.items[i], payload.items[i])
  {
    var r := SaveHasMany(k, rel, payload, owner, now, st);
    if r.Ok? {
      var ids := TruthyIds(payload.items).value;
      var ownerId := OwnerKey(owner).value;
      var child := ModelFor(k, rel.table);
      var before := Rows(st.db, rel.table);
      var st1 := UpdateWhere(st, rel.table, DetachConds(rel, ownerId, ids), map[rel.key := Null]).value.0;
      DetachShape(before, rel, ownerId, ids);
      var mid := Rows(st1.db, rel.table);
      forall x | x in ids ensures exists p :: 0 <= p < |mid| && Col(mid[p], "id") == x {
        var i :| 0 <= i < |payload.items| && Prop(payload.items[i], "id") == Some(x);
        var p :| 0 <= p < |before| && Col(before[p], "id") == x;
        assert Col(mid[p], "id") == x;
      }
      ChildrenAttach(k, child, rel.key, ownerId, ids, payload, 0, [], now, st1, mid);
    }
  }

  /** Every id in `existing` is the id of some row of `rows`. */
  predicate Present(existing: seq<Scalar>, rows: seq<Row>) {
    forall e :: e in existing ==> exists p :: 0 <= p < |rows| && Col(rows[p], "id") == e
  }

  /** `Present`, one id at a time: the form the HABTM loop's induction
      carries, so that each step hands it on as an opaque fact. */
  predicate PresentEach(existing: seq<Scalar>, rows: seq<Row>)
    decreases |existing|
  {
    |existing| == 0
    || (&& (exists p :: 0 <= p < |rows| && Col(rows[p], "id") == existing[0])
        && PresentEach(existing[1..], rows))
  }

  /** The two forms of `Present` agree. */
  lemma {:induction false} PresentEachIff(existing: seq<Scalar>, rows: seq<Row>)
    ensures PresentEach(existing, rows) <==> Present(existing, rows)
    decreases |existing|
  {
    if |existing| > 0 {
      var e0, tail := existing[0], existing[1..];
      PresentEachIff(tail, rows);
      assert existing == [e0] + tail;
      if Present(existing, rows) {
        assert e0 in existing;
        forall e | e in tail ensures exists p :: 0 <= p < |rows| && Col(rows[p], "id") == e {
          assert e in existing;
        }
      }
      if PresentEach(existing, rows) {
        forall e | e in existing ensures exists p :: 0 <= p < |rows| && Col(rows[p], "id") == e {
          if e != e0 { assert e in tail; }
        }
      }
    }
  }

  /** The ids a select of `id` returns are ids of rows of the table. */
  lemma SelectedPresent(rows: seq<Row>, cs: seq<Cond>)
    ensures Present(Column(Select(rows, cs), "id"), rows)
  {
    var sel := Select(rows, cs);
    var existing := Column(sel, "id");
    forall e | e in existing
      ensures exists p :: 0 <= p < |rows| && Col(rows[p], "id") == e
    {
      var i :| 0 <= i < |existing| && existing[i] == e;
      assert sel[i] in sel;
      var p :| 0 <= p < |rows| && rows[p] == sel[i];
    }
  }

  /** Saving one HABTM target whose id is a plain value: the saved record
      keeps that id, the rows already present keep theirs, and no other
      table is written. */
  lemma TargetStep(k: Klein, target: ModelDef, item: Value, existing: seq<Scalar>, now: int, st: St)
    requires target.relations == [] && StampsSpareId(target)
    requires item.Obj? && "id" in item.fields && PlainId(item.fields["id"])
    requires Present(existing, Rows(st.db, target.table))
    ensures var w := WriteRecord(k, target, item, None, Known(IncludesProp(existing, Prop(item, "id"))), now, st);
      w.Ok? ==>
        && "id" in w.value.0 && w.value.0["id"] == item.fields["id"]
        && Present(existing, Rows(w.value.1.db, target.table))
        && (forall t :: t != target.table ==> Rows(w.value.1.db, t) == Rows(st.db, t))
  {
    var b := IncludesProp(existing, Prop(item, "id"));
    var before := Rows(st.db, target.table);
    WriteRecordFrame(k, target, item, None, Known(b), now, st);
    WriteRecordById(k, target, item, None, Known(b), now, st);
    if b {
      var e := item.fields["id"];
      var i :| 0 <= i < |existing| && existing[i] == e;
      assert existing[i] in existing;
    }
  }

  /** A save outcome that, if it succeeds, left its join table as `before`. */
  predicate KeptRows(before: seq<Row>, r: Result<(seq<Value>, St)>, table: string) {
    r.Ok? ==> Rows(r.value.1.db, table) == before
  }

  /** A payload item carrying a plain id the owner is already joined to. */
  predicate LinkedItem(item: Value, linked: seq<Scalar>) {
    item.Obj? && "id" in item.fields && PlainId(item.fields["id"]) && Includes(linked, item.fields["id"])
  }

  /** Current engine: when every payload item was already joined to the
      owner, the per-item loop inserts no join row. */
  lemma {:induction false} TargetsKeepJoins(k: Klein, m: ModelDef, rel: Relation, target: ModelDef, ownerId: Scalar,
                                            linked: seq<Scalar>, existing: seq<Scalar>,
                                            payload: Value, j: nat, acc: seq<Value>, now: int, st: St)
    requires k.engine == Current && rel.HabtmRel? && payload.Arr? && j <= |payload.items|
    requires target.relations == [] && StampsSpareId(target) && target.table != rel.throughTable
    requires forall i :: 0 <= i < |payload.items| ==> LinkedItem(payload.items[i], linked)
    requires PresentEach(existing, Rows(st.db, target.table))
    ensures KeptRows(Rows(st.db, rel.throughTable),
                     SaveTargets(k, m, rel, target, ownerId, linked, existing, payload, j, acc, now, st),
                     rel.throughTable)
    decreases |payload.items| - j, 1
  {
    if j < |payload.items| {
      TargetsKeepJoinsFrom(k, m, rel, target, ownerId, linked, existing, payload, j, acc, now, st);
    }
  }

  /** The inductive step of `TargetsKeepJoins`. */
  lemma {:induction false} TargetsKeepJoinsFrom(k: Klein, m: ModelDef, rel: Relation, target: ModelDef, ownerId: Scalar,
                                                linked: seq<Scalar>, existing: seq<Scalar>,
                                                payload: Value, j: nat, acc: seq<Value>, now: int, st: St)
    requires k.engine == Current && rel.HabtmRel? && payload.Arr? && j < |payload.items|
    requires target.relations == [] && StampsSpareId(target) && target.table != rel.throughTable
    requires forall i :: 0 <= i < |payload.items| ==> LinkedItem(payload.items[i], linked)
    requires PresentEach(existing, Rows(st.db, target.table))
    ensures KeptRows(Rows(st.db, rel.throughTable),
                     SaveTargets(k, m, rel, target, ownerId, linked, existing, payload, j, acc, now, st),
                     rel.throughTable)
    decreases |payload.items| - j, 0
  {
    if SaveTargets(k, m, rel, target, ownerId, linked, existing, payload, j, acc, now, st).Ok? {
      var saved, st1 := KeepStep(k, m, rel, target, ownerId, linked, existing, payload, j, acc, now, st);
      TargetsKeepJoins(k, m, rel, target, ownerId, linked, existing, payload, j + 1, acc + [saved], now, st1);
    }
  }

  /** Current engine: one iteration of the HABTM item loop over an already
      joined target, as the state it hands to the next iteration. */
  lemma KeepStep(k: Klein, m: ModelDef, rel: Relation, target: ModelDef, ownerId: Scalar,
                 linked: seq<Scalar>, existing: seq<Scalar>,
                 payload: Value, j: nat, acc: seq<Value>, now: int, st: St) returns (saved: Value, st1: St)
    requires k.engine == Current && rel.HabtmRel? && payload.Arr? && j < |payload.items|
    requires target.relations == [] && StampsSpareId(target) && target.table != rel.throughTable
    requires LinkedItem(payload.items[j], linked)
    requires PresentEach(existing, Rows(st.db, target.table))
    requires SaveTargets(k, m, rel, target, ownerId, linked, existing, payload, j, acc, now, st).Ok?
    ensures SaveTargets(k, m, rel, target, ownerId, linked, existing, payload, j, acc, now, st)
         == SaveTargets(k, m, rel, target, ownerId, linked, existing, payload, j + 1, acc + [saved], now, st1)
    ensures Rows(st1.db, rel.throughTable) == Rows(st.db, rel.throughTable)
    ensures PresentEach(existing, Rows(st1.db, target.table))
  {
    PresentEachIff(existing, Rows(st.db, target.table));
    LinkTargetKeepsJoins(k, m, rel, target, ownerId, linked, existing, payload.items[j], now, st);
    var step := LinkTarget(k, m, rel, target, ownerId, linked, existing, payload.items[j], now, st).value;
    saved, st1 := step.0, step.1;
    PresentEachIff(existing, Rows(st1.db, target.table));
  }

  /** Current engine: linking a target the owner is already joined to
      leaves the join table alone and keeps the target table's ids present. */
  lemma LinkTargetKeepsJoins(k: Klein, m: ModelDef, rel: Relation, target: ModelDef, ownerId: Scalar,
                             linked: seq<Scalar>, existing: seq<Scalar>, item: Value, now: int, st: St)
    requires k.engine == Current && rel.HabtmRel?
    requires target.relations == [] && StampsSpareId(target) && target.table != rel.throughTable
    requires LinkedItem(item, linked)
    requires Present(existing, Rows(st.db, target.table))
    ensures var r := LinkTarget(k, m, rel, target, ownerId, linked, existing, item, now, st);
      r.Ok? ==>
        && Rows(r.value.1.db, rel.throughTable) == Rows(st.db, rel.throughTable)
        && Present(existing, Rows(r.value.1.db, target.table))
  {
    var r := LinkTarget(k, m, rel, target, ownerId, linked, existing, item, now, st);
    if r.Ok? {
      var given := Known(IncludesProp(existing, Prop(item, "id")));
      SaveFlat(k, target, item, None, given, now, st);
      TargetStep(k, target, item, existing, now, st);
      var s := Save(k, target, item, None, given, now, st).value;
      assert IdField(s.record) == Ok(Some(item.fields["id"]));
    }
  }

  /** Current engine: re-saving an owner with targets it is already joined to
      only deletes the join rows of targets left out of the payload
      (model.js:519); no join row is inserted. */
  lemma HabtmRelinkInsertsNothing(k: Klein, m: ModelDef, rel: Relation, payload: Value, owner: Fields, now: int, st: St)
    requires k.engine == Current && rel.HabtmRel? && FlatAt(k, rel.table) && rel.table != rel.throughTable
    requires payload.Arr? && forall i :: 0 <= i < |payload.items| ==>
      payload.items[i].Obj? && "id" in payload.items[i].fields && PlainId(payload.items[i].fields["id"])
    requires "id" in owner && owner["id"].IsScalar()
    requires forall i :: 0 <= i < |payload.items| ==> Includes(Linked(rel, owner["id"], st), payload.items[i].fields["id"])
    ensures var r := SaveHabtm(k, m, rel, payload, owner, now, st);
      r.Ok? ==>
        && TruthyIds(payload.items).Ok?
        && Rows(r.value.1.db, rel.throughTable)
           == DeleteRows(Rows(st.db, rel.throughTable), UnlinkConds(rel, owner["id"], TruthyIds(payload.items).value))
  {
    var r := SaveHabtm(k, m, rel, payload, owner, now, st);
    if r.Ok? {
      var ids := TruthyIds(payload.items).value;
      var ownerId: Scalar := owner["id"];
      var linked := Linked(rel, ownerId, st);
      var st1 := DeleteWhere(st, rel.throughTable, UnlinkConds(rel, ownerId, ids));
      SelectedPresent(Rows(st1.db, rel.table), [In("id", ids)]);
      var existing := Column(SelectWhere(st1, rel.table, [In("id", ids)]), "id");
      PresentEachIff(existing, Rows(st1.db, rel.table));
      TargetsKeepJoins(k, m, rel, ModelFor(k, rel.table), ownerId, linked, existing, payload, 0, [], now, st1);
    }
  }

  /** The owner's join rows all point at targets the payload carries. */
  predicate AllCarried(rows: seq<Row>, rel: Relation, ownerId: Scalar, items: seq<Value>)
    requires rel.HabtmRel?
  {
    forall x :: x in rows && Col(x, rel.sourceKey) == ownerId ==>
      Col(x, rel.key).Truthy() && exists i :: 0 <= i < |items| && Prop(items[i], "id") == Some(Col(x, rel.key))
  }

  /** When the payload still carries every target the owner is joined to,
      the unlinking delete removes nothing. */
  lemma NothingUnlinked(rows: seq<Row>, rel: Relation, ownerId: Scalar, items: seq<Value>)
    requires rel.HabtmRel? && TruthyIds(items).Ok? && AllCarried(rows, rel, ownerId, items)
    ensures DeleteRows(rows, UnlinkConds(rel, ownerId, TruthyIds(items).value)) == rows
  {
    var ids := TruthyIds(items).value;
    var cs := UnlinkConds(rel, ownerId, ids);
    forall p | 0 <= p < |rows|
      ensures !MatchesAll(rows[p], cs)
    {
      if Col(rows[p], rel.sourceKey) == ownerId {
        assert rows[p] in rows;
        var i :| 0 <= i < |items| && Prop(items[i], "id") == Some(Col(rows[p], rel.key));
        assert Includes(ids, Col(rows[p], rel.key));
        var q :| 0 <= q < |ids| && ids[q] == Col(rows[p], rel.key);
        assert !Holds(rows[p], cs[1]);
      } else {
        assert !Holds(rows[p], cs[0]);
      }
    }
    DeleteNothing(rows, cs);
  }

  /** Current engine: re-saving an owner with exactly the targets it is
      joined to leaves the join table as it was. */
  lemma HabtmResaveKeepsJoins(k: Klein, m: ModelDef, rel: Relation, payload: Value, owner: Fields, now: int, st: St)
    requires k.engine == Current && rel.HabtmRel? && FlatAt(k, rel.table) && rel.table != rel.throughTable
    requires payload.Arr? && forall i :: 0 <= i < |payload.items| ==>
      payload.items[i].Obj? && "id" in payload.items[i].fields && PlainId(payload.items[i].fields["id"])
    requires "id" in owner && owner["id"].IsScalar()
    requires forall i :: 0 <= i < |payload.items| ==> Includes(Linked(rel, owner["id"], st), payload.items[i].fields["id"])
    requires AllCarried(Rows(st.db, rel.throughTable), rel, owner["id"], payload.items)
    ensures var r := SaveHabtm(k, m, rel, payload, owner, now, st);
      r.Ok? ==> Rows(r.value.1.db, rel.throughTable) == Rows(st.db, rel.throughTable)
  {
    var r := SaveHabtm(k, m, rel, payload, owner, now, st);
    if r.Ok? {
      HabtmRelinkInsertsNothing(k, m, rel, payload, owner, now, st);
      NothingUnlinked(Rows(st.db, rel.throughTable), rel, owner["id"], payload.items);
    }
  }

  /** A save outcome that, if it succeeds, left `before` as the first rows
      of its join table and added `n` rows after them. */
  predicate AppendedRows(before: seq<Row>, r: Result<(seq<Value>, St)>, table: string, n: nat) {
    r.Ok? ==> |Rows(r.value.1.db, table)| == |before| + n && Rows(r.value.1.db, table)[..|before|] == before
  }

  /** Appending one row and then `n` more appends `n + 1`. */
  lemma AppendedRowsStep(before: seq<Row>, mid: seq<Row>, r: Result<(seq<Value>, St)>, table: string, n: nat)
    requires |mid| == |before| + 1 && mid[..|before|] == before
    requires AppendedRows(mid, r, table, n)
    ensures AppendedRows(before, r, table, n + 1)
  {
    if r.Ok? {
      var after := Rows(r.value.1.db, table);
      assert after[..|before|] == after[..|mid|][..|before|];
    }
  }

  /** Older engine: every saved target gets a new join row, linked before or
      not. */
  lemma {:induction false} TargetsAppendJoins(k: Klein, m: ModelDef, rel: Relation, target: ModelDef, ownerId: Scalar,
                                              linked: seq<Scalar>, existing: seq<Scalar>,
                                              payload: Value, j: nat, acc: seq<Value>, now: int, st: St)
    requires k.engine == Legacy && rel.HabtmRel? && payload.Arr? && j <= |payload.items|
    requires target.relations == [] && target.table != rel.throughTable
    ensures AppendedRows(Rows(st.db, rel.throughTable),
                         SaveTargets(k, m, rel, target, ownerId, linked, existing, payload, j, acc, now, st),
                         rel.throughTable, |payload.items| - j)
    decreases |payload.items| - j, 1
  {
    if j < |payload.items| {
      TargetsAppendJoinsFrom(k, m, rel, target, ownerId, linked, existing, payload, j, acc, now, st);
    }
  }

  /** The inductive step of `TargetsAppendJoins`. */
  lemma {:induction false} TargetsAppendJoinsFrom(k: Klein, m: ModelDef, rel: Relation, target: ModelDef, ownerId: Scalar,
                                                  linked: seq<Scalar>, existing: seq<Scalar>,
                                                  payload: Value, j: nat, acc: seq<Value>, now: int, st: St)
    requires k.engine == Legacy && rel.HabtmRel? && payload.Arr? && j < |payload.items|
    requires target.relations == [] && target.table != rel.throughTable
    ensures AppendedRows(Rows(st.db, rel.throughTable),
                         SaveTargets(k, m, rel, target, ownerId, linked, existing, payload, j, acc, now, st),
                         rel.throughTable, |payload.items| - j)
    decreases |payload.items| - j, 0
  {
    if SaveTargets(k, m, rel, target, ownerId, linked, existing, payload, j, acc, now, st).Ok? {
      LinkTargetAppendsJoin(k, m, rel, target, ownerId, linked, existing, payload.items[j], now, st);
      var (saved, st1) := LinkTarget(k, m, rel, target, ownerId, linked, existing, payload.items[j], now, st).value;
      TargetsAppendJoins(k, m, rel, target, ownerId, linked, existing, payload, j + 1, acc + [saved], now, st1);
      AppendedRowsStep(Rows(st.db, rel.throughTable), Rows(st1.db, rel.throughTable),
                       SaveTargets(k, m, rel, target, ownerId, linked, existing, payload, j + 1, acc + [saved], now, st1),
                       rel.throughTable, |payload.items| - (j + 1));
    }
  }

  /** Older engine: linking one target appends exactly one join row. */
  lemma LinkTargetAppendsJoin(k: Klein, m: ModelDef, rel: Relation, target: ModelDef, ownerId: Scalar,
                              linked: seq<Scalar>, existing: seq<Scalar>, item: Value, now: int, st: St)
    requires k.engine == Legacy && rel.HabtmRel?
    requires target.relations == [] && target.table != rel.throughTable
    ensures var r := LinkTarget(k, m, rel, target, ownerId, linked, existing, item, now, st);
      var before := Rows(st.db, rel.throughTable);
      r.Ok? ==>
        && |Rows(r.value.1.db, rel.throughTable)| == |before| + 1
        && Rows(r.value.1.db, rel.throughTable)[..|before|] == before
  {
    TargetAppendStep(k, rel, target, item, Known(IncludesProp(existing, Prop(item, "id"))), now, st);
  }

  /** Older engine: saving one target writes nothing to the join table. */
  lemma TargetAppendStep(k: Klein, rel: Relation, target: ModelDef, item: Value, given: Exists, now: int, st: St)
    requires k.engine == Legacy && rel.HabtmRel?
    requires target.relations == [] && target.table != rel.throughTable
    ensures var s := Save(k, target, item, None, given, now, st);
      s.Ok? ==> Rows(s.value.st.db, rel.throughTable) == Rows(st.db, rel.throughTable)
  {
    if item.Obj? {
      SaveFlat(k, target, item, None, given, now, st);
      WriteRecordFrame(k, target, item, None, given, now, st);
    }
  }

  /** Older engine: a save adds one join row per payload item on top of the
      unlinking delete, so re-saving an owner with the targets it is already
      joined to duplicates every join row. */
  lemma LegacyHabtmAppendsJoins(k: Klein, m: ModelDef, rel: Relation, payload: Value, owner: Fields, now: int, st: St)
    requires k.engine == Legacy && rel.HabtmRel? && FlatAt(k, rel.table) && rel.table != rel.throughTable
    ensures var r := SaveHabtm(k, m, rel, payload, owner, now, st);
      var before := Rows(st.db, rel.throughTable);
      r.Ok? ==>
        && payload.Arr? && TruthyIds(payload.items).Ok? && "id" in owner && owner["id"].IsScalar()
        && var kept := DeleteRows(before, UnlinkConds(rel, owner["id"], TruthyIds(payload.items).value));
           && |Rows(r.value.1.db, rel.throughTable)| == |kept| + |payload.items|
           && Rows(r.value.1.db, rel.throughTable)[..|kept|] == kept
           && (AllCarried(before, rel, owner["id"], payload.items) ==>
                 |Rows(r.value.1.db, rel.throughTable)| == |before| + |payload.items|)
  {
    var r := SaveHabtm(k, m, rel, payload, owner, now, st);
    if r.Ok? {
      var ids := TruthyIds(payload.items).value;
      var ownerId: Scalar := owner["id"];
      var linked := Linked(rel, ownerId, st);
      var st1 := DeleteWhere(st, rel.throughTable, UnlinkConds(rel, ownerId, ids));
      var existing := Column(SelectWhere(st1, rel.table, [In("id", ids)]), "id");
      TargetsAppendJoins(k, m, rel, ModelFor(k, rel.table), ownerId, linked, existing, payload, 0, [], now, st1);
      if AllCarried(Rows(st.db, rel.throughTable), rel, ownerId, payload.items) {
        NothingUnlinked(Rows(st.db, rel.throughTable), rel, ownerId, payload.items);
      }
    }
  }

  /** Some row of `rows` joins the owner to the target with id `x`. */
  predicate Joined(rows: seq<Row>, rel: Relation, ownerId: Scalar, x: Value)
    requires rel.HabtmRel?
  {
    exists p :: 0 <= p < |rows| && Col(rows[p], rel.sourceKey) == ownerId && Col(rows[p], rel.key) == x
  }

  /** Every payload item is a record carrying a plain id. */
  predicate IdItems(items: seq<Value>) {
    forall i :: 0 <= i < |items| ==> items[i].Obj? && "id" in items[i].fields && PlainId(items[i].fields["id"])
  }

  /** The items before `j`, and those the engine counts as already joined,
      are joined to the owner in `rows`. */
  predicate JoinedUpTo(rows: seq<Row>, rel: Relation, ownerId: Scalar, items: seq<Value>,
                       linked: seq<Scalar>, engine: Engine, j: nat)
    requires rel.HabtmRel? && IdItems(items)
  {
    forall i :: 0 <= i < |items| && (i < j || (engine == Current && Includes(linked, items[i].fields["id"]))) ==>
      Joined(rows, rel, ownerId, items[i].fields["id"])
  }

  /** A save outcome that, if it succeeds, joins the owner to every item. */
  predicate JoinedAll(r: Result<(seq<Value>, St)>, rel: Relation, ownerId: Scalar, items: seq<Value>)
    requires rel.HabtmRel? && IdItems(items)
  {
    r.Ok? ==> forall i :: 0 <= i < |items| ==> Joined(Rows(r.value.1.db, rel.throughTable), rel, ownerId, items[i].fields["id"])
  }

  /** Linking one target with a plain id, on either engine: the join table
      is left alone when the target counts as already joined, and otherwise
      grows by exactly the join row for that id, under the uuid drawn for
      it. The target table keeps the ids it had. */
  lemma {:induction false} LinkTargetJoins(k: Klein, m: ModelDef, rel: Relation, target: ModelDef, ownerId: Scalar,
                                           linked: seq<Scalar>, existing: seq<Scalar>, item: Value, now: int, st: St)
    requires rel.HabtmRel?
    requires target.relations == [] && StampsSpareId(target) && target.table != rel.throughTable
    requires item.Obj? && "id" in item.fields && PlainId(item.fields["id"])
    requires Present(existing, Rows(st.db, target.table))
    ensures var r := LinkTarget(k, m, rel, target, ownerId, linked, existing, item, now, st);
      r.Ok? ==> LinkedAfter(k, m, rel, target.table, linked, existing, item.fields["id"], ownerId, now, st, r.value.1)
  {
    var r := LinkTarget(k, m, rel, target, ownerId, linked, existing, item, now, st);
    if r.Ok? {
      var s := TargetSaved(k, m, rel, target, ownerId, linked, existing, item, now, st);
      LinkedRows(k, m, rel, target.table, linked, existing, item.fields["id"], ownerId, now, st, s.st, r.value.1);
    }
  }

  /** The state `LinkTarget` leaves for a target with id `x`: the target
      table keeps the ids it had; the join table is as it was when the
      target counts as already joined, and otherwise has exactly the join
      row for `x` appended, under the last uuid drawn. */
  predicate LinkedAfter(k: Klein, m: ModelDef, rel: Relation, table: string, linked: seq<Scalar>, existing: seq<Scalar>,
                        x: Scalar, ownerId: Scalar, now: int, st: St, st1: St)
    requires rel.HabtmRel?
  {
    var before := Rows(st.db, rel.throughTable);
    && Present(existing, Rows(st1.db, table))
    && (AlreadyLinked(k.engine, linked, Some(x)) ==> Rows(st1.db, rel.throughTable) == before)
    && (!AlreadyLinked(k.engine, linked, Some(x)) ==>
          && st1.next > 0
          && Rows(st1.db, rel.throughTable) == before + [JoinRow(k, m, rel, Some(x), ownerId, Uuid(st1.next - 1), now)])
  }

  /** The save inside `LinkTarget`: it leaves the join table alone, keeps
      the target table's ids, and its id decides whether a join row is
      inserted. */
  lemma TargetSaved(k: Klein, m: ModelDef, rel: Relation, target: ModelDef, ownerId: Scalar,
                    linked: seq<Scalar>, existing: seq<Scalar>, item: Value, now: int, st: St) returns (s: Saved)
    requires rel.HabtmRel?
    requires target.relations == [] && StampsSpareId(target) && target.table != rel.throughTable
    requires item.Obj? && "id" in item.fields && PlainId(item.fields["id"])
    requires Present(existing, Rows(st.db, target.table))
    requires LinkTarget(k, m, rel, target, ownerId, linked, existing, item, now, st).Ok?
    ensures var x: Scalar := item.fields["id"];
      LinkTarget(k, m, rel, target, ownerId, linked, existing, item, now, st).value.1
      == if AlreadyLinked(k.engine, linked, Some(x)) then s.st else InsertJoinRow(k, m, rel, Some(x), ownerId, now, s.st)
    ensures Rows(s.st.db, rel.throughTable) == Rows(st.db, rel.throughTable)
    ensures Present(existing, Rows(s.st.db, target.table))
  {
    var given := Known(IncludesProp(existing, Prop(item, "id")));
    SaveFlat(k, target, item, None, given, now, st);
    TargetStep(k, target, item, existing, now, st);
    s := Save(k, target, item, None, given, now, st).value;
    assert IdField(s.record) == Ok(Some(item.fields["id"]));
  }

  /** The join table after the insert `LinkTarget` makes or skips, with
      the target table untouched by it. */
  lemma LinkedRows(k: Klein, m: ModelDef, rel: Relation, table: string, linked: seq<Scalar>, existing: seq<Scalar>,
                   x: Scalar, ownerId: Scalar, now: int, st: St, mid: St, st1: St)
    requires rel.HabtmRel? && table != rel.throughTable
    requires Rows(mid.db, rel.throughTable) == Rows(st.db, rel.throughTable)
    requires Present(existing, Rows(mid.db, table))
    requires st1 == if AlreadyLinked(k.engine, linked, Some(x)) then mid else InsertJoinRow(k, m, rel, Some(x), ownerId, now, mid)
    ensures LinkedAfter(k, m, rel, table, linked, existing, x, ownerId, now, st, st1)
  {
    if !AlreadyLinked(k.engine, linked, Some(x)) {
      JoinRowAppended(k, m, rel, Some(x), ownerId, now, mid);
    }
  }

  /** Inserting a join row appends exactly that row, under the uuid drawn
      for it. */
  lemma JoinRowAppended(k: Klein, m: ModelDef, rel: Relation, targetId: Option<Scalar>, ownerId: Scalar, now: int, st: St)
    requires rel.HabtmRel?
    ensures var r := InsertJoinRow(k, m, rel, targetId, ownerId, now, st);
      && r.next > 0
      && Rows(r.db, rel.throughTable)
         == Rows(st.db, rel.throughTable) + [JoinRow(k, m, rel, targetId, ownerId, Uuid(r.next - 1), now)]
  {
  }

  /** The row a newly linked item gets joins it to the owner, and earlier
      joins survive an append. */
  lemma JoinedStep(before: seq<Row>, after: seq<Row>, rel: Relation, ownerId: Scalar, items: seq<Value>,
                   linked: seq<Scalar>, engine: Engine, j: nat, row: Row)
    requires rel.HabtmRel? && IdItems(items) && j < |items|
    requires JoinedUpTo(before, rel, ownerId, items, linked, engine, j)
    requires || (after == before && engine == Current && Includes(linked, items[j].fields["id"]))
             || (after == before + [row] && Col(row, rel.sourceKey) == ownerId && Col(row, rel.key) == items[j].fields["id"])
    ensures JoinedUpTo(after, rel, ownerId, items, linked, engine, j + 1)
  {
    forall i | 0 <= i < |items| && (i < j + 1 || (engine == Current && Includes(linked, items[i].fields["id"])))
      ensures Joined(after, rel, ownerId, items[i].fields["id"])
    {
      if i == j && after != before {
        assert after[|before|] == row;
      } else {
        var p :| 0 <= p < |before| && Col(before[p], rel.sourceKey) == ownerId && Col(before[p], rel.key) == items[i].fields["id"];
        assert after[p] == before[p];
      }
    }
  }

  /** On either engine, the per-item loop joins the owner to every item it
      saves, given that the items it counts as already joined are. */
  lemma {:induction false} TargetsJoin(k: Klein, m: ModelDef, rel: Relation, target: ModelDef, ownerId: Scalar,
                                       linked: seq<Scalar>, existing: seq<Scalar>,
                                       payload: Value, j: nat, acc: seq<Value>, now: int, st: St)
    requires rel.HabtmRel? && payload.Arr? && j <= |payload.items| && IdItems(payload.items)
    requires target.relations == [] && StampsSpareId(target) && target.table != rel.throughTable
    requires rel.key != rel.sourceKey && rel.key !in JoinStamps(k, m) && rel.sourceKey !in JoinStamps(k, m)
    requires PresentEach(existing, Rows(st.db, target.table))
    requires JoinedUpTo(Rows(st.db, rel.throughTable), rel, ownerId, payload.items, linked, k.engine, j)
    ensures JoinedAll(SaveTargets(k, m, rel, target, ownerId, linked, existing, payload, j, acc, now, st),
                      rel, ownerId, payload.items)
    decreases |payload.items| - j, 1
  {
    if j < |payload.items| {
      TargetsJoinFrom(k, m, rel, target, ownerId, linked, existing, payload, j, acc, now, st);
    }
  }

  /** The inductive step of `TargetsJoin`. */
  lemma {:induction false} TargetsJoinFrom(k: Klein, m: ModelDef, rel: Relation, target: ModelDef, ownerId: Scalar,
                                           linked: seq<Scalar>, existing: seq<Scalar>,
                                           payload: Value, j: nat, acc: seq<Value>, now: int, st: St)
    requires rel.HabtmRel? && payload.Arr? && j < |payload.items| && IdItems(payload.items)
    requires target.relations == [] && StampsSpareId(target) && target.table != rel.throughTable
    requires rel.key != rel.sourceKey && rel.key !in JoinStamps(k, m) && rel.sourceKey !in JoinStamps(k, m)
    requires PresentEach(existing, Rows(st.db, target.table))
    requires JoinedUpTo(Rows(st.db, rel.throughTable), rel, ownerId, payload.items, linked, k.engine, j)
    ensures JoinedAll(SaveTargets(k, m, rel, target, ownerId, linked, existing, payload, j, acc, now, st),
                      rel, ownerId, payload.items)
    decreases |payload.items| - j, 0
  {
    if SaveTargets(k, m, rel, target, ownerId, linked, existing, payload, j, acc, now, st).Ok? {
      var saved, st1 := JoinStep(k, m, rel, target, ownerId, linked, existing, payload, j, acc, now, st);
      TargetsJoin(k, m, rel, target, ownerId, linked, existing, payload, j + 1, acc + [saved], now, st1);
    }
  }

  /** One iteration of the HABTM item loop, as the state it hands on. */
  lemma JoinStep(k: Klein, m: ModelDef, rel: Relation, target: ModelDef, ownerId: Scalar,
                 linked: seq<Scalar>, existing: seq<Scalar>,
                 payload: Value, j: nat, acc: seq<Value>, now: int, st: St) returns (saved: Value, st1: St)
    requires rel.HabtmRel? && payload.Arr? && j < |payload.items| && IdItems(payload.items)
    requires target.relations == [] && StampsSpareId(target) && target.table != rel.throughTable
    requires rel.key != rel.sourceKey && rel.key !in JoinStamps(k, m) && rel.sourceKey !in JoinStamps(k, m)
    requires PresentEach(existing, Rows(st.db, target.table))
    requires JoinedUpTo(Rows(st.db, rel.throughTable), rel, ownerId, payload.items, linked, k.engine, j)
    requires SaveTargets(k, m, rel, target, ownerId, linked, existing, payload, j, acc, now, st).Ok?
    ensures SaveTargets(k, m, rel, target, ownerId, linked, existing, payload, j, acc, now, st)
         == SaveTargets(k, m, rel, target, ownerId, linked, existing, payload, j + 1, acc + [saved], now, st1)
    ensures JoinedUpTo(Rows(st1.db, rel.throughTable), rel, ownerId, payload.items, linked, k.engine, j + 1)
    ensures PresentEach(existing, Rows(st1.db, target.table))
  {
    var item := payload.items[j];
    PresentEachIff(existing, Rows(st.db, target.table));
    LinkTargetJoins(k, m, rel, target, ownerId, linked, existing, item, now, st);
    var step := LinkTarget(k, m, rel, target, ownerId, linked, existing, item, now, st).value;
    saved, st1 := step.0, step.1;
    JoinedAfter(k, m, rel, target.table, ownerId, linked, existing, payload.items, j, now, st, st1);
  }

  /** The state one item's link leaves satisfies the loop's invariants for
      the next item. */
  lemma JoinedAfter(k: Klein, m: ModelDef, rel: Relation, table: string, ownerId: Scalar,
                    linked: seq<Scalar>, existing: seq<Scalar>, items: seq<Value>, j: nat, now: int, st: St, st1: St)
    requires rel.HabtmRel? && j < |items| && IdItems(items)
    requires rel.key != rel.sourceKey && rel.key !in JoinStamps(k, m) && rel.sourceKey !in JoinStamps(k, m)
    requires JoinedUpTo(Rows(st.db, rel.throughTable), rel, ownerId, items, linked, k.engine, j)
    requires LinkedAfter(k, m, rel, table, linked, existing, items[j].fields["id"], ownerId, now, st, st1)
    ensures JoinedUpTo(Rows(st1.db, rel.throughTable), rel, ownerId, items, linked, k.engine, j + 1)
    ensures PresentEach(existing, Rows(st1.db, table))
  {
    var x: Scalar := items[j].fields["id"];
    PresentEachIff(existing, Rows(st1.db, table));
    var row := if st1.next > 0 then JoinRow(k, m, rel, Some(x), ownerId, Uuid(st1.next - 1), now) else map[];
    JoinedStep(Rows(st.db, rel.throughTable), Rows(st1.db, rel.throughTable), rel, ownerId, items,
               linked, k.engine, j, row);
  }

  /** A target the owner was joined to before the save, and that the
      payload still carries, survives the unlinking delete. */
  lemma LinkedSurvive(rows: seq<Row>, rel: Relation, ownerId: Scalar, items: seq<Value>, engine: Engine)
    requires rel.HabtmRel? && IdItems(items) && TruthyIds(items).Ok?
    ensures JoinedUpTo(DeleteRows(rows, UnlinkConds(rel, ownerId, TruthyIds(items).value)), rel, ownerId, items,
                       Column(Select(rows, [Eq(rel.sourceKey, ownerId)]), rel.key), engine, 0)
  {
    var ids := TruthyIds(items).value;
    var cs := UnlinkConds(rel, ownerId, ids);
    var sel := Select(rows, [Eq(rel.sourceKey, ownerId)]);
    var linked := Column(sel, rel.key);
    var kept := DeleteRows(rows, cs);
    forall i | 0 <= i < |items| && engine == Current && Includes(linked, items[i].fields["id"])
      ensures Joined(kept, rel, ownerId, items[i].fields["id"])
    {
      var x := items[i].fields["id"];
      var q :| 0 <= q < |linked| && linked[q] == x;
      var y := sel[q];
      var c0 := Eq(rel.sourceKey, ownerId);
      assert y in sel;
      assert [c0][0] == c0;
      assert Col(y, rel.sourceKey) == ownerId && Col(y, rel.key) == x;
      assert Prop(items[i], "id") == Some(x);
      var t :| 0 <= t < |ids| && ids[t] == x;
      assert x in ids;
      assert !Holds(y, cs[1]);
      assert y in kept;
      var p :| 0 <= p < |kept| && kept[p] == y;
    }
  }

  /** `_saveHasAndBelongsToManyRelation` (model.js:519-547,
      lib/model.js:510-537): on either engine, after a successful save the
      owner is joined to every target the payload carries, whether it was
      joined before or not. */
  lemma HabtmJoinsEvery(k: Klein, m: ModelDef, rel: Relation, payload: Value, owner: Fields, now: int, st: St)
    requires rel.HabtmRel? && FlatAt(k, rel.table) && rel.table != rel.throughTable
    requires rel.key != rel.sourceKey && rel.key !in JoinStamps(k, m) && rel.sourceKey !in JoinStamps(k, m)
    requires payload.Arr? && IdItems(payload.items)
    requires "id" in owner && owner["id"].IsScalar()
    ensures var r := SaveHabtm(k, m, rel, payload, owner, now, st);
      r.Ok? ==> forall i :: 0 <= i < |payload.items| ==>
        Joined(Rows(r.value.1.db, rel.throughTable), rel, owner["id"], payload.items[i].fields["id"])
  {
    var r := SaveHabtm(k, m, rel, payload, owner, now, st);
    if r.Ok? {
      var ids := TruthyIds(payload.items).value;
      var ownerId: Scalar := owner["id"];
      var linked := Linked(rel, ownerId, st);
      var st1 := DeleteWhere(st, rel.throughTable, UnlinkConds(rel, ownerId, ids));
      LinkedSurvive(Rows(st.db, rel.throughTable), rel, ownerId, payload.items, k.engine);
      SelectedPresent(Rows(st1.db, rel.table), [In("id", ids)]);
      var existing := Column(SelectWhere(st1, rel.table, [In("id", ids)]), "id");
      PresentEachIff(existing, Rows(st1.db, rel.table));
      TargetsJoin(k, m, rel, ModelFor(k, rel.table), ownerId, linked, existing, payload, 0, [], now, st1);
    }
  }

  /** Every row of every table in `after` was already in `before`: only
      deletions happened. */
  ghost predicate OnlyDeleted(before: St, after: St) {
    forall t, x :: x in Rows(after.db, t) ==> x in Rows(before.db, t)
  }

  /** Some cascading relation from position `i` on deletes from table `t`. */
  predicate Targeted(rels: seq<Relation>, i: nat, t: string) {
    exists j :: i <= j < |rels| && rels[j].Cascades() && CascadeTarget(rels[j]).Some? && CascadeTarget(rels[j]).value.0 == t
  }

  /** No row of the table a cascading relation deletes from still points at
      `id` through the relation's key. */
  predicate Cleaned(rels: seq<Relation>, i: nat, id: Scalar, st: St) {
    forall j :: i <= j < |rels| && rels[j].Cascades() && CascadeTarget(rels[j]).Some? ==>
      forall x :: x in Rows(st.db, CascadeTarget(rels[j]).value.0) ==> Col(x, CascadeTarget(rels[j]).value.1) != id
  }

  /** Row `x` of table `t` is one that a dependent delete from position `i`
      on removes: some cascading relation deletes from `t` by a key whose
      column in `x` holds `id`. */
  predicate Hit(rels: seq<Relation>, i: nat, t: string, x: Row, id: Scalar) {
    exists j :: i <= j < |rels| && rels[j].Cascades() && CascadeTarget(rels[j]).Some?
      && CascadeTarget(rels[j]).value.0 == t && Col(x, CascadeTarget(rels[j]).value.1) == id
  }

  /** A delete by `key = id` removes exactly the rows of `t` holding `id` in
      `key`, and touches no other table. */
  lemma DeleteByKey(st: St, t: string, key: string, id: Scalar)
    ensures var after := DeleteWhere(st, t, [Eq(key, id)]);
      && OnlyDeleted(st, after)
      && (forall x :: x in Rows(after.db, t) ==> Col(x, key) != id)
      && (forall u, x :: x in Rows(after.db, u) <==> x in Rows(st.db, u) && !(u == t && Col(x, key) == id))
  {
    var cs := [Eq(key, id)];
    var after := DeleteWhere(st, t, cs);
    forall x
      ensures MatchesAll(x, cs) <==> Col(x, key) == id
    {
      assert MatchesAll(x, cs) <==> Holds(x, cs[0]);
    }
  }

  /** Whether a row is hit from position `i` on: by the relation at `i`, or
      by one after it. */
  lemma HitStep(rels: seq<Relation>, i: nat, t: string, x: Row, id: Scalar)
    requires i < |rels|
    ensures Hit(rels, i, t, x, id) <==>
      (&& rels[i].Cascades() && CascadeTarget(rels[i]).Some?
       && CascadeTarget(rels[i]).value.0 == t && Col(x, CascadeTarget(rels[i]).value.1) == id)
      || Hit(rels, i + 1, t, x, id)
  {
    if Hit(rels, i, t, x, id) {
      var j :| i <= j < |rels| && rels[j].Cascades() && CascadeTarget(rels[j]).Some?
        && CascadeTarget(rels[j]).value.0 == t && Col(x, CascadeTarget(rels[j]).value.1) == id;
      if j > i {
        assert Hit(rels, i + 1, t, x, id);
      }
    }
  }

  /** The dependent deletes of destroy (model.js:108-121) remove exactly the
      rows some cascading relation's delete matches: every other row of
      every table stays, and none is added. Afterwards no row of a cascaded
      table points at the destroyed id, and the tables no cascading relation
      names are untouched. */
  lemma {:induction false} CascadeDeletes(rels: seq<Relation>, i: nat, id: Scalar, st: St)
    requires i <= |rels|
    ensures var r := Cascade(rels, i, id, st);
      r.Ok? ==>
        && OnlyDeleted(st, r.value)
        && (forall t, x :: x in Rows(r.value.db, t) <==> x in Rows(st.db, t) && !Hit(rels, i, t, x, id))
        && Cleaned(rels, i, id, r.value)
        && (forall t :: !Targeted(rels, i, t) ==> Rows(r.value.db, t) == Rows(st.db, t))
    decreases |rels| - i
  {
    var r := Cascade(rels, i, id, st);
    if r.Ok? && i < |rels| {
      if !rels[i].Cascades() {
        CascadeDeletes(rels, i + 1, id, st);
        forall t, x ensures Hit(rels, i, t, x, id) <==> Hit(rels, i + 1, t, x, id) {
          HitStep(rels, i, t, x, id);
        }
        assert forall t :: !Targeted(rels, i, t) ==> !Targeted(rels, i + 1, t);
      } else {
        var (t, key) := CascadeTarget(rels[i]).value;
        var st1 := DeleteWhere(st, t, [Eq(key, id)]);
        DeleteByKey(st, t, key, id);
        CascadeDeletes(rels, i + 1, id, st1);
        forall u, x ensures Hit(rels, i, u, x, id) <==> (u == t && Col(x, key) == id) || Hit(rels, i + 1, u, x, id) {
          HitStep(rels, i, u, x, id);
        }
        assert Targeted(rels, i, t);
        assert forall u :: !Targeted(rels, i, u) ==> !Targeted(rels, i + 1, u) && u != t;
      }
    }
  }

  /** `destroy` removes exactly the record's row and the rows its cascading
      relations point at it with: every other row of every table stays, no
      row is added, and every table nothing deletes from is left as it was. */
  lemma DestroyDeletes(k: Klein, m: ModelDef, record: Value, st: St)
    ensures var r := Destroy(k, m, record, st);
      r.Ok? ==>
        && record.Obj? && "id" in record.fields && record.fields["id"].IsScalar()
        && var id: Scalar := record.fields["id"];
           && OnlyDeleted(st, r.value.1)
           && (forall t, x :: x in Rows(r.value.1.db, t) <==>
                 x in Rows(st.db, t) && !(t == m.table && Col(x, "id") == id) && !Hit(m.relations, 0, t, x, id))
           && (!Targeted(m.relations, 0, m.table) ==> forall x :: x in Rows(r.value.1.db, m.table) ==> Col(x, "id") != id)
           && Cleaned(m.relations, 0, id, r.value.1)
           && (forall t :: t != m.table && !Targeted(m.relations, 0, t) ==> Rows(r.value.1.db, t) == Rows(st.db, t))
  {
    var r := Destroy(k, m, record, st);
    if r.Ok? {
      var id: Scalar := record.fields["id"];
      var st1 := DeleteWhere(st, m.table, [Eq("id", id)]);
      DeleteByKey(st, m.table, "id", id);
      CascadeDeletes(m.relations, 0, id, st1);
    }
  }

  /** A relation declared with no kind marker but with `dependent`, a `table`
      and a `key` is kept as the caller wrote it, and destroy deletes from
      that table by that key (model.js:109-117, lib/model.js:99-106). */
  lemma UntypedDependentDeletes(engine: Engine, infl: Text.Inflector, owner: string, relName: string, o: RelationObject)
    requires !Given(o.hasAndBelongsToMany) && !Given(o.belongsTo) && !Given(o.hasMany) && o.kind == None
    requires o.dependent.Some? && o.dependent.value.Truthy() && o.table.Some? && o.key.Some?
    ensures var rel := ResolveRelation(engine, infl, owner, relName, o);
      rel.Cascades() && CascadeTarget(rel) == Some((o.table.value, o.key.value))
  {
  }

  /** Creating a single record of a flat model appends exactly its row, and
      the created record is that row. */
  lemma CreateAppends(k: Klein, m: ModelDef, v: Value, now: int, st: St)
    requires m.relations == [] && !v.Arr?
    ensures var r := Create(k, m, v, now, st);
      var before := Rows(st.db, m.table);
      r.Ok? ==>
        var after := Rows(r.value.1.db, m.table);
        && |after| == |before| + 1 && after[..|before|] == before
        && r.value.0 == Obj(after[|before|])
        && (forall t :: t != m.table ==> Rows(r.value.1.db, t) == Rows(st.db, t))
  {
    var r := Create(k, m, v, now, st);
    if r.Ok? {
      SaveFlat(k, m, v, None, Known(false), now, st);
      WriteRecordFrame(k, m, v, None, Known(false), now, st);
      InsertedRecord(k, m, v, now, st);
    }
  }

  /** An insert reports back the row it appended, and with no relations to
      put back that row is the record. */
  lemma InsertedRecord(k: Klein, m: ModelDef, v: Value, now: int, st: St)
    requires m.relations == [] && v.Obj?
    ensures var w := WriteRecord(k, m, v, None, Known(false), now, st);
      w.Ok? ==> w.value.0 == Rows(w.value.1.db, m.table)[|Rows(st.db, m.table)|]
  {
    var w := WriteRecord(k, m, v, None, Known(false), now, st);
    if w.Ok? {
      var prep := PrepareRow(k, m, v.fields, now, st);
      var (row, detached, st1) := prep.value;
      assert forall n :: !IsRelationName(m, n);
      assert detached == map[];
      var written := WriteRow(k, m, row, false, now, st1);
      var (st2, results) := written.value;
      assert w.value == (Reattach(results, detached), st2);
      ReattachNothing(results);
    }
  }

  /** With nothing detached, the record is the first row the write returned. */
  lemma ReattachNothing(results: seq<Row>)
    requires |results| > 0
    ensures Reattach(results, map[]) == results[0]
  {
  }

  /** Creating a list of records of a flat model appends one row per record,
      in list order. */
  lemma {:induction false} CreateAllAppends(k: Klein, m: ModelDef, items: seq<Value>, j: nat, acc: seq<Value>, now: int, st: St)
    requires m.relations == [] && j <= |items|
    ensures AppendedRows(Rows(st.db, m.table), CreateAll(k, m, items, j, acc, now, st), m.table, |items| - j)
    decreases |items| - j, 1
  {
    if j < |items| {
      CreateAllAppendsFrom(k, m, items, j, acc, now, st);
    }
  }

  /** The inductive step of `CreateAllAppends`. */
  lemma {:induction false} CreateAllAppendsFrom(k: Klein, m: ModelDef, items: seq<Value>, j: nat, acc: seq<Value>, now: int, st: St)
    requires m.relations == [] && j < |items|
    ensures AppendedRows(Rows(st.db, m.table), CreateAll(k, m, items, j, acc, now, st), m.table, |items| - j)
    decreases |items| - j, 0
  {
    if CreateAll(k, m, items, j, acc, now, st).Ok? {
      var saved, st1 := CreateStep(k, m, items, j, acc, now, st);
      CreateAllAppends(k, m, items, j + 1, acc + [saved], now, st1);
      AppendedRowsStep(Rows(st.db, m.table), Rows(st1.db, m.table),
                       CreateAll(k, m, items, j + 1, acc + [saved], now, st1), m.table, |items| - (j + 1));
    }
  }

  /** One record of the list created: one row appended. */
  lemma CreateStep(k: Klein, m: ModelDef, items: seq<Value>, j: nat, acc: seq<Value>, now: int, st: St) returns (saved: Value, st1: St)
    requires m.relations == [] && j < |items|
    requires CreateAll(k, m, items, j, acc, now, st).Ok?
    ensures CreateAll(k, m, items, j, acc, now, st) == CreateAll(k, m, items, j + 1, acc + [saved], now, st1)
    ensures |Rows(st1.db, m.table)| == |Rows(st.db, m.table)| + 1
    ensures Rows(st1.db, m.table)[..|Rows(st.db, m.table)|] == Rows(st.db, m.table)
  {
    var s := Save(k, m, items[j], None, Known(false), now, st).value;
    SaveFlat(k, m, items[j], None, Known(false), now, st);
    WriteRecordFrame(k, m, items[j], None, Known(false), now, st);
    saved, st1 := Obj(s.record), s.st;
  }

  /** As written, a model of the current engine never saves: before
      connecting it rejects, and once connected its first query throws. */
  lemma SaveAsWrittenNeverSaves(k: Klein, m: ModelDef, v: Value, link: Option<(string, Scalar)>, given: Exists, now: int, st: St)
    requires k.engine == Current
    ensures SaveAsWritten(k, m, v, link, given, now, st).Err?
  {
  }

  /** The discrepancy on a concrete input: a connected registry, a model with
      no relations, an empty record. The save as written throws where the
      engine, querying the registry's connection, inserts a row. */
  lemma KnexUnboundWitness(infl: Text.Inflector, st: St)
    ensures var k := Klein(Current, true, map[], infl);
      var m := ModelFor(k, "users");
      && SaveAsWritten(k, m, Obj(map[]), None, Known(false), 0, st) == Err(TypeError("this._knex is not a function"))
      && Save(k, m, Obj(map[]), None, Known(false), 0, st).Ok?
      && |Rows(Save(k, m, Obj(map[]), None, Known(false), 0, st).value.st.db, "users")| == |Rows(st.db, "users")| + 1
  {
    var k := Klein(Current, true, map[], infl);
    var m := ModelFor(k, "users");
    SaveFlat(k, m, Obj(map[]), None, Known(false), 0, st);
    WriteRecordFrame(k, m, Obj(map[]), None, Known(false), 0, st);
  }
}

=== FILE: present.dfy ===
/** Presenting query results: the `json` context projection (model.js:316-364,
    lib/model.js:283-329) and the limit/offset window `page` adds to a query
    (model.js:289-299, lib/model.js:258-266). */
module Present {
  import opened Js
  import opened Relations
  import opened Store
  import opened Models
  import Text

  /** The `context` argument of `json`: absent, a context name, or a
      function. */
  datatype ContextArg = Unnamed | Named(name: string) | Literal(f: Value -> Value)

  /** A context once the absent case is settled. */
  datatype Ctx = ByName(name: string) | ByFunction(f: Value -> Value)

  /** The current engine reads an absent context as `'default'`; the older
      one looks it up as is, so under the property name "undefined". */
  function Settle(engine: Engine, arg: ContextArg): (c: Ctx)
    ensures arg.Named? ==> c == ByName(arg.name)
    ensures arg.Literal? ==> c == ByFunction(arg.f)
    ensures arg.Unnamed? ==> c == ByName(if engine == Current then "default" else "undefined")
  {
    match arg
    case Unnamed => ByName(if engine == Current then "default" else "undefined")
    case Named(n) => ByName(n)
    case Literal(f) => ByFunction(f)
  }

  /** The table of the model a relation's values are presented with: the
      resolved table of a typed relation, the `table` an unmarked
      declaration was given, and `undefined` when it was given none. */
  function RelTable(rel: Relation): (t: string)
    ensures !rel.Untyped? ==> t == rel.table
    ensures rel.Untyped? && rel.declaredTable.Some? ==> t == rel.declaredTable.value
    ensures rel.Untyped? && rel.declaredTable.None? ==> t == "undefined"
  {
    match rel
    case HasManyRel(_, t, _, _) => t
    case BelongsToRel(_, t, _) => t
    case HabtmRel(_, t, _, _, _) => t
    case Untyped(_, t, _, _) => t.GetOr("undefined")
  }

  /** A named context that leaves an instance as it is: one the model does
      not define, one that is neither a list nor a function, or a field list
      that is empty or starts with `'*'`. */
  predicate Unprojected(m: ModelDef, c: Ctx) {
    c.ByName? &&
    (c.name !in m.contexts
     || m.contexts[c.name].OtherContext?
     || (m.contexts[c.name].FieldList? && (|m.contexts[c.name].keys| == 0 || m.contexts[c.name].keys[0] == "*")))
  }

  /** A named context that is a projecting field list. */
  predicate Projecting(m: ModelDef, c: Ctx) {
    c.ByName? && c.name in m.contexts && m.contexts[c.name].FieldList?
    && |m.contexts[c.name].keys| > 0 && m.contexts[c.name].keys[0] != "*"
  }

  /** The listed keys an instance has. */
  function Present(keys: seq<string>, fields: Fields): set<string> {
    set c | c in keys && c in fields
  }

  /** `json(instance_or_list, context)` once the context is settled: a list
      is presented element by element; an instance goes through a function
      context, through the model's named context, or unchanged, and the
      final `toJS` read fails on null. */
  function Json(k: Klein, m: ModelDef, v: Value, c: Ctx): (r: Result<Value>)
    ensures !v.Arr? && !v.Null? && Unprojected(m, c) ==> r == Ok(v)
    ensures !v.Arr? && Projecting(m, c) && r.Ok? ==> (v.Obj? && r.value.Obj?
      && r.value.fields.Keys == Present(m.contexts[c.name].keys, v.fields)
      && forall f :: f in r.value.fields && !IsRelationName(m, f) ==> r.value.fields[f] == v.fields[f])
    ensures !v.Arr? && c.ByFunction? && c.f(v) != Null ==> r == Ok(c.f(v))
    decreases v, 2
  {
    if v.Arr? then
      var out :- JsonItems(k, m, v, 0, c);
      Ok(Arr(out))
    else
      var mapped :- Contextualise(k, m, v, c);
      if mapped.Null? then Err(TypeError("Cannot read property 'toJS' of null")) else Ok(mapped)
  }

  /** The elements of a list from the `i`-th on, presented in order. */
  function JsonItems(k: Klein, m: ModelDef, whole: Value, i: nat, c: Ctx): (r: Result<seq<Value>>)
    requires whole.Arr? && i <= |whole.items|
    ensures r.Ok? <==> forall j :: i <= j < |whole.items| ==> Json(k, m, whole.items[j], c).Ok?
    ensures r.Ok? ==> (|r.value| == |whole.items| - i
      && forall j :: i <= j < |whole.items| ==> Json(k, m, whole.items[j], c) == Ok(r.value[j - i]))
    decreases whole, 1, |whole.items| - i
  {
    if i == |whole.items| then Ok([])
    else
      var x := Json(k, m, whole.items[i], c);
      if x.Err? then Err(x.error)
      else
        var rest :- JsonItems(k, m, whole, i + 1, c);
        Ok([x.value] + rest)
  }

  /** The mapping of one instance by the context. */
  function Contextualise(k: Klein, m: ModelDef, v: Value, c: Ctx): (r: Result<Value>)
    requires !v.Arr?
    ensures Unprojected(m, c) ==> r == Ok(v)
    ensures Projecting(m, c) && r.Ok? ==> (v.Obj? && r.value.Obj?
      && r.value.fields.Keys == Present(m.contexts[c.name].keys, v.fields)
      && forall f :: f in r.value.fields && !IsRelationName(m, f) ==> r.value.fields[f] == v.fields[f])
    ensures c.ByFunction? ==> r == Ok(c.f(v))
    decreases v, 1
  {
    match c
    case ByFunction(f) => Ok(f(v))
    case ByName(name) =>
      if name !in m.contexts then Ok(v)
      else match m.contexts[name]
        case Mapper(f) => Ok(f(v))
        case OtherContext => Ok(v)
        case FieldList(keys) =>
          if |keys| == 0 || keys[0] == "*" then Ok(v)
          else if !v.Obj? then Err(TypeError("instance.has is not a function"))
          else
            var r := Project(k, m, v, keys, 0, map[], name);
            assert keys[0..] == keys;
            r
  }

  /** The projection loop: each listed key the instance has is copied, a
      relation's value presented by the related model under the same
      context name. */
  function Project(k: Klein, m: ModelDef, inst: Value, keys: seq<string>, i: nat, acc: Fields, name: string): (r: Result<Value>)
    requires inst.Obj? && i <= |keys|
    ensures r.Ok? ==> r.value.Obj? && r.value.fields.Keys == acc.Keys + Present(keys[i..], inst.fields)
    ensures r.Ok? ==> forall f :: f in acc && f !in keys[i..] ==> r.value.fields[f] == acc[f]
    ensures r.Ok? ==> forall f :: f in inst.fields && f in keys[i..] && !IsRelationName(m, f) ==> r.value.fields[f] == inst.fields[f]
    ensures (forall j :: i <= j < |keys| ==> !IsRelationName(m, keys[j])) ==> r.Ok?
    decreases inst, 0, |keys| - i
  {
    if i == |keys| then Ok(Obj(acc))
    else
      var key := keys[i];
      assert keys[i..] == [key] + keys[i + 1..];
      if key !in inst.fields then Project(k, m, inst, keys, i + 1, acc, name)
      else
        match RelationNamed(m.relations, key)
        case Some(rel) =>
          var sub := Json(k, ModelFor(k, RelTable(rel)), inst.fields[key], ByName(name));
          if sub.Err? then Err(sub.error)
          else Project(k, m, inst, keys, i + 1, acc[key := sub.value], name)
        case None => Project(k, m, inst, keys, i + 1, acc[key := inst.fields[key]], name)
  }

  /** `json` itself. */
  function JsonOf(k: Klein, m: ModelDef, v: Value, arg: ContextArg): (r: Result<Value>)
    ensures arg.Unnamed? && k.engine == Current ==> r == Json(k, m, v, ByName("default"))
    ensures arg.Named? ==> r == Json(k, m, v, ByName(arg.name))
  {
    Json(k, m, v, Settle(k.engine, arg))
  }

  /** A field-list context naming no relation keeps exactly the listed
      fields the instance has, with their values. */
  lemma ProjectionKeepsListed(k: Klein, m: ModelDef, fields: Fields, name: string)
    requires Projecting(m, ByName(name))
    requires forall j :: 0 <= j < |m.contexts[name].keys| ==> !IsRelationName(m, m.contexts[name].keys[j])
    ensures Json(k, m, Obj(fields), ByName(name))
         == Ok(Obj(map f | f in fields && f in m.contexts[name].keys :: fields[f]))
  {
    var keys := m.contexts[name].keys;
    assert keys[0..] == keys;
    var r := Json(k, m, Obj(fields), ByName(name));
    assert Project(k, m, Obj(fields), keys, 0, map[], name).Ok?;
    assert Contextualise(k, m, Obj(fields), ByName(name)) == Project(k, m, Obj(fields), keys, 0, map[], name);
    assert r.Ok?;
    var want := map f | f in fields && f in keys :: fields[f];
    assert r.value.fields.Keys == want.Keys;
    assert forall f :: f in want ==> r.value.fields[f] == want[f] by {
      forall f | f in want ensures r.value.fields[f] == want[f] {
        assert f in keys;
        assert !IsRelationName(m, f);
      }
    }
    assert r.value.fields == want;
  }

  /** Presenting an already presented instance again under the same
      field-list context changes nothing, when the list names no relation. */
  lemma ProjectionIdempotent(k: Klein, m: ModelDef, fields: Fields, name: string)
    requires Projecting(m, ByName(name))
    requires forall j :: 0 <= j < |m.contexts[name].keys| ==> !IsRelationName(m, m.contexts[name].keys[j])
    ensures Json(k, m, Obj(fields), ByName(name)).Ok?
    ensures var once := Json(k, m, Obj(fields), ByName(name)).value;
      Json(k, m, once, ByName(name)) == Ok(once)
  {
    ProjectionKeepsListed(k, m, fields, name);
    var keys := m.contexts[name].keys;
    var once := map f | f in fields && f in keys :: fields[f];
    ProjectionKeepsListed(k, m, once, name);
    assert (map f | f in once && f in keys :: once[f]) == once;
  }

  /** The related value of every relation key the projection loop copies is
      that value presented by the model of the relation's table under the
      same context name. */
  lemma {:induction false} ProjectPresents(k: Klein, m: ModelDef, inst: Value, keys: seq<string>, i: nat, acc: Fields, name: string)
    requires inst.Obj? && i <= |keys|
    ensures var r := Project(k, m, inst, keys, i, acc, name);
      r.Ok? ==> forall f :: f in keys[i..] && f in inst.fields && IsRelationName(m, f) ==>
        Json(k, ModelFor(k, RelTable(RelationNamed(m.relations, f).value)), inst.fields[f], ByName(name)) == Ok(r.value.fields[f])
    decreases |keys| - i
  {
    if i < |keys| {
      var key := keys[i];
      assert keys[i..] == [key] + keys[i + 1..];
      if key !in inst.fields {
        ProjectPresents(k, m, inst, keys, i + 1, acc, name);
      } else if RelationNamed(m.relations, key).Some? {
        var sub := Json(k, ModelFor(k, RelTable(RelationNamed(m.relations, key).value)), inst.fields[key], ByName(name));
        if sub.Ok? {
          ProjectPresents(k, m, inst, keys, i + 1, acc[key := sub.value], name);
        }
      } else {
        ProjectPresents(k, m, inst, keys, i + 1, acc[key := inst.fields[key]], name);
      }
    }
  }

  /** A relation key listed by a projecting context is presented by the
      model registered for the relation's table (for a relation declared
      without a kind, the table it was declared with), under the same
      context name; if that fails, the whole presentation fails. */
  lemma RelationPresentedByItsTable(k: Klein, m: ModelDef, fields: Fields, name: string, key: string)
    requires Projecting(m, ByName(name))
    requires key in m.contexts[name].keys && key in fields && IsRelationName(m, key)
    ensures var sub := Json(k, ModelFor(k, RelTable(RelationNamed(m.relations, key).value)), fields[key], ByName(name));
      var r := Json(k, m, Obj(fields), ByName(name));
      (r.Ok? ==> sub.Ok? && key in r.value.fields && r.value.fields[key] == sub.value)
      && (sub.Err? ==> r.Err?)
  {
    var keys := m.contexts[name].keys;
    assert keys[0..] == keys;
    assert Contextualise(k, m, Obj(fields), ByName(name)) == Project(k, m, Obj(fields), keys, 0, map[], name);
    ProjectPresents(k, m, Obj(fields), keys, 0, map[], name);
  }

  /** `posts` declares `notes: {table: 'comments'}` with no kind marker and
      presents `['notes']` by default; `comments` presents `['id']`. The
      notes are presented by `comments`, so only their ids remain. */
  lemma UntypedRelationWitness(infl: Text.Inflector)
    ensures var notes := RelationObject(None, None, None, None, None, None, None, Some("comments"), None, None, None, None, None, None);
      var posts := ModelDef("posts", [ResolveRelation(Current, infl, "posts", "notes", notes)], "created_at", "updated_at",
                            Some(NewId), [], map["default" := FieldList(["notes"])]);
      var comments := ModelDef("comments", [], "created_at", "updated_at", Some(NewId), [], map["default" := FieldList(["id"])]);
      var k := Klein(Current, true, map["comments" := comments], infl);
      JsonOf(k, posts, Obj(map["notes" := Arr([Obj(map["id" := Num(1), "body" := Str("x")])])]), Unnamed)
        == Ok(Obj(map["notes" := Arr([Obj(map["id" := Num(1)])])]))
  {
    var notes := RelationObject(None, None, None, None, None, None, None, Some("comments"), None, None, None, None, None, None);
    var rel := ResolveRelation(Current, infl, "posts", "notes", notes);
    assert rel == Untyped("notes", Some("comments"), None, false);
    var posts := ModelDef("posts", [rel], "created_at", "updated_at", Some(NewId), [], map["default" := FieldList(["notes"])]);
    var comments := ModelDef("comments", [], "created_at", "updated_at", Some(NewId), [], map["default" := FieldList(["id"])]);
    var k := Klein(Current, true, map["comments" := comments], infl);
    var note := Obj(map["id" := Num(1), "body" := Str("x")]);
    ProjectionKeepsListed(k, comments, note.fields, "default");
    assert (map f | f in note.fields && f in ["id"] :: note.fields[f]) == map["id" := Num(1)];
    assert Json(k, comments, note, ByName("default")) == Ok(Obj(map["id" := Num(1)]));
    assert JsonItems(k, comments, Arr([note]), 1, ByName("default")) == Ok([]);
    assert [Obj(map["id" := Num(1)])] + [] == [Obj(map["id" := Num(1)])];
    assert JsonItems(k, comments, Arr([note]), 0, ByName("default")) == Ok([Obj(map["id" := Num(1)])]);
    assert ModelFor(k, "comments") == comments;
    assert RelationNamed(posts.relations, "notes") == Some(rel);
    var post := map["notes" := Arr([note])];
    RelationPresentedByItsTable(k, posts, post, "default", "notes");
    ProjectPresents(k, posts, Obj(post), ["notes"], 0, map[], "default");
  }

  /** A list is presented element-wise, whatever the context. */
  lemma ListElementwise(k: Klein, m: ModelDef, items: seq<Value>, arg: ContextArg)
    requires JsonOf(k, m, Arr(items), arg).Ok?
    ensures var r := JsonOf(k, m, Arr(items), arg).value;
      r.Arr? && |r.items| == |items|
      && forall i :: 0 <= i < |items| ==> JsonOf(k, m, items[i], arg) == Ok(r.items[i])
  {
    var out := JsonItems(k, m, Arr(items), 0, Settle(k.engine, arg));
    assert out.Ok?;
  }

  /** The limit and the optional offset `page` adds to the query. */
  datatype Window = Window(limit: int, offset: Option<int>)

  /** `page(n, per_page)`. The current engine takes 20 per page when no size
      is given and skips the pages before the `n`-th; the older one limits
      to `n` rows and skips `n * per_page`, and only when a size is given. */
  function PageWindow(engine: Engine, n: int, perPage: Option<int>): (w: Window)
    ensures engine == Current ==> (w.offset.Some? && w.limit == perPage.GetOr(20)
      && w.offset.value == (n - 1) * w.limit)
    ensures engine == Legacy ==> (w.limit == n && (w.offset.Some? <==> perPage.Some?)
      && (perPage.Some? ==> w.offset.value == n * perPage.value))
  {
    if engine == Current then
      var per := perPage.GetOr(20);
      Window(per, Some((n - 1) * per))
    else
      Window(n, if perPage.Some? then Some(n * perPage.value) else None)
  }

  /** The rows a window keeps of a query's rows: skip `offset`, then take at
      most `limit`. The database refuses a negative limit or offset. */
  function Apply(rows: seq<Row>, w: Window): (r: Result<seq<Row>>)
    ensures r.Err? <==> w.limit < 0 || (w.offset.Some? && w.offset.value < 0)
    ensures r.Ok? ==> var skip := w.offset.GetOr(0);
      |r.value| == (if skip >= |rows| then 0 else if |rows| - skip < w.limit then |rows| - skip else w.limit)
      && forall i :: 0 <= i < |r.value| ==> r.value[i] == rows[skip + i]
  {
    if w.limit < 0 then Err(Rejected("LIMIT must not be negative"))
    else if w.offset.Some? && w.offset.value < 0 then Err(Rejected("OFFSET must not be negative"))
    else
      var skip := w.offset.GetOr(0);
      var from := if skip >= |rows| then |rows| else skip;
      var to := if |rows| - from < w.limit then |rows| else from + w.limit;
      Ok(rows[from..to])
  }

  /** The rows of page `n`. */
  function PageRows(engine: Engine, rows: seq<Row>, n: int, perPage: Option<int>): Result<seq<Row>> {
    Apply(rows, PageWindow(engine, n, perPage))
  }

  /** Pages 1 to `count` of the current engine, one after the other. */
  function FirstPages(rows: seq<Row>, per: nat, count: nat): seq<Row>
    requires per > 0
  {
    if count == 0 then []
    else
      var page := PageRows(Current, rows, count, Some(per));
      FirstPages(rows, per, count - 1) + (if page.Ok? then page.value else [])
  }

  /** Page `n` of the current engine, as a slice of the rows. */
  lemma CurrentPageSlice(rows: seq<Row>, n: nat, per: nat)
    requires n >= 1 && per > 0
    ensures var lo := if (n - 1) * per <= |rows| then (n - 1) * per else |rows|;
      var hi := if n * per <= |rows| then n * per else |rows|;
      lo <= hi && PageRows(Current, rows, n, Some(per)) == Ok(rows[lo..hi])
  {
    assert n * per == (n - 1) * per + per;
    assert (n - 1) * per >= 0;
  }

  /** The current engine's pages tile the result: pages 1 to `count` are
      exactly its first `count * per` rows, with nothing skipped or
      repeated. */
  lemma {:induction false} PagesTile(rows: seq<Row>, per: nat, count: nat)
    requires per > 0
    ensures FirstPages(rows, per, count) == rows[..if count * per <= |rows| then count * per else |rows|]
  {
    if count > 0 {
      PagesTile(rows, per, count - 1);
      CurrentPageSlice(rows, count, per);
      var lo := if (count - 1) * per <= |rows| then (count - 1) * per else |rows|;
      var hi := if count * per <= |rows| then count * per else |rows|;
      assert rows[..hi] == rows[..lo] + rows[lo..hi];
    }
  }

  /** The older engine's page size is the page number: as long as the
      result is long enough, page `n` holds `n` rows whatever size is asked
      for, starting `n * per` rows in. */
  lemma LegacyPageSizeIsPageNumber(rows: seq<Row>, n: nat, per: nat)
    requires n * per + n <= |rows|
    ensures PageRows(Legacy, rows, n, Some(per)).Ok?
    ensures var page := PageRows(Legacy, rows, n, Some(per)).value;
      |page| == n && (n > 0 ==> page[0] == rows[n * per])
  {
  }

  /** Page 3 of 20 over 100 rows: the older engine returns rows 60 to 62
      where the current engine returns rows 40 to 59. */
  lemma LegacyPageWitness(rows: seq<Row>)
    requires |rows| == 100
    ensures PageWindow(Legacy, 3, Some(20)) == Window(3, Some(60))
    ensures PageWindow(Current, 3, Some(20)) == Window(20, Some(40))
    ensures PageRows(Legacy, rows, 3, Some(20)) == Ok(rows[60..63])
    ensures PageRows(Current, rows, 3, Some(20)) == Ok(rows[40..60])
  {
  }
}

=== FILE: relations.dfy ===
/** Relation descriptor resolution: the constructor of `Model` turns each
    declared relation object into a resolved one (model.js:27-56), and the
    older engine does the same reading other override keys
    (lib/model.js:27-56). The engine itself works on the typed `Relation`
    read off a resolved object. */
module Relations {
  import opened Js
  import opened Text

  /** Which of the two engines: `model.js` (Current) or `lib/model.js` (Legacy). */
  datatype Engine = Current | Legacy

  datatype Kind = HasMany | BelongsTo | HasAndBelongsToMany

  /** A relation object as a caller declares it under `relations`, together
      with the keys resolution writes back into it. Resolution mutates the
      object in place, so a resolved object is read again, as a declaration,
      whenever a scoped copy of the model is constructed. A string option
      counts as given only when it is a non-empty string. */
  datatype RelationObject = RelationObject(
    hasAndBelongsToMany: Option<string>,
    belongsTo: Option<string>,
    hasMany: Option<string>,
    through: Option<string>,
    primaryKey: Option<string>,
    foreignKey: Option<string>,
    throughTable: Option<string>,
    table: Option<string>,
    sourceKey: Option<string>,
    key: Option<string>,
    dependent: Option<Value>,
    name: Option<string>,
    many: Option<bool>,
    kind: Option<Kind>)

  /** A declaration naming only its kind marker and nothing else. */
  function Declare(marker: Kind, target: string): RelationObject {
    RelationObject(
      if marker == HasAndBelongsToMany then Some(target) else None,
      if marker == BelongsTo then Some(target) else None,
      if marker == HasMany then Some(target) else None,
      None, None, None, None, None, None, None, None, None, None, None)
  }

  /** A string-valued property is truthy. */
  predicate Given(o: Option<string>) {
    o.Some? && o.value != ""
  }

  /** `o || fallback` for a string-valued property. */
  function Or(o: Option<string>, fallback: string): (r: string)
    ensures Given(o) ==> r == o.value
    ensures !Given(o) ==> r == fallback
  {
    if Given(o) then o.value else fallback
  }

  /** `[a, b].sort().join('_')`: the default join-table name. */
  function JoinTableName(a: string, b: string): string {
    var sorted := Sort2(a, b);
    sorted[0] + "_" + sorted[1]
  }

  /** One pass of the constructor's resolution loop over the relation
      `relName` of the model for table `owner`. The current engine reads the
      overrides `through`, `primary_key` and `foreign_key`; the older one
      reads `through_table`, `source_key` and `key`. */
  function Resolve(engine: Engine, infl: Inflector, owner: string, relName: string, o: RelationObject): RelationObject {
    var o1 := o.(name := Some(relName));
    var throughOverride := if engine == Current then o.through else o.throughTable;
    var sourceOverride := if engine == Current then o.primaryKey else o.sourceKey;
    var keyOverride := if engine == Current then o.foreignKey else o.key;
    if Given(o.hasAndBelongsToMany) then
      o1.(many := Some(true), kind := Some(HasAndBelongsToMany),
          throughTable := Some(Or(throughOverride, JoinTableName(owner, infl.pluralize(relName)))),
          table := Some(Or(o.table, infl.pluralize(relName))),
          sourceKey := Some(Or(sourceOverride, infl.singularize(owner) + "_id")),
          key := Some(Or(keyOverride, infl.singularize(relName) + "_id")),
          dependent := Some(Bool(false)))
    else if Given(o.belongsTo) then
      o1.(many := Some(false), kind := Some(BelongsTo),
          table := Some(Or(o.table, infl.pluralize(o.belongsTo.value))),
          key := Some(Or(keyOverride, infl.singularize(relName) + "_id")),
          dependent := Some(Bool(false)))
    else if Given(o.hasMany) then
      o1.(many := Some(true), kind := Some(HasMany),
          table := Some(Or(o.table, infl.pluralize(o.hasMany.value))),
          key := Some(Or(keyOverride, infl.singularize(owner) + "_id")),
          dependent := Some(Bool(o.dependent == Some(Bool(true)))))
    else
      o1
  }

  /** The typed relation the engine dispatches on. A relation object with no
      kind marker stays `Untyped`: nothing is saved or loaded for it, but
      destroy still consults its raw `dependent` flag and deletes by the
      `table` and `key` it was declared with, if any. */
  datatype Relation =
    | HasManyRel(name: string, table: string, key: string, dependent: bool)
    | BelongsToRel(name: string, table: string, key: string)
    | HabtmRel(name: string, table: string, key: string, sourceKey: string, throughTable: string)
    | Untyped(name: string, declaredTable: Option<string>, declaredKey: Option<string>, dependent: bool)
  {
    /** `r.dependent || r.type == 'has_and_belongs_to_many'` (model.js:109). */
    predicate Cascades() {
      match this
      case HasManyRel(_, _, _, d) => d
      case BelongsToRel(_, _, _) => false
      case HabtmRel(_, _, _, _, _) => true
      case Untyped(_, _, _, d) => d
    }
  }

  function Describe(o: RelationObject): Relation {
    var name := o.name.GetOr("");
    var dependent := o.dependent.Some? && o.dependent.value.Truthy();
    match o.kind
    case Some(HasMany) => HasManyRel(name, o.table.GetOr(""), o.key.GetOr(""), dependent)
    case Some(BelongsTo) => BelongsToRel(name, o.table.GetOr(""), o.key.GetOr(""))
    case Some(HasAndBelongsToMany) =>
      HabtmRel(name, o.table.GetOr(""), o.key.GetOr(""), o.sourceKey.GetOr(""), o.throughTable.GetOr(""))
    case None => Untyped(name, o.table, o.key, dependent)
  }

  /** The descriptor the constructor produces for a declaration. */
  function ResolveRelation(engine: Engine, infl: Inflector, owner: string, relName: string, o: RelationObject): Relation {
    Describe(Resolve(engine, infl, owner, relName, o))
  }

  /** The kind markers are tested in a fixed order: a join-table marker
      makes the other two irrelevant, and a belongs_to marker the has_many
      one, whatever values they hold. */
  lemma MarkerPrecedence(engine: Engine, infl: Inflector, owner: string, relName: string, o: RelationObject,
                         bt: Option<string>, hm: Option<string>)
    ensures Given(o.hasAndBelongsToMany) ==>
      ResolveRelation(engine, infl, owner, relName, o) == ResolveRelation(engine, infl, owner, relName, o.(belongsTo := bt, hasMany := hm))
    ensures !Given(o.hasAndBelongsToMany) && Given(o.belongsTo) ==>
      ResolveRelation(engine, infl, owner, relName, o) == ResolveRelation(engine, infl, owner, relName, o.(hasMany := hm))
  {
  }

  /** The two sides of a has_many / belongs_to pair declared without
      overrides meet in the same foreign key: the has_many side names it
      after its own table, the belongs_to side after the relation, and these
      agree when the relation's singular is the owner table's. Each side's
      table is the other model's table, and the has_many side does not
      cascade. */
  lemma {:induction false} ForeignKeyAgrees(engine: Engine, infl: Inflector, ownerTable: string, childTable: string,
                                            manyName: string, manyTarget: string, oneName: string, oneTarget: string)
    requires manyTarget != "" && oneTarget != ""
    requires infl.pluralize(manyTarget) == childTable && infl.pluralize(oneTarget) == ownerTable
    requires infl.singularize(oneName) == infl.singularize(ownerTable)
    ensures var many := ResolveRelation(engine, infl, ownerTable, manyName, Declare(HasMany, manyTarget));
            var one := ResolveRelation(engine, infl, childTable, oneName, Declare(BelongsTo, oneTarget));
      && many.HasManyRel? && one.BelongsToRel?
      && many.table == childTable && one.table == ownerTable
      && many.key == one.key == infl.singularize(ownerTable) + "_id"
      && !many.dependent
  {
    var many := Resolve(engine, infl, ownerTable, manyName, Declare(HasMany, manyTarget));
    var one := Resolve(engine, infl, childTable, oneName, Declare(BelongsTo, oneTarget));
    assert many.key == Some(infl.singularize(ownerTable) + "_id");
    assert one.key == Some(infl.singularize(oneName) + "_id");
  }

  /** A typed relation cascades on destroy exactly when it is a join-table
      relation, or a has_many relation declared with `dependent: true` (the
      literal boolean). */
  lemma CascadesExactly(engine: Engine, infl: Inflector, owner: string, relName: string, o: RelationObject)
    requires Given(o.hasAndBelongsToMany) || Given(o.belongsTo) || Given(o.hasMany)
    ensures ResolveRelation(engine, infl, owner, relName, o).Cascades()
      <==> Given(o.hasAndBelongsToMany)
           || (!Given(o.belongsTo) && Given(o.hasMany) && o.dependent == Some(Bool(true)))
  {
  }

  /** Constructing a scoped copy of a model re-runs resolution over the
      already-resolved relation objects (model.js:377-383): that second pass
      changes nothing, on either engine. */
  lemma {:induction false} ResolveIdempotent(engine: Engine, infl: Inflector, owner: string, relName: string, o: RelationObject)
    ensures var once := Resolve(engine, infl, owner, relName, o);
      Resolve(engine, infl, owner, relName, once) == once
  {
    if Given(o.hasAndBelongsToMany) {
      ResolveIdempotentHabtm(engine, infl, owner, relName, o);
    } else if Given(o.belongsTo) {
      ResolveIdempotentBelongsTo(engine, infl, owner, relName, o);
    } else if Given(o.hasMany) {
      ResolveIdempotentHasMany(engine, infl, owner, relName, o);
    }
  }

  /** `ResolveIdempotent` for a has_and_belongs_to_many declaration. */
  lemma ResolveIdempotentHabtm(engine: Engine, infl: Inflector, owner: string, relName: string, o: RelationObject)
    requires Given(o.hasAndBelongsToMany)
    ensures var once := Resolve(engine, infl, owner, relName, o);
      Resolve(engine, infl, owner, relName, once) == once
  {
    OrIdempotent(o.table, infl.pluralize(relName));
    if engine == Legacy {
      OrIdempotent(o.throughTable, JoinTableName(owner, infl.pluralize(relName)));
      OrIdempotent(o.sourceKey, infl.singularize(owner) + "_id");
      OrIdempotent(o.key, infl.singularize(relName) + "_id");
    }
  }

  /** `ResolveIdempotent` for a belongs_to declaration. */
  lemma ResolveIdempotentBelongsTo(engine: Engine, infl: Inflector, owner: string, relName: string, o: RelationObject)
    requires !Given(o.hasAndBelongsToMany) && Given(o.belongsTo)
    ensures var once := Resolve(engine, infl, owner, relName, o);
      Resolve(engine, infl, owner, relName, once) == once
  {
    OrIdempotent(o.table, infl.pluralize(o.belongsTo.value));
    if engine == Legacy {
      OrIdempotent(o.key, infl.singularize(relName) + "_id");
    }
  }

  /** `ResolveIdempotent` for a has_many declaration. */
  lemma ResolveIdempotentHasMany(engine: Engine, infl: Inflector, owner: string, relName: string, o: RelationObject)
    requires !Given(o.hasAndBelongsToMany) && !Given(o.belongsTo) && Given(o.hasMany)
    ensures var once := Resolve(engine, infl, owner, relName, o);
      Resolve(engine, infl, owner, relName, once) == once
  {
    OrIdempotent(o.table, infl.pluralize(o.hasMany.value));
    if engine == Legacy {
      OrIdempotent(o.key, infl.singularize(owner) + "_id");
    }
  }

  /** Writing back `o || d` and reading it again as the override gives the
      same value. */
  lemma OrIdempotent(o: Option<string>, d: string)
    ensures Or(Some(Or(o, d)), d) == Or(o, d)
  {
  }

  /** Two models that declare a has_and_belongs_to_many relation to each
      other under the plural table names meet in the same default join
      table, whichever side resolves it. */
  lemma {:induction false} JoinTableAgrees(infl: Inflector, tableA: string, nameA: string, tableB: string, nameB: string)
    requires nameA != "" && nameB != ""
    requires infl.pluralize(nameA) == tableB && infl.pluralize(nameB) == tableA
    ensures var a := ResolveRelation(Current, infl, tableA, nameA, Declare(HasAndBelongsToMany, nameA));
            var b := ResolveRelation(Current, infl, tableB, nameB, Declare(HasAndBelongsToMany, nameB));
      && a.HabtmRel? && b.HabtmRel?
      && a.throughTable == b.throughTable == JoinTableName(tableA, tableB)
  {
    Sort2Symmetric(tableA, tableB);
  }

  /** The older engine ignores `foreign_key`, `primary_key` and `through`:
      changing them does not change the resolved descriptor. The current
      engine, symmetrically, ignores declared `source_key` and
      `through_table` on a declaration that does not already carry a
      resolved `type`, and `key` too once a kind marker is given; without
      one, `key` is what destroy deletes by. */
  lemma OverrideKeysDiffer(infl: Inflector, owner: string, relName: string, o: RelationObject,
                           fk: Option<string>, pk: Option<string>, th: Option<string>)
    requires o.kind == None
    ensures ResolveRelation(Legacy, infl, owner, relName, o)
         == ResolveRelation(Legacy, infl, owner, relName, o.(foreignKey := fk, primaryKey := pk, through := th))
    ensures ResolveRelation(Current, infl, owner, relName, o)
         == ResolveRelation(Current, infl, owner, relName, o.(sourceKey := pk, throughTable := th))
    ensures Given(o.hasAndBelongsToMany) || Given(o.belongsTo) || Given(o.hasMany) ==>
      ResolveRelation(Current, infl, owner, relName, o)
      == ResolveRelation(Current, infl, owner, relName, o.(key := fk, sourceKey := pk, throughTable := th))
  {
    LegacyIgnoresCurrentKeys(infl, owner, relName, o, fk, pk, th);
    CurrentIgnoresLegacyKeys(infl, owner, relName, o, fk, pk, th);
  }

  /** The older engine's half of `OverrideKeysDiffer`. */
  lemma LegacyIgnoresCurrentKeys(infl: Inflector, owner: string, relName: string, o: RelationObject,
                                 fk: Option<string>, pk: Option<string>, th: Option<string>)
    requires o.kind == None
    ensures ResolveRelation(Legacy, infl, owner, relName, o)
         == ResolveRelation(Legacy, infl, owner, relName, o.(foreignKey := fk, primaryKey := pk, through := th))
  {
    var o' := o.(foreignKey := fk, primaryKey := pk, through := th);
    if Given(o.hasAndBelongsToMany) {
      ResolveSameReads(Legacy, infl, owner, relName, o, o', 0);
    } else if Given(o.belongsTo) {
      ResolveSameReads(Legacy, infl, owner, relName, o, o', 1);
    } else if Given(o.hasMany) {
      ResolveSameReads(Legacy, infl, owner, relName, o, o', 2);
    } else {
      ResolveSameReads(Legacy, infl, owner, relName, o, o', 3);
    }
  }

  /** Two declarations that agree on everything the resolver reads, in the
      branch `branch` of its kind test, resolve to the same descriptor. */
  lemma ResolveSameReads(engine: Engine, infl: Inflector, owner: string, relName: string, o: RelationObject, o': RelationObject, branch: nat)
    requires o.hasAndBelongsToMany == o'.hasAndBelongsToMany && o.belongsTo == o'.belongsTo && o.hasMany == o'.hasMany
    requires o.table == o'.table && o.dependent == o'.dependent
    requires engine == Legacy ==> o.throughTable == o'.throughTable && o.sourceKey == o'.sourceKey && o.key == o'.key
    requires engine == Current ==> o.through == o'.through && o.primaryKey == o'.primaryKey && o.foreignKey == o'.foreignKey
    requires branch == 0 <==> Given(o.hasAndBelongsToMany)
    requires branch == 1 <==> !Given(o.hasAndBelongsToMany) && Given(o.belongsTo)
    requires branch == 2 <==> !Given(o.hasAndBelongsToMany) && !Given(o.belongsTo) && Given(o.hasMany)
    requires branch == 3 <==> !Given(o.hasAndBelongsToMany) && !Given(o.belongsTo) && !Given(o.hasMany)
    requires branch == 3 ==> o.kind == o'.kind && o.throughTable == o'.throughTable && o.sourceKey == o'.sourceKey && o.key == o'.key
    ensures ResolveRelation(engine, infl, owner, relName, o) == ResolveRelation(engine, infl, owner, relName, o')
  {
  }

  /** The current engine's half of `OverrideKeysDiffer`. */
  lemma CurrentIgnoresLegacyKeys(infl: Inflector, owner: string, relName: string, o: RelationObject,
                                 fk: Option<string>, pk: Option<string>, th: Option<string>)
    requires o.kind == None
    ensures ResolveRelation(Current, infl, owner, relName, o)
         == ResolveRelation(Current, infl, owner, relName, o.(sourceKey := pk, throughTable := th))
    ensures Given(o.hasAndBelongsToMany) || Given(o.belongsTo) || Given(o.hasMany) ==>
      ResolveRelation(Current, infl, owner, relName, o)
      == ResolveRelation(Current, infl, owner, relName, o.(key := fk, sourceKey := pk, throughTable := th))
  {
  }
}

=== FILE: scaffold.dfy ===
/** The scaffolding helpers of util.js: guessing a migration's columns and
    its table from the command-line arguments and the migration's name, the
    normalisation of the `timestamps` setting, and the assembly of the
    configuration from `package.json`, discovered directories and explicit
    overrides. The file system is a predicate saying which paths exist. */
module Scaffold {
  import opened Js
  import opened Text

  /** The length of the `-to-`, `-for-` or `-on-` separator that starts at
      `p`, or 0 when none does. */
  function SeparatorAt(s: string, p: nat): (n: nat)
    ensures n == 0 || n == 4 || n == 5
    ensures n > 0 ==> p + n <= |s|
  {
    if StartsAt(s, "-to-", p) then 4
    else if StartsAt(s, "-for-", p) then 5
    else if StartsAt(s, "-on-", p) then 4
    else 0
  }

  /** The first separator at or after `from`. */
  function FirstSeparator(s: string, from: nat): (r: Option<nat>)
    ensures r.Some? ==> from <= r.value && SeparatorAt(s, r.value) > 0
    ensures r.Some? ==> forall j :: from <= j < r.value ==> SeparatorAt(s, j) == 0
    ensures r.None? ==> forall j :: from <= j < |s| ==> SeparatorAt(s, j) == 0
    decreases |s| - from
  {
    if from >= |s| then None
    else if SeparatorAt(s, from) > 0 then Some(from)
    else FirstSeparator(s, from + 1)
  }

  /** `(.*?)-(to|for|on)-(.*?)$` from position `start`: the shortest text up
      to a separator, and everything after it. The `.` of a regular
      expression matches no line terminator, so a name holding one never
      matches. */
  function SplitAtSeparator(s: string, start: nat): (r: Option<(string, string)>)
    requires start <= |s|
    ensures r.Some? ==> NoLineTerminator(s) && CutAtSeparator(s, start, r.value.0, r.value.1)
    ensures r.None? && NoLineTerminator(s) ==> forall j :: start <= j < |s| ==> SeparatorAt(s, j) == 0
  {
    var f := FirstSeparator(s, start);
    if !NoLineTerminator(s) || f.None? then None
    else
      var p := f.value;
      CutAtFirst(s, start, p);
      Some((s[start..p], s[p + SeparatorAt(s, p)..]))
  }

  /** `s` from `start` is `head`, then a separator, then `tail`, and no
      separator starts inside `head`. */
  predicate CutAtSeparator(s: string, start: nat, head: string, tail: string) {
    var p := start + |head|;
    var n := SeparatorAt(s, p);
    && start <= |s| && n > 0 && p + n <= |s|
    && s == s[..start] + head + s[p..p + n] + tail
    && (forall j :: start <= j < p ==> SeparatorAt(s, j) == 0)
  }

  /** Cutting at the first separator from `start`. */
  lemma CutAtFirst(s: string, start: nat, p: nat)
    requires start <= p && SeparatorAt(s, p) > 0
    requires forall j :: start <= j < p ==> SeparatorAt(s, j) == 0
    ensures CutAtSeparator(s, start, s[start..p], s[p + SeparatorAt(s, p)..])
  {
    var n := SeparatorAt(s, p);
    assert s == s[..start] + s[start..p] + s[p..p + n] + s[p + n..] by {
      assert s[..p] == s[..start] + s[start..p];
      assert s[..p + n] == s[..p] + s[p..p + n];
    }
  }

  /** The length of an `add-` or `update-` prefix, 0 when there is none. */
  function VerbLength(s: string): (n: nat)
    ensures n <= |s|
  {
    if StartsAt(s, "add-", 0) then 4 else if StartsAt(s, "update-", 0) then 7 else 0
  }

  /** `/^(add|update)\-(.*?)-(to|for|on)-(.*?)$/`: the columns part and the
      table part of a migration name. */
  function MatchVerbName(s: string): (r: Option<(string, string)>)
    ensures r.Some? ==> VerbLength(s) > 0
    ensures VerbLength(s) > 0 ==> r == SplitAtSeparator(s, VerbLength(s))
  {
    if VerbLength(s) == 0 then None else SplitAtSeparator(s, VerbLength(s))
  }

  /** `/^(.*?)-(to|for|on)-(.*?)$/`. */
  function MatchTableName(s: string): (r: Option<(string, string)>)
    ensures r == SplitAtSeparator(s, 0)
  {
    SplitAtSeparator(s, 0)
  }

  /** Where one of the three separators starts, its whole length is read. */
  lemma SeparatorAtKnown(s: string, sep: string, p: nat)
    requires sep == "-to-" || sep == "-for-" || sep == "-on-"
    requires StartsAt(s, sep, p)
    ensures SeparatorAt(s, p) == |sep|
  {
    assert s[p + 1] == sep[1] by { assert s[p..p + |sep|][1] == s[p + 1]; }
    if sep != "-to-" {
      assert s[p..p + 4][1] == s[p + 1];
    }
    if sep == "-on-" {
      if p + 5 <= |s| {
        assert s[p..p + 5][1] == s[p + 1];
      }
    }
  }

  /** Where one of the two verbs starts a name, its whole length is read. */
  lemma VerbLengthKnown(s: string, verb: string)
    requires verb == "add-" || verb == "update-"
    requires StartsAt(s, verb, 0)
    ensures VerbLength(s) == |verb|
  {
    if verb == "update-" {
      assert s[0] == 'u' by { assert s[0..7][0] == s[0]; }
    }
  }

  /** A name built from a prefix, a part with no separator in it, a
      separator and a tail is cut right at that separator. */
  lemma SplitAtSeparatorInverts(prefix: string, part: string, sep: string, tail: string)
    requires sep == "-to-" || sep == "-for-" || sep == "-on-"
    requires NoLineTerminator(prefix + part + sep + tail)
    requires forall j :: |prefix| <= j < |prefix| + |part| ==> SeparatorAt(prefix + part + sep + tail, j) == 0
    ensures SplitAtSeparator(prefix + part + sep + tail, |prefix|) == Some((part, tail))
  {
    var s := prefix + part + sep + tail;
    var p := |prefix| + |part|;
    assert s[p..p + |sep|] == sep;
    SeparatorAtKnown(s, sep, p);
    assert FirstSeparator(s, |prefix|) == Some(p);
    assert s[|prefix|..p] == part;
    assert s[p + |sep|..] == tail;
  }

  /** A migration name built from a verb, a columns part with no separator
      in it, a separator and a table part is taken apart into those parts:
      matching inverts building. */
  lemma MatchVerbNameInverts(verb: string, columns: string, sep: string, table: string)
    requires verb == "add-" || verb == "update-"
    requires sep == "-to-" || sep == "-for-" || sep == "-on-"
    requires NoLineTerminator(verb + columns + sep + table)
    requires forall j :: |verb| <= j < |verb| + |columns| ==> SeparatorAt(verb + columns + sep + table, j) == 0
    ensures MatchVerbName(verb + columns + sep + table) == Some((columns, table))
  {
    var s := verb + columns + sep + table;
    assert s[..|verb|] == verb;
    VerbLengthKnown(s, verb);
    SplitAtSeparatorInverts(verb, columns, sep, table);
  }

  /** A guessed column. `index` is the truthiness of what the source
      computes for it. */
  datatype Column = Column(kind: string, name: string, index: bool)

  /** `name.toLowerCase()` ends in `at` or `id`: timestamps and keys are
      indexed. */
  predicate IndexedName(name: string) {
    EndsWith(Lower(name), "at") || EndsWith(Lower(name), "id")
  }

  /** The arguments that contain a `:`, in order. */
  function ColonArgs(args: seq<string>): (r: seq<string>)
    ensures |r| <= |args|
    ensures forall a :: a in r <==> a in args && Contains(a, ":")
  {
    if |args| == 0 then []
    else (if Contains(args[0], ":") then [args[0]] else []) + ColonArgs(args[1..])
  }

  lemma SplitOfContains(s: string, sep: string)
    requires |sep| > 0 && Contains(s, sep)
    ensures |Split(s, sep)| >= 2
  {
  }

  /** One `name:type[:index]` argument: its first part names the column,
      its second gives the type, and a non-empty third part asks for an
      index, which timestamp and key names get anyway. */
  function ColumnFromArg(arg: string): (c: Column)
    requires Contains(arg, ":")
    ensures var parts := Split(arg, ":");
      |parts| >= 2 && c.name == parts[0] && c.kind == parts[1]
      && (c.index <==> IndexedName(parts[0]) || (|parts| >= 3 && parts[2] != ""))
  {
    SplitOfContains(arg, ":");
    var parts := Split(arg, ":");
    Column(parts[1], parts[0], IndexedName(parts[0]) || (|parts| >= 3 && parts[2] != ""))
  }

  /** A text without the separator splits into itself alone. */
  lemma SplitFree(s: string, sep: string)
    requires |sep| > 0 && !Contains(s, sep)
    ensures Split(s, sep) == [s]
  {
  }

  /** A column named and typed without `:` is read back from its argument. */
  lemma ColumnFromArgInverts(name: string, kind: string)
    requires !Contains(name, ":") && !Contains(kind, ":")
    ensures Contains(name + ":" + kind, ":") && ColumnFromArg(name + ":" + kind) == Column(kind, name, IndexedName(name))
  {
    var s := name + ":" + kind;
    assert StartsAt(s, ":", |name|) by { assert s[|name|..|name| + 1] == ":"; }
    SplitFreeHead(name, ":", kind);
    SplitFree(kind, ":");
  }

  /** With an index part too, a non-empty one asks for an index. */
  lemma IndexedColumnFromArgInverts(name: string, kind: string, index: string)
    requires !Contains(name, ":") && !Contains(kind, ":") && !Contains(index, ":")
    ensures var arg := name + ":" + kind + ":" + index;
      Contains(arg, ":") && ColumnFromArg(arg) == Column(kind, name, IndexedName(name) || index != "")
  {
    var arg := name + ":" + kind + ":" + index;
    assert arg == name + ":" + (kind + ":" + index);
    assert StartsAt(arg, ":", |name|) by { assert arg[|name|..|name| + 1] == ":"; }
    SplitFreeHead(name, ":", kind + ":" + index);
    SplitFreeHead(kind, ":", index);
    SplitFree(index, ":");
    assert Split(arg, ":") == [name, kind, index];
  }

  /** Splitting at a one-character separator a text whose head does not
      hold it cuts right after the head. */
  lemma SplitFreeHead(head: string, sep: string, rest: string)
    requires |sep| == 1 && !Contains(head, sep)
    ensures Split(head + sep + rest, sep) == [head] + Split(rest, sep)
  {
    var s := head + sep + rest;
    assert StartsAt(s, sep, |head|) by { assert s[|head|..|head| + |sep|] == sep; }
    forall j | 0 <= j < |head|
      ensures !StartsAt(s, sep, j)
    {
      if StartsAt(s, sep, j) {
        assert head[j..j + |sep|] == s[j..j + |sep|];
        assert StartsAt(head, sep, j);
      }
    }
    assert Find(s, sep, 0) == Some(|head|);
    assert s[..|head|] == head;
    assert s[|head| + |sep|..] == rest;
  }

  /** The columns of a migration named after its columns: each `-and-`
      separated piece, underscored and camel-cased, as a string column. */
  function ColumnsFromName(infl: Inflector, pieces: seq<string>): (r: seq<Column>)
    ensures |r| == |pieces|
    ensures forall i :: 0 <= i < |pieces| ==>
      (var name := infl.camelizeLower(infl.underscore(pieces[i]));
       r[i] == Column("string", name, IndexedName(name)))
  {
    seq(|pieces|, i requires 0 <= i < |pieces| =>
      var name := infl.camelizeLower(infl.underscore(pieces[i]));
      Column("string", name, IndexedName(name)))
  }

  /** `guessColumns(args, name)` as the function is meant to work: the
      `name:type[:index]` arguments when there are any, otherwise the
      columns the migration name lists, otherwise none. An absent name is
      the empty one. */
  function GuessColumns(infl: Inflector, args: seq<string>, name: string): (r: seq<Column>)
    ensures |ColonArgs(args)| > 0 ==>
      |r| == |ColonArgs(args)| && forall i :: 0 <= i < |r| ==> r[i] == ColumnFromArg(ColonArgs(args)[i])
    ensures |ColonArgs(args)| == 0 && MatchVerbName(name).None? ==> r == []
    ensures |ColonArgs(args)| == 0 && MatchVerbName(name).Some? ==>
      r == ColumnsFromName(infl, Split(MatchVerbName(name).value.0, "-and-"))
  {
    var colon := ColonArgs(args);
    if |colon| > 0 then
      seq(|colon|, i requires 0 <= i < |colon| => ColumnFromArg(colon[i]))
    else
      match MatchVerbName(name)
      case None => []
      case Some((columns, _)) => ColumnsFromName(infl, Split(columns, "-and-"))
  }

  /** `guessColumns` as written: the name branch calls an `Inflect` the file
      never binds, so any name that matches throws instead of listing
      columns. */
  function GuessColumnsAsWritten(infl: Inflector, args: seq<string>, name: string): (r: Result<seq<Column>>)
    ensures r.Err? <==> |ColonArgs(args)| == 0 && MatchVerbName(name).Some?
    ensures r.Err? ==> r.error == ReferenceError("Inflect")
  {
    var colon := ColonArgs(args);
    if |colon| == 0 && MatchVerbName(name).Some? then Err(ReferenceError("Inflect"))
    else Ok(GuessColumns(infl, args, name))
  }

  /** Off the name branch the function as written and as meant agree. */
  lemma GuessColumnsAgree(infl: Inflector, args: seq<string>, name: string)
    requires |ColonArgs(args)| > 0 || MatchVerbName(name).None?
    ensures GuessColumnsAsWritten(infl, args, name) == Ok(GuessColumns(infl, args, name))
  {
  }

  /** `add-email-to-users` with no `name:type` argument: the corrected
      function gives one string column `email`-as-inflected, the function
      as written throws. */
  lemma GuessColumnsFromNameWitness(infl: Inflector)
    ensures GuessColumnsAsWritten(infl, [], "add-email-to-users") == Err(ReferenceError("Inflect"))
    ensures var name := infl.camelizeLower(infl.underscore("email"));
      GuessColumns(infl, [], "add-email-to-users") == [Column("string", name, IndexedName(name))]
  {
    EmailToUsersMatches();
    assert ColonArgs([]) == [];
    EmailIsOnePiece();
    var cols := ColumnsFromName(infl, ["email"]);
    assert GuessColumns(infl, [], "add-email-to-users") == cols;
    assert |cols| == 1 && cols == [cols[0]];
  }

  /** `email` holds no `-and-`. */
  lemma EmailIsOnePiece()
    ensures Split("email", "-and-") == ["email"]
  {
    var e := "email";
    assert forall i :: 0 <= i < |e| ==> e[i] != '-';
    FreeOfNotContains(e, "-and-");
    SplitFree(e, "-and-");
  }

  /** `add-email-to-users` matches with columns `email` and table `users`. */
  lemma EmailToUsersMatches()
    ensures MatchVerbName("add-email-to-users") == Some(("email", "users"))
  {
    var s := "add-" + "email" + "-to-" + "users";
    assert s == "add-email-to-users";
    forall j | 4 <= j < 9
      ensures SeparatorAt(s, j) == 0
    {
      assert s[j] != '-';
      assert s[j..j + 4][0] == s[j];
      assert s[j..j + 5][0] == s[j];
    }
    MatchVerbNameInverts("add-", "email", "-to-", "users");
  }

  /** A migration named `verb-columns-sep-table` lists one string column per
      `-and-` piece of `columns`, in order. */
  lemma GuessColumnsFromNameInverts(infl: Inflector, verb: string, columns: string, sep: string, table: string)
    requires verb == "add-" || verb == "update-"
    requires sep == "-to-" || sep == "-for-" || sep == "-on-"
    requires NoLineTerminator(verb + columns + sep + table)
    requires forall j :: |verb| <= j < |verb| + |columns| ==> SeparatorAt(verb + columns + sep + table, j) == 0
    ensures var pieces := Split(columns, "-and-");
      var r := GuessColumns(infl, [], verb + columns + sep + table);
      |r| == |pieces| && forall i :: 0 <= i < |r| ==> r[i].kind == "string" && r[i].name == infl.camelizeLower(infl.underscore(pieces[i]))
  {
    MatchVerbNameInverts(verb, columns, sep, table);
  }

  /** `guessTableName(name)` as meant: the underscored text after the first
      separator, or the empty name when there is none. */
  function GuessTableName(infl: Inflector, name: string): (r: string)
    ensures MatchTableName(name).None? ==> r == ""
    ensures MatchTableName(name).Some? ==> r == infl.underscore(MatchTableName(name).value.1)
  {
    match MatchTableName(name)
    case None => ""
    case Some((_, table)) => infl.underscore(table)
  }

  /** `guessTableName` as written: a name that matches reaches the unbound
      `Inflect` and throws. */
  function GuessTableNameAsWritten(infl: Inflector, name: string): (r: Result<string>)
    ensures r.Err? <==> MatchTableName(name).Some?
    ensures r.Err? ==> r.error == ReferenceError("Inflect")
    ensures r.Ok? ==> r.value == ""
  {
    if MatchTableName(name).Some? then Err(ReferenceError("Inflect")) else Ok("")
  }

  /** A name `head-sep-table` whose head holds no separator names the
      underscored `table`. */
  lemma GuessTableNameInverts(infl: Inflector, head: string, sep: string, table: string)
    requires sep == "-to-" || sep == "-for-" || sep == "-on-"
    requires NoLineTerminator(head + sep + table)
    requires forall j :: 0 <= j < |head| ==> SeparatorAt(head + sep + table, j) == 0
    ensures GuessTableName(infl, head + sep + table) == infl.underscore(table)
    ensures GuessTableNameAsWritten(infl, head + sep + table) == Err(ReferenceError("Inflect"))
  {
    assert "" + head + sep + table == head + sep + table;
    SplitAtSeparatorInverts("", head, sep, table);
  }

  /** `process.env.APP_ROOT || guessRootPath() + '/tmp'`: an empty variable
      counts as unset. Creating the directory is not modelled. */
  function RootPath(appRoot: Option<string>, guessed: string): (r: string)
    ensures appRoot.Some? && appRoot.value != "" ==> r == appRoot.value
    ensures appRoot.None? || appRoot.value == "" ==> r == guessed + "/tmp"
  {
    if appRoot.Some? && appRoot.value != "" then appRoot.value else guessed + "/tmp"
  }

  /** `Path.join(base, p)` without normalisation. */
  function PathJoin(base: string, p: string): string {
    base + "/" + p
  }

  /** The index `paths.find` stops at: the first path whose join with `base`
      exists. */
  function FirstExisting(base: string, paths: seq<string>, onDisk: string -> bool): (r: Option<nat>)
    ensures r.Some? ==> r.value < |paths| && onDisk(PathJoin(base, paths[r.value]))
    ensures r.Some? ==> forall j :: 0 <= j < r.value ==> !onDisk(PathJoin(base, paths[j]))
    ensures r.None? ==> forall j :: 0 <= j < |paths| ==> !onDisk(PathJoin(base, paths[j]))
  {
    if |paths| == 0 then None
    else if onDisk(PathJoin(base, paths[0])) then Some(0)
    else
      match FirstExisting(base, paths[1..], onDisk)
      case None => None
      case Some(i) => Some(i + 1)
  }

  /** `firstPathThatExists(base, paths)`: the first candidate that exists
      under `base`, else the first candidate. The candidate is returned as
      given, relative to `base`; an empty one found is falsy and gives way
      to the first; with no candidates the result is `undefined`. */
  function FirstPathThatExists(base: string, paths: seq<string>, onDisk: string -> bool): (r: Option<string>)
    ensures r.Some? <==> |paths| > 0
    ensures r.Some? ==> r.value in paths
    ensures forall i :: (0 <= i < |paths| && onDisk(PathJoin(base, paths[i])) && paths[i] != ""
      && (forall j :: 0 <= j < i ==> !onDisk(PathJoin(base, paths[j])))) ==> r == Some(paths[i])
    ensures (forall i :: 0 <= i < |paths| ==> !onDisk(PathJoin(base, paths[i]))) && |paths| > 0 ==> r == Some(paths[0])
  {
    match FirstExisting(base, paths, onDisk)
    case Some(i) => if paths[i] != "" then Some(paths[i]) else Some(paths[0])
    case None => if |paths| > 0 then Some(paths[0]) else None
  }

  const MigrationDirs: seq<string> := ["migrations", "db/migrations", "src/migrations", "server/migrations"]
  const ModelDirs: seq<string> := ["server/models", "src/models", "db/models", "models"]

  /** The `timestamps` setting with `true` spelled out as the default
      column name. An object keeps its other keys; `false` turns both
      columns off; an unset setting names both columns; null, whose
      `typeof` is "object", throws on the first assignment; anything else
      stays as it is. A key the object lacks stays absent. */
  function NormaliseTimestamps(t: Option<Value>): (r: Result<Value>)
    ensures r.Err? <==> t == Some(Null)
    ensures t.None? ==> r == Ok(Obj(map["createdAt" := Str("createdAt"), "updatedAt" := Str("updatedAt")]))
    ensures t == Some(Bool(false)) ==> r == Ok(Obj(map["createdAt" := Bool(false), "updatedAt" := Bool(false)]))
    ensures t.Some? && t.value.Obj? ==>
      (r.Ok? && r.value.Obj? && r.value.fields.Keys == t.value.fields.Keys
       && (forall k :: k in r.value.fields && k != "createdAt" && k != "updatedAt" ==> r.value.fields[k] == t.value.fields[k])
       && (forall k :: k in r.value.fields ==>
             r.value.fields[k] == (if (k == "createdAt" || k == "updatedAt") && t.value.fields[k] == Bool(true) then Str(k) else t.value.fields[k])))
    ensures t.Some? && !t.value.Obj? && t != Some(Null) && t != Some(Bool(false)) ==> r == Ok(t.value)
  {
    match t
    case None => Ok(Obj(map["createdAt" := Str("createdAt"), "updatedAt" := Str("updatedAt")]))
    case Some(Null) => Err(TypeError("Cannot set property 'createdAt' of null"))
    case Some(Bool(false)) => Ok(Obj(map["createdAt" := Bool(false), "updatedAt" := Bool(false)]))
    case Some(Obj(f)) => Ok(Obj(SpellOut(SpellOut(f, "createdAt"), "updatedAt")))
    case Some(v) => Ok(v)
  }

  /** One key of a timestamps object with `true` replaced by the key. */
  function SpellOut(f: Fields, key: string): (r: Fields)
    ensures r.Keys == f.Keys
    ensures forall k :: k in f && k != key ==> r[k] == f[k]
    ensures key in f ==> r[key] == (if f[key] == Bool(true) then Str(key) else f[key])
  {
    if key in f && f[key] == Bool(true) then f[key := Str(key)] else f
  }

  /** Normalising a normalised setting changes nothing: no `true` is left
      to spell out, and the default objects are already normal. */
  lemma NormaliseTimestampsIdempotent(t: Option<Value>)
    requires NormaliseTimestamps(t).Ok?
    ensures NormaliseTimestamps(Some(NormaliseTimestamps(t).value)) == NormaliseTimestamps(t)
  {
    var r := NormaliseTimestamps(t).value;
    if t.Some? && t.value.Obj? {
      assert SpellOut(SpellOut(r.fields, "createdAt"), "updatedAt") == r.fields;
    }
  }

  /** What `require(root + '/package.json')` gives: a file that cannot be
      read or parsed, or the parsed file's `klein` section (absent when the
      file has none). */
  datatype Package = Unreadable | Parsed(klein: Option<Value>)

  /** A property of the settings section: only an object has one. */
  function Setting(section: Value, key: string): (r: Option<Value>)
    ensures r.Some? <==> section.Obj? && key in section.fields
  {
    if section.Obj? && key in section.fields then Some(section.fields[key]) else None
  }

  /** The configuration assembled from a settings section that can be read:
      each path is the section's truthy setting or the first candidate
      directory that exists, the timestamps are normalised, and every
      override replaces what was found. */
  function Assemble(root: string, section: Value, onDisk: string -> bool, overrides: Fields): (r: Result<Fields>)
    ensures r.Err? <==> Setting(section, "timestamps") == Some(Null)
    ensures r.Ok? ==> r.value.Keys == {"rootPath", "migrationsPath", "modelsPath", "timestamps"} + overrides.Keys
    ensures r.Ok? ==> forall k :: k in overrides ==> r.value[k] == overrides[k]
    ensures r.Ok? && "rootPath" !in overrides ==> r.value["rootPath"] == Str(root)
    ensures r.Ok? && "migrationsPath" !in overrides ==>
      (match Setting(section, "migrationsPath")
       case Some(v) => if v.Truthy() then r.value["migrationsPath"] == v else r.value["migrationsPath"] == Str(FirstPathThatExists(root, MigrationDirs, onDisk).value)
       case None => r.value["migrationsPath"] == Str(FirstPathThatExists(root, MigrationDirs, onDisk).value))
    ensures r.Ok? && "modelsPath" !in overrides ==>
      (match Setting(section, "modelsPath")
       case Some(v) => if v.Truthy() then r.value["modelsPath"] == v else r.value["modelsPath"] == Str(FirstPathThatExists(root, ModelDirs, onDisk).value)
       case None => r.value["modelsPath"] == Str(FirstPathThatExists(root, ModelDirs, onDisk).value))
    ensures r.Ok? && "timestamps" !in overrides ==>
      Ok(r.value["timestamps"]) == NormaliseTimestamps(Setting(section, "timestamps"))
  {
    var migrations := match Setting(section, "migrationsPath")
      case Some(v) => if v.Truthy() then v else Str(FirstPathThatExists(root, MigrationDirs, onDisk).value)
      case None => Str(FirstPathThatExists(root, MigrationDirs, onDisk).value);
    var models := match Setting(section, "modelsPath")
      case Some(v) => if v.Truthy() then v else Str(FirstPathThatExists(root, ModelDirs, onDisk).value)
      case None => Str(FirstPathThatExists(root, ModelDirs, onDisk).value);
    var timestamps :- NormaliseTimestamps(Setting(section, "timestamps"));
    Ok(map["rootPath" := Str(root), "migrationsPath" := migrations, "modelsPath" := models, "timestamps" := timestamps] + overrides)
  }

  /** `getConfig(overrides)` as written: a readable `package.json` with no
      `klein` section, or a null one, leaves the section `undefined` or
      null, and the first setting read from it throws. */
  function GetConfigAsWritten(appRoot: Option<string>, guessed: string, pkg: Package, onDisk: string -> bool, overrides: Fields): (r: Result<Fields>)
    ensures pkg == Parsed(None) ==> r == Err(TypeError("Cannot read property 'migrationsPath' of undefined"))
    ensures pkg == Parsed(Some(Null)) ==> r == Err(TypeError("Cannot read property 'migrationsPath' of null"))
    ensures pkg.Unreadable? ==> r == Assemble(RootPath(appRoot, guessed), Obj(map[]), onDisk, overrides)
    ensures pkg.Parsed? && pkg.klein.Some? && pkg.klein.value != Null ==>
      r == Assemble(RootPath(appRoot, guessed), pkg.klein.value, onDisk, overrides)
  {
    var root := RootPath(appRoot, guessed);
    match pkg
    case Unreadable => Assemble(root, Obj(map[]), onDisk, overrides)
    case Parsed(None) => Err(TypeError("Cannot read property 'migrationsPath' of undefined"))
    case Parsed(Some(Null)) => Err(TypeError("Cannot read property 'migrationsPath' of null"))
    case Parsed(Some(section)) => Assemble(root, section, onDisk, overrides)
  }

  /** `getConfig(overrides)` as meant: a missing or empty `klein` section
      means no settings, as an unreadable file does. */
  function GetConfig(appRoot: Option<string>, guessed: string, pkg: Package, onDisk: string -> bool, overrides: Fields): (r: Result<Fields>)
    ensures r.Err? <==> pkg.Parsed? && pkg.klein.Some? && pkg.klein.value.Truthy() && Setting(pkg.klein.value, "timestamps") == Some(Null)
    ensures r.Ok? ==> r.value.Keys == {"rootPath", "migrationsPath", "modelsPath", "timestamps"} + overrides.Keys
    ensures r.Ok? && "rootPath" !in overrides ==> r.value["rootPath"] == Str(RootPath(appRoot, guessed))
    ensures r.Ok? ==> forall k :: k in overrides ==> r.value[k] == overrides[k]
  {
    var section := if pkg.Parsed? && pkg.klein.Some? && pkg.klein.value.Truthy() then pkg.klein.value else Obj(map[]);
    Assemble(RootPath(appRoot, guessed), section, onDisk, overrides)
  }

  /** Wherever the function as written returns, the corrected one returns
      the same; they part only where a readable file lacks the section. */
  lemma GetConfigAgrees(appRoot: Option<string>, guessed: string, pkg: Package, onDisk: string -> bool, overrides: Fields)
    requires pkg.Unreadable? || (pkg.klein.Some? && pkg.klein.value.Truthy())
    ensures GetConfigAsWritten(appRoot, guessed, pkg, onDisk, overrides) == GetConfig(appRoot, guessed, pkg, onDisk, overrides)
  {
  }

  /** A `package.json` without a `klein` section and no directories on disk:
      the corrected configuration falls back on the first candidates, the
      function as written throws. */
  lemma GetConfigWithoutSectionWitness(guessed: string, onDisk: string -> bool)
    requires forall p :: !onDisk(p)
    ensures GetConfigAsWritten(None, guessed, Parsed(None), onDisk, map[]).Err?
    ensures GetConfig(None, guessed, Parsed(None), onDisk, map[]) == Ok(map[
      "rootPath" := Str(guessed + "/tmp"),
      "migrationsPath" := Str("migrations"),
      "modelsPath" := Str("server/models"),
      "timestamps" := Obj(map["createdAt" := Str("createdAt"), "updatedAt" := Str("updatedAt")])])
  {
    var root := guessed + "/tmp";
    assert FirstPathThatExists(root, MigrationDirs, onDisk) == Some("migrations");
    assert FirstPathThatExists(root, ModelDirs, onDisk) == Some("server/models");
    var empty: Fields := map[];
    assert GetConfig(None, guessed, Parsed(None), onDisk, empty) == Assemble(root, Obj(empty), onDisk, empty);
    var r := Assemble(root, Obj(empty), onDisk, empty);
    assert r.Ok?;
    assert r.value.Keys == {"rootPath", "migrationsPath", "modelsPath", "timestamps"};
    assert Setting(Obj(empty), "migrationsPath").None? && Setting(Obj(empty), "modelsPath").None?;
    assert r.value["migrationsPath"] == Str("migrations");
    assert r.value["modelsPath"] == Str("server/models");
    assert r.value["timestamps"] == Obj(map["createdAt" := Str("createdAt"), "updatedAt" := Str("updatedAt")]);
    assert r.value["rootPath"] == Str(root);
    assert r.value == map[
      "rootPath" := Str(guessed + "/tmp"),
      "migrationsPath" := Str("migrations"),
      "modelsPath" := Str("server/models"),
      "timestamps" := Obj(map["createdAt" := Str("createdAt"), "updatedAt" := Str("updatedAt")])];
  }
}

=== FILE: store.dfy ===
/** The database the engine writes through, as pure operations on an
    in-memory map from table name to its rows in insertion order. The query
    builder's where clauses become `Cond` values, with the SQL meaning the
    engine relies on: `where(col, null)` compiles to `IS NULL`, a `NULL`
    column is never `IN` a list, and `whereNotIn(col, [])` compiles to a
    condition that always holds. */
module Store {
  import opened Js

  type Row = map<string, Scalar>
  type Db = map<string, seq<Row>>

  /** The value of a column; a column the row does not have reads as null. */
  function Col(r: Row, c: string): Scalar {
    if c in r then r[c] else Null
  }

  /** The rows of a table; a table never written to is empty. */
  function Rows(db: Db, t: string): seq<Row> {
    if t in db then db[t] else []
  }

  datatype Cond =
    | Eq(col: string, v: Scalar)          // where(col, v)
    | In(col: string, vs: seq<Scalar>)    // whereIn(col, vs)
    | NotIn(col: string, vs: seq<Scalar>) // whereNotIn(col, vs)

  predicate Holds(r: Row, c: Cond) {
    match c
    case Eq(col, v) => Col(r, col) == v
    case In(col, vs) => Col(r, col) != Null && Col(r, col) in vs
    case NotIn(col, vs) => |vs| == 0 || (Col(r, col) != Null && Null !in vs && Col(r, col) !in vs)
  }

  predicate MatchesAll(r: Row, cs: seq<Cond>) {
    forall i :: 0 <= i < |cs| ==> Holds(r, cs[i])
  }

  /** The rows a select with these conditions returns, in table order. */
  function Select(rows: seq<Row>, cs: seq<Cond>): (r: seq<Row>)
    ensures |r| <= |rows|
    ensures forall x :: x in r <==> x in rows && MatchesAll(x, cs)
  {
    if |rows| == 0 then []
    else (if MatchesAll(rows[0], cs) then [rows[0]] else []) + Select(rows[1..], cs)
  }

  /** The table after a delete: the rows that do not match, in order. */
  function DeleteRows(rows: seq<Row>, cs: seq<Cond>): (r: seq<Row>)
    ensures |r| <= |rows|
    ensures forall x :: x in r <==> x in rows && !MatchesAll(x, cs)
  {
    if |rows| == 0 then []
    else (if MatchesAll(rows[0], cs) then [] else [rows[0]]) + DeleteRows(rows[1..], cs)
  }

  /** A delete removes exactly the rows a select with the same conditions
      returns. */
  lemma {:induction false} DeleteSelectPartition(rows: seq<Row>, cs: seq<Cond>)
    ensures |DeleteRows(rows, cs)| + |Select(rows, cs)| == |rows|
  {
    if |rows| > 0 {
      DeleteSelectPartition(rows[1..], cs);
    }
  }

  /** Deleting with conditions no row satisfies leaves the table as it is. */
  lemma {:induction false} DeleteNothing(rows: seq<Row>, cs: seq<Cond>)
    requires forall i :: 0 <= i < |rows| ==> !MatchesAll(rows[i], cs)
    ensures DeleteRows(rows, cs) == rows
  {
    if |rows| > 0 {
      DeleteNothing(rows[1..], cs);
      assert rows == [rows[0]] + rows[1..];
    }
  }

  /** The table after an update: matching rows take the new values of the
      columns being set and keep their other columns; no row moves, appears
      or disappears. */
  function UpdateRows(rows: seq<Row>, cs: seq<Cond>, values: Row): (r: seq<Row>)
    ensures |r| == |rows|
    ensures forall i :: 0 <= i < |rows| && !MatchesAll(rows[i], cs) ==> r[i] == rows[i]
    ensures forall i :: 0 <= i < |rows| && MatchesAll(rows[i], cs) ==>
      r[i].Keys == rows[i].Keys + values.Keys
      && (forall c :: c in values ==> r[i][c] == values[c])
      && (forall c :: c in rows[i] && c !in values ==> r[i][c] == rows[i][c])
  {
    seq(|rows|, i requires 0 <= i < |rows| => if MatchesAll(rows[i], cs) then rows[i] + values else rows[i])
  }

  /** A database together with the state of the uuid generator: the next
      identifier handed out is `Uuid(next)`. */
  datatype St = St(db: Db, next: nat)

  /** `uuid()`: a new identifier, and the generator advanced past it. */
  function NewUuid(st: St): (r: (Scalar, St))
    ensures r.0 == Uuid(st.next) && r.1.db == st.db && r.1.next > st.next
  {
    (Uuid(st.next), st.(next := st.next + 1))
  }

  /** `knex(t).where(...)` as a select of every column. */
  function SelectWhere(st: St, t: string, cs: seq<Cond>): seq<Row> {
    Select(Rows(st.db, t), cs)
  }

  /** `knex(t).insert(row, '*')`: appends the row and returns it. */
  function InsertRow(st: St, t: string, row: Row): (r: (St, Row))
    ensures Rows(r.0.db, t) == Rows(st.db, t) + [row]
    ensures forall u :: u != t ==> Rows(r.0.db, u) == Rows(st.db, u)
    ensures r.0.next == st.next && r.1 == row
  {
    (st.(db := st.db[t := Rows(st.db, t) + [row]]), row)
  }

  /** `knex(t).where(...).update(set, '*')`: the query builder refuses an
      update that sets no column; otherwise the updated rows are returned in
      table order. */
  function UpdateWhere(st: St, t: string, cs: seq<Cond>, values: Row): (r: Result<(St, seq<Row>)>)
    ensures |values| == 0 <==> r == Err(EmptyUpdate)
    ensures r.Ok? ==>
      && Rows(r.value.0.db, t) == UpdateRows(Rows(st.db, t), cs, values)
      && (forall u :: u != t ==> Rows(r.value.0.db, u) == Rows(st.db, u))
      && r.value.0.next == st.next
      && |r.value.1| == |Select(Rows(st.db, t), cs)|
  {
    if |values| == 0 then Err(EmptyUpdate)
    else
      var rows := Rows(st.db, t);
      var updated := UpdateRows(rows, cs, values);
      Ok((st.(db := st.db[t := updated]), UpdatedRows(rows, cs, values)))
  }

  /** The rows an update returns: each matching row with the new values. */
  function UpdatedRows(rows: seq<Row>, cs: seq<Cond>, values: Row): (r: seq<Row>)
    ensures |r| == |Select(rows, cs)|
    ensures forall x :: x in r ==> values.Keys <= x.Keys && forall c :: c in values ==> x[c] == values[c]
  {
    if |rows| == 0 then []
    else (if MatchesAll(rows[0], cs) then [rows[0] + values] else []) + UpdatedRows(rows[1..], cs, values)
  }

  /** `knex(t).where(...).del()`. */
  function DeleteWhere(st: St, t: string, cs: seq<Cond>): (r: St)
    ensures Rows(r.db, t) == DeleteRows(Rows(st.db, t), cs)
    ensures forall u :: u != t ==> Rows(r.db, u) == Rows(st.db, u)
    ensures r.next == st.next
  {
    st.(db := st.db[t := DeleteRows(Rows(st.db, t), cs)])
  }

  /** A row with one column set to null. */
  function Cleared(r: Row, c: string): (x: Row)
    ensures x.Keys == r.Keys + {c} && x[c] == Null
    ensures forall d :: d in r && d != c ==> x[d] == r[d]
  {
    var none: Scalar := Null;
    r[c := none]
  }

  /** The values of one column of some rows, in order (`rows.map(r => r[c])`). */
  function Column(rows: seq<Row>, c: string): (r: seq<Scalar>)
    ensures |r| == |rows| && forall i :: 0 <= i < |rows| ==> r[i] == Col(rows[i], c)
  {
    seq(|rows|, i requires 0 <= i < |rows| => Col(rows[i], c))
  }
}

=== FILE: tasks.dfy ===
/** The command-line tasks of tasks/index.js: what `newMigration` derives
    from its arguments (the migration's name, template, table and column
    statements), the guards of `newModel` and of the exported task that
    chains the two, the files `migrate` and `rollback` report and list, the version
    `version` reports, and the meta text `schemaForTable` prints for a
    column. The migrator, the disk and the template files are parameters;
    log output is not modelled. */
module Tasks {
  import opened Js
  import opened Text
  import opened TaskUtil
  import Scaffold

  /** A file the task writes, with its contents. */
  datatype Write = Write(path: string, contents: string)

  /** What a task resolves or rejects with, and the files it wrote before
      settling. */
  datatype Outcome = Outcome(result: Result<seq<string>>, written: seq<Write>)

  const NoName := Rejected("No name specified")

  /** The separator the column statements are joined with. */
  const ColumnSep := "\n\t\t\t"

  /** What `newMigration` hands to the migrator and the template. */
  datatype Plan = Plan(migration: string, template: string, table: string, addColumns: string, dropColumns: string)

  /** A knex schema-builder call creating one column. */
  function Statement(kind: string, name: string): string {
    "table." + kind + "('" + name + "');"
  }

  /** One statement per `name:type` argument, in argument order. */
  function ModelStatements(args: seq<string>): (r: seq<string>)
    ensures var colon := Scaffold.ColonArgs(args);
      |r| == |colon| && forall i :: 0 <= i < |r| ==>
        var parts := Split(colon[i], ":");
        |parts| >= 2 && r[i] == Statement(parts[1], parts[0])
  {
    var colon := Scaffold.ColonArgs(args);
    seq(|colon|, i requires 0 <= i < |colon| =>
      var c := Scaffold.ColumnFromArg(colon[i]);
      Statement(c.kind, c.name))
  }

  /** `/^add\-(.*?)-to-(.*?)$/`: the columns part up to the first `-to-`
      and the table part after it. */
  function MatchAddTo(s: string): (r: Option<(string, string)>)
    ensures r.Some? ==> NoLineTerminator(s) && s == "add-" + r.value.0 + "-to-" + r.value.1
    ensures r.Some? ==> !Contains(r.value.0, "-to-") || StartsAt(s, "-to-", 4 + |r.value.0|)
  {
    if !NoLineTerminator(s) || !StartsAt(s, "add-", 0) then None
    else
      match Find(s, "-to-", 4)
      case None => None
      case Some(i) =>
        assert s == s[..4] + s[4..i] + s[i..i + 4] + s[i + 4..];
        Some((s[4..i], s[i + 4..]))
  }

  /** A name built as `add-COLUMNS-to-TABLE`, with no `-to-` starting
      inside `add-COLUMNS`, is taken apart into those two parts. */
  lemma MatchAddToInverts(columns: string, table: string)
    requires NoLineTerminator("add-" + columns + "-to-" + table)
    requires forall j :: 4 <= j < 4 + |columns| ==> !StartsAt("add-" + columns + "-to-" + table, "-to-", j)
    ensures MatchAddTo("add-" + columns + "-to-" + table) == Some((columns, table))
  {
    var s := "add-" + columns + "-to-" + table;
    assert StartsAt(s, "add-", 0) by { assert s[..4] == "add-"; }
    var p := 4 + |columns|;
    assert StartsAt(s, "-to-", p) by { assert s[p..p + 4] == "-to-"; }
    FindAt(s, "-to-", 4, p);
    assert s[4..p] == columns && s[p + 4..] == table;
  }

  /** The underscored column names of an `add-...-to-...` migration. */
  function Underscored(infl: Inflector, pieces: seq<string>): (r: seq<string>)
    ensures |r| == |pieces| && forall i :: 0 <= i < |r| ==> r[i] == infl.underscore(pieces[i])
  {
    seq(|pieces|, i requires 0 <= i < |pieces| => infl.underscore(pieces[i]))
  }

  function StringStatements(columns: seq<string>): (r: seq<string>)
    ensures |r| == |columns| && forall i :: 0 <= i < |r| ==> r[i] == Statement("string", columns[i])
  {
    seq(|columns|, i requires 0 <= i < |columns| => Statement("string", columns[i]))
  }

  function Quoted(columns: seq<string>): (r: seq<string>)
    ensures |r| == |columns| && forall i :: 0 <= i < |r| ==> r[i] == "'" + columns[i] + "'"
  {
    seq(|columns|, i requires 0 <= i < |columns| => "'" + columns[i] + "'")
  }

  /** `table.dropColumns('a','b');`: `join()` separates with a comma. */
  function DropStatement(columns: seq<string>): string {
    "table.dropColumns(" + Join(Quoted(columns), ",") + ");"
  }

  /** The migration `newMigration` plans for a non-empty argument list,
      from its first argument with whitespace turned into dashes. */
  function PlanFor(infl: Inflector, args: seq<string>): (p: Plan)
    requires |args| > 0
    ensures var name := DashSpaces(args[0]);
      && ("model" in args ==>
           && p.migration == "create-" + infl.dasherize(infl.pluralize(name))
           && p.template == "model-migration.js"
           && p.table == infl.tableize(name)
           && p.addColumns == Join(ModelStatements(args), ColumnSep)
           && p.dropColumns == "")
      && ("model" !in args ==> p.migration == infl.dasherize(name) && p.template == "migration.js")
      && ("model" !in args && MatchAddTo(name).Some? ==>
           var (columns, table) := MatchAddTo(name).value;
           var names := Underscored(infl, Split(columns, "-and-"));
           && p.table == table
           && p.addColumns == Join(StringStatements(names), ColumnSep)
           && p.dropColumns == DropStatement(names))
      && ("model" !in args && MatchAddTo(name).None? ==>
           p.table == LastPiece(name, "-") && p.addColumns == "" && p.dropColumns == "")
  {
    var name := DashSpaces(args[0]);
    if "model" in args then
      Plan("create-" + infl.dasherize(infl.pluralize(name)), "model-migration.js", infl.tableize(name),
        Join(ModelStatements(args), ColumnSep), "")
    else
      match MatchAddTo(name)
      case Some((columns, table)) =>
        var names := Underscored(infl, Split(columns, "-and-"));
        Plan(infl.dasherize(name), "migration.js", table, Join(StringStatements(names), ColumnSep), DropStatement(names))
      case None =>
        Plan(infl.dasherize(name), "migration.js", LastPiece(name, "-"), "", "")
  }

  /** The replacements `newMigration` renders its template with, in the
      order the source lists them. */
  function MigrationEntries(p: Plan): Entries {
    [("table", p.table), ("add_columns", p.addColumns), ("drop_columns", p.dropColumns)]
  }

  /** `newMigration(args)`: no arguments reject; `no-migration` creates
      nothing; otherwise the migrator `make(name, directory)` picks the
      file, which gets the rendered template. A migrator failure rejects
      with its error. */
  function NewMigration(infl: Inflector, args: seq<string>, cfg: TaskConfig,
                        make: (string, string) -> Result<string>, read: string -> string): (o: Outcome)
    ensures |args| == 0 ==> o == Outcome(Err(NoName), [])
    ensures |args| > 0 && "no-migration" in args ==> o == Outcome(Ok([]), [])
    ensures |args| > 0 && "no-migration" !in args ==>
      var p := PlanFor(infl, args);
      match make(p.migration, cfg.migrationsPath)
      case Err(e) => o == Outcome(Err(e), [])
      case Ok(path) => (o.result == Ok([path])
        && o.written == [Write(path, SaveTemplate(p.template, read, MigrationEntries(p)).0)])
  {
    if |args| == 0 then Outcome(Err(NoName), [])
    else if "no-migration" in args then Outcome(Ok([]), [])
    else
      var p := PlanFor(infl, args);
      match make(p.migration, cfg.migrationsPath)
      case Err(e) => Outcome(Err(e), [])
      case Ok(path) => Outcome(Ok([path]), [Write(path, SaveTemplate(p.template, read, MigrationEntries(p)).0)])
  }

  /** A statement built from an argument without line breaks has none. */
  lemma StatementFree(arg: string)
    requires Contains(arg, ":") && FreeOf(arg, '\n')
    ensures var c := Scaffold.ColumnFromArg(arg); FreeOf(Statement(c.kind, c.name), '\n')
  {
    SplitPiecesFreeOf(arg, ":", '\n');
    var c := Scaffold.ColumnFromArg(arg);
    assert FreeOf(c.kind, '\n') && FreeOf(c.name, '\n');
  }

  /** A model migration lists its column statements one per line: the
      joined text splits back into one statement per `name:type` argument,
      in argument order, as long as no argument holds a line break. */
  lemma ModelColumnsRoundTrip(infl: Inflector, args: seq<string>)
    requires "model" in args && |Scaffold.ColonArgs(args)| > 0
    requires forall a :: a in args ==> FreeOf(a, '\n')
    ensures Split(PlanFor(infl, args).addColumns, ColumnSep) == ModelStatements(args)
  {
    var colon := Scaffold.ColonArgs(args);
    var st := ModelStatements(args);
    forall i | 0 <= i < |st|
      ensures FreeOf(st[i], '\n')
    {
      assert colon[i] in colon;
      StatementFree(colon[i]);
    }
    JoinSplitFree(st, ColumnSep);
  }

  /** `add-COLUMNS-to-TABLE` migrates `TABLE` as named, with one string
      column and one dropped column per `-and-` piece of `COLUMNS`,
      underscored. */
  lemma AddToPlan(infl: Inflector, args: seq<string>, columns: string, table: string)
    requires |args| > 0 && "model" !in args
    requires args[0] == "add-" + columns + "-to-" + table
    requires forall i :: 0 <= i < |args[0]| ==> !IsSpace(args[0][i])
    requires forall j :: 4 <= j < 4 + |columns| ==> !StartsAt(args[0], "-to-", j)
    ensures var p := PlanFor(infl, args);
      var names := Underscored(infl, Split(columns, "-and-"));
      p.table == table && p.addColumns == Join(StringStatements(names), ColumnSep)
      && p.dropColumns == DropStatement(names)
  {
    var name := args[0];
    assert DashSpaces(name) == name;
    assert NoLineTerminator(name) by {
      forall i | 0 <= i < |name|
        ensures !IsLineTerminator(name[i])
      {
        assert !IsSpace(name[i]);
      }
    }
    MatchAddToInverts(columns, table);
  }

  /** Any other migration name takes its table from the text after its
      last dash. */
  lemma OtherNamePlan(infl: Inflector, args: seq<string>, head: string, table: string)
    requires |args| > 0 && "model" !in args
    requires args[0] == head + "-" + table && FreeOf(table, '-')
    requires forall i :: 0 <= i < |args[0]| ==> !IsSpace(args[0][i])
    requires MatchAddTo(args[0]).None?
    ensures PlanFor(infl, args).table == table && PlanFor(infl, args).addColumns == ""
  {
    assert DashSpaces(args[0]) == args[0];
    assert head + "-" + table == head + ['-'] + table;
    LastPieceAfter(head, '-', table);
  }

  /** `newModel(args)`: no arguments reject; `no-model` creates nothing; a
      model file that already exists is kept and nothing is created;
      otherwise the file named after the dasherized table gets the model
      template. */
  function NewModel(infl: Inflector, args: seq<string>, cfg: TaskConfig, onDisk: string -> bool, read: string -> string): (o: Outcome)
    ensures |args| == 0 <==> o.result == Err(NoName)
    ensures |args| == 0 || "no-model" in args ==> o.written == []
    ensures |args| > 0 && "no-model" in args ==> o.result == Ok([])
    ensures |args| > 0 && "no-model" !in args ==>
      var table := infl.tableize(Lower(args[0]));
      var path := cfg.modelsPath + "/" + infl.dasherize(table) + ".js";
      && (onDisk(path) ==> o == Outcome(Ok([]), []))
      && (!onDisk(path) ==> o == Outcome(Ok([path]), [Write(path, SaveTemplate("model.js", read, [("table", table)]).0)]))
  {
    if |args| == 0 then Outcome(Err(NoName), [])
    else if "no-model" in args then Outcome(Ok([]), [])
    else
      var table := infl.tableize(Lower(args[0]));
      var path := cfg.modelsPath + "/" + infl.dasherize(table) + ".js";
      if onDisk(path) then Outcome(Ok([]), [])
      else Outcome(Ok([path]), [Write(path, SaveTemplate("model.js", read, [("table", table)]).0)])
  }

  /** The exported `newModel` task as written: a model migration for the
      arguments plus `model`, then the model, the migration's files listed
      first. The migration runs before any argument check, so an empty
      argument list still writes a migration, for a model named `model`,
      before the task rejects. */
  function NewModelTaskAsWritten(infl: Inflector, args: seq<string>, cfg: TaskConfig, make: (string, string) -> Result<string>,
                                 onDisk: string -> bool, read: string -> string): (o: Outcome)
    ensures var m := NewMigration(infl, args + ["model"], cfg, make, read);
      var n := NewModel(infl, args, cfg, onDisk, read);
      && (m.result.Err? ==> o == m)
      && (m.result.Ok? && n.result.Err? ==> o == Outcome(n.result, m.written + n.written))
      && (m.result.Ok? && n.result.Ok? ==> o == Outcome(Ok(m.result.value + n.result.value), m.written + n.written))
  {
    var m := NewMigration(infl, args + ["model"], cfg, make, read);
    if m.result.Err? then m
    else
      var n := NewModel(infl, args, cfg, onDisk, read);
      match n.result
      case Err(e) => Outcome(Err(e), m.written + n.written)
      case Ok(files) => Outcome(Ok(m.result.value + files), m.written + n.written)
  }

  /** The exported task as meant: with no arguments it rejects before
      writing anything; otherwise it is the task as written. */
  function NewModelTask(infl: Inflector, args: seq<string>, cfg: TaskConfig, make: (string, string) -> Result<string>,
                        onDisk: string -> bool, read: string -> string): (o: Outcome)
    ensures |args| == 0 ==> o == Outcome(Err(NoName), [])
    ensures o.result.Err? && o.result.error == NoName ==> o.written == []
    ensures |args| > 0 ==> o == NewModelTaskAsWritten(infl, args, cfg, make, onDisk, read)
  {
    if |args| == 0 then Outcome(Err(NoName), [])
    else NewModelTaskAsWritten(infl, args, cfg, make, onDisk, read)
  }

  /** With arguments, a successful task lists the migration's files before
      the model's, and what it wrote is the migration then the model. */
  lemma NewModelTaskOrder(infl: Inflector, args: seq<string>, cfg: TaskConfig, make: (string, string) -> Result<string>,
                          onDisk: string -> bool, read: string -> string)
    requires |args| > 0 && "no-migration" !in args && "no-model" !in args
    requires NewModelTask(infl, args, cfg, make, onDisk, read).result.Ok?
    ensures var o := NewModelTask(infl, args, cfg, make, onDisk, read);
      var p := PlanFor(infl, args + ["model"]);
      |o.result.value| >= 1 && Ok(o.result.value[0]) == make(p.migration, cfg.migrationsPath)
      && o.result.value[1..] == NewModel(infl, args, cfg, onDisk, read).result.value
  {
    var m := NewMigration(infl, args + ["model"], cfg, make, read);
    assert "no-migration" !in args + ["model"];
    assert |args + ["model"]| > 0;
  }

  /** The task as written on an empty argument list writes the migration
      the migrator picks for `create-<models>` and then rejects; the
      corrected task writes nothing. */
  lemma NewModelTaskEmptyWitness(infl: Inflector, cfg: TaskConfig, make: (string, string) -> Result<string>,
                                 onDisk: string -> bool, read: string -> string)
    requires make("create-" + infl.dasherize(infl.pluralize(DashSpaces("model"))), cfg.migrationsPath).Ok?
    ensures var o := NewModelTaskAsWritten(infl, [], cfg, make, onDisk, read);
      o.result == Err(NoName) && |o.written| == 1
    ensures NewModelTask(infl, [], cfg, make, onDisk, read) == Outcome(Err(NoName), [])
  {
    var args: seq<string> := [];
    assert args + ["model"] == ["model"];
    assert "no-migration" !in ["model"];
  }

  /** What the migrator reported for a run: the batch number and the
      migration files, in order. */
  datatype Batch = Batch(group: int, files: seq<string>)

  /** What `migrate` and `rollback` settle with: the batch's files, and the
      names the log lists them under. */
  datatype Report = Report(files: seq<string>, listed: seq<string>)

  /** `migrate` and `rollback` (tasks/index.js:138-149, 171-182): the
      migrator's files, pushed in order, each logged by its name relative to
      the migrations directory. */
  function ReportedFiles(b: Batch, dir: string): (r: Report)
    ensures r.files == b.files && |r.listed| == |b.files|
    ensures forall i :: 0 <= i < |b.files| ==> r.listed[i] == JustFilename(b.files[i], dir)
  {
    Report(b.files, seq(|b.files|, i requires 0 <= i < |b.files| => JustFilename(b.files[i], dir)))
  }

  /** A batch of files inside the migrations directory is listed by their
      bare names. */
  lemma {:induction false} ReportedNames(dir: string, names: seq<string>, group: int)
    ensures var b := Batch(group, seq(|names|, i requires 0 <= i < |names| => dir + "/" + names[i]));
      ReportedFiles(b, dir).listed == names
  {
    var b := Batch(group, seq(|names|, i requires 0 <= i < |names| => dir + "/" + names[i]));
    forall i | 0 <= i < |names| ensures ReportedFiles(b, dir).listed[i] == names[i] {
      JustFilenameOfChild(dir, names[i]);
    }
  }

  /** `version`: the migrator's `none` means no migration has run. */
  function Version(v: string): (r: Option<string>)
    ensures r.None? <==> v == "none"
    ensures r.Some? ==> r.value == v
  {
    if v == "none" then None else Some(v)
  }

  /** The meta text printed after a column's type: `not nullable` when the
      column is not nullable, `default X` when it has a default, both in
      parentheses separated by a comma, or nothing. An empty default is
      falsy and is not shown. */
  function ColumnMeta(isNullable: string, columnDefault: Option<string>): (r: string)
    ensures r == "" <==> isNullable != "NO" && (columnDefault.None? || columnDefault.value == "")
  {
    var parts := (if isNullable == "NO" then ["not nullable"] else [])
      + (if columnDefault.Some? && columnDefault.value != "" then ["default " + columnDefault.value] else []);
    if |parts| > 0 then "(" + Join(parts, ", ") + ")" else ""
  }

  /** Reads a meta text back: whether the column is not nullable and the
      default it shows. */
  function ParseMeta(meta: string): (r: (bool, Option<string>)) {
    if |meta| < 2 then (false, None)
    else
      var inner := meta[1..|meta| - 1];
      if StartsAt(inner, "not nullable", 0) then
        var rest := inner[12..];
        if StartsAt(rest, ", default ", 0) then (true, Some(rest[10..])) else (true, None)
      else if StartsAt(inner, "default ", 0) then (false, Some(inner[8..]))
      else (false, None)
  }

  lemma ParseBoth(d: string)
    ensures ParseMeta("(not nullable, default " + d + ")") == (true, Some(d))
  {
    var m := "(not nullable, default " + d + ")";
    var inner := m[1..|m| - 1];
    assert inner == "not nullable, default " + d;
    assert inner[..12] == "not nullable";
    var rest := inner[12..];
    assert rest == ", default " + d;
    assert rest[..10] == ", default ";
    assert rest[10..] == d;
  }

  lemma ParseNotNullable()
    ensures ParseMeta("(not nullable)") == (true, None)
  {
    var inner := "(not nullable)"[1..13];
    assert inner == "not nullable";
    assert inner[..12] == "not nullable";
    assert inner[12..] == "";
  }

  lemma ParseDefault(d: string)
    ensures ParseMeta("(default " + d + ")") == (false, Some(d))
  {
    var m := "(default " + d + ")";
    var inner := m[1..|m| - 1];
    assert inner == "default " + d;
    assert !StartsAt(inner, "not nullable", 0) by {
      if |inner| >= 12 {
        assert inner[..12][0] == inner[0] == 'd';
      }
    }
    assert inner[..8] == "default ";
    assert inner[8..] == d;
  }

  /** The meta text loses nothing: both facts it shows are read back. */
  lemma ColumnMetaRoundTrip(isNullable: string, columnDefault: Option<string>)
    ensures ParseMeta(ColumnMeta(isNullable, columnDefault))
      == (isNullable == "NO", if columnDefault.Some? && columnDefault.value != "" then columnDefault else None)
  {
    var notNull := isNullable == "NO";
    var hasDefault := columnDefault.Some? && columnDefault.value != "";
    if notNull && hasDefault {
      MetaBothText(isNullable, columnDefault.value);
      ParseBoth(columnDefault.value);
    } else if notNull {
      MetaNotNullableText(isNullable, columnDefault);
      ParseNotNullable();
    } else if hasDefault {
      MetaDefaultText(isNullable, columnDefault.value);
      ParseDefault(columnDefault.value);
    }
  }

  lemma MetaBothText(isNullable: string, d: string)
    requires isNullable == "NO" && d != ""
    ensures ColumnMeta(isNullable, Some(d)) == "(not nullable, default " + d + ")"
  {
    var parts := ["not nullable", "default " + d];
    assert Join(parts, ", ") == "not nullable" + ", " + ("default " + d);
  }

  lemma MetaNotNullableText(isNullable: string, columnDefault: Option<string>)
    requires isNullable == "NO" && (columnDefault.None? || columnDefault.value == "")
    ensures ColumnMeta(isNullable, columnDefault) == "(not nullable)"
  {
    assert Join(["not nullable"], ", ") == "not nullable";
  }

  lemma MetaDefaultText(isNullable: string, d: string)
    requires isNullable != "NO" && d != ""
    ensures ColumnMeta(isNullable, Some(d)) == "(default " + d + ")"
  {
    assert Join(["default " + d], ", ") == "default " + d;
  }
}

=== FILE: taskutil.dfy ===
/** The helpers of tasks/util.js: finding the application root by walking up
    from the working directory, the task configuration built from it, the
    `{{KEY}}` substitution that renders a template, and stripping a base
    directory off a path. The file system is a pair of predicates (which
    directory holds a project marker, which path exists) and `Path.dirname`
    is a parameter. */
module TaskUtil {
  import opened Js
  import opened Text

  /** The directory `k` steps of `Path.dirname` above `d`. */
  function Ancestor(parent: string -> string, d: string, k: nat): string
    decreases k
  {
    if k == 0 then d else Ancestor(parent, parent(d), k - 1)
  }

  /** The walk reaches step `k`: every directory up to it has a non-empty
      name. */
  predicate Walked(parent: string -> string, d: string, k: nat) {
    forall j :: 0 <= j <= k ==> |Ancestor(parent, d, j)| > 0
  }

  /** The directory the upward walk from `d` stops at with `fuel` steps
      left: the first that holds `node_modules` or `package.json`. */
  function Search(parent: string -> string, hasMarker: string -> bool, d: string, fuel: nat): (r: Option<string>)
    ensures r.Some? ==> |r.value| > 0 && hasMarker(r.value)
    decreases fuel
  {
    if |d| == 0 || fuel == 0 then None
    else if hasMarker(d) then Some(d)
    else Search(parent, hasMarker, parent(d), fuel - 1)
  }

  lemma WalkedStep(parent: string -> string, d: string, k: nat)
    ensures Walked(parent, d, k + 1) <==> |d| > 0 && Walked(parent, parent(d), k)
  {
    if |d| > 0 && Walked(parent, parent(d), k) {
      forall j | 0 <= j <= k + 1
        ensures |Ancestor(parent, d, j)| > 0
      {
        if j > 0 {
          assert Ancestor(parent, d, j) == Ancestor(parent, parent(d), j - 1);
        }
      }
    }
    if Walked(parent, d, k + 1) {
      assert |Ancestor(parent, d, 0)| > 0;
      forall j | 0 <= j <= k
        ensures |Ancestor(parent, parent(d), j)| > 0
      {
        assert Ancestor(parent, d, j + 1) == Ancestor(parent, parent(d), j);
      }
    }
  }

  /** How many steps up the walk from `d` stops at a marked directory. */
  function StepsToMarker(parent: string -> string, hasMarker: string -> bool, d: string, fuel: nat): (r: Option<nat>)
    ensures r.Some? <==> Search(parent, hasMarker, d, fuel).Some?
    ensures r.Some? ==> r.value < fuel && Search(parent, hasMarker, d, fuel).value == Ancestor(parent, d, r.value)
    decreases fuel
  {
    if |d| == 0 || fuel == 0 then None
    else if hasMarker(d) then Some(0)
    else
      match StepsToMarker(parent, hasMarker, parent(d), fuel - 1)
      case None => None
      case Some(k) => Some(k + 1)
  }

  /** A directory the walk finds is the nearest marked one it reaches
      within `fuel` steps. */
  lemma {:induction false} SearchFindsNearest(parent: string -> string, hasMarker: string -> bool, d: string, fuel: nat)
    requires Search(parent, hasMarker, d, fuel).Some?
    ensures var k := StepsToMarker(parent, hasMarker, d, fuel).value;
      Walked(parent, d, k) && hasMarker(Ancestor(parent, d, k))
      && forall j :: 0 <= j < k ==> !hasMarker(Ancestor(parent, d, j))
    decreases fuel
  {
    if !hasMarker(d) {
      var up := parent(d);
      SearchFindsNearest(parent, hasMarker, up, fuel - 1);
      var k := StepsToMarker(parent, hasMarker, up, fuel - 1).value;
      WalkedStep(parent, d, k);
      assert Ancestor(parent, d, k + 1) == Ancestor(parent, up, k);
      forall j | 0 <= j < k + 1
        ensures !hasMarker(Ancestor(parent, d, j))
      {
        if j > 0 {
          assert Ancestor(parent, d, j) == Ancestor(parent, up, j - 1);
        }
      }
    }
  }

  /** The walk finds nothing only when none of the directories it reaches
      within `fuel` steps is marked. */
  lemma {:induction false} SearchMissesOnlyUnmarked(parent: string -> string, hasMarker: string -> bool, d: string, fuel: nat)
    requires Search(parent, hasMarker, d, fuel).None?
    ensures forall k :: 0 <= k < fuel && Walked(parent, d, k) ==> !hasMarker(Ancestor(parent, d, k))
    decreases fuel
  {
    if |d| > 0 && fuel > 0 {
      var up := parent(d);
      SearchMissesOnlyUnmarked(parent, hasMarker, up, fuel - 1);
      forall k | 0 <= k < fuel && Walked(parent, d, k)
        ensures !hasMarker(Ancestor(parent, d, k))
      {
        if k > 0 {
          WalkedStep(parent, d, k - 1);
          assert Ancestor(parent, d, k) == Ancestor(parent, up, k - 1);
        }
      }
    } else if fuel > 0 {
      forall k | 0 <= k < fuel
        ensures !Walked(parent, d, k)
      {
        assert Ancestor(parent, d, 0) == d;
      }
    }
  }

  /** The walk gives up after this many steps. */
  const MaxLevels: nat := 50

  /** `appRoot()`: `APP_ROOT` when it is set and non-empty, otherwise the
      nearest directory at most `MaxLevels` steps up from `cwd` that holds a
      project marker, otherwise null. */
  method AppRoot(appRoot: Option<string>, cwd: string, parent: string -> string, hasMarker: string -> bool) returns (r: Option<string>)
    ensures appRoot.Some? && appRoot.value != "" ==> r == appRoot
    ensures !(appRoot.Some? && appRoot.value != "") ==> r == Search(parent, hasMarker, cwd, MaxLevels)
    ensures !(appRoot.Some? && appRoot.value != "") && r.Some? ==> hasMarker(r.value)
  {
    if appRoot.Some? && appRoot.value != "" {
      return appRoot;
    }
    var current := cwd;
    var project: Option<string> := None;
    var levels := MaxLevels;
    while |current| > 0 && project.None? && levels > 0
      invariant project.None? ==> Search(parent, hasMarker, current, levels) == Search(parent, hasMarker, cwd, MaxLevels)
      invariant project.Some? ==> project == Search(parent, hasMarker, cwd, MaxLevels)
      decreases levels
    {
      if hasMarker(current) {
        project := Some(current);
      } else {
        current := parent(current);
      }
      levels := levels - 1;
    }
    return project;
  }

  /** How the task reaches the database: a handle the caller passed, or a
      new Postgres client for `DATABASE_URL`. */
  datatype KnexHandle = Supplied(id: nat) | Postgres(connection: Option<string>)

  /** The settings a caller may pass; an absent or empty one is not given. */
  datatype ConfigArgs = ConfigArgs(
    appRoot: Option<string>,
    migrationsPath: Option<string>,
    modelsPath: Option<string>,
    knex: Option<nat>)

  const NoArgs := ConfigArgs(None, None, None, None)

  datatype TaskConfig = TaskConfig(
    appRoot: Option<string>,
    migrationsPath: string,
    modelsPath: string,
    knex: KnexHandle)

  /** `arg || fallback` on a string that may be absent. */
  function Given(arg: Option<string>, fallback: string): (r: string)
    ensures arg.Some? && arg.value != "" ==> r == arg.value
    ensures arg.None? || arg.value == "" ==> r == fallback
  {
    if arg.Some? && arg.value != "" then arg.value else fallback
  }

  /** A root as a template literal prints it: null prints as "null". */
  function RootText(root: Option<string>): string {
    match root
    case Some(d) => d
    case None => "null"
  }

  /** The directory `loadConfig` settles on under a root: the first
      candidate if it exists, else the second if it exists, else the
      default. */
  function Discovered(root: string, first: string, second: string, fallback: string, onDisk: string -> bool): (r: string)
    ensures r == root + first || r == root + second || r == root + fallback
    ensures onDisk(root + first) ==> r == root + first
    ensures !onDisk(root + first) && onDisk(root + second) ==> r == root + second
    ensures !onDisk(root + first) && !onDisk(root + second) ==> r == root + fallback
  {
    if onDisk(root + first) then root + first
    else if onDisk(root + second) then root + second
    else root + fallback
  }

  /** Where models live under a root: `/models`, else `/app/models`, else
      the default `/app/server/models`. */
  function DiscoveredModels(root: string, onDisk: string -> bool): string {
    Discovered(root, "/models", "/app/models", "/app/server/models", onDisk)
  }

  /** Where migrations live under a root: `/app/migrations`, else
      `/app/server/migrations`, else the default `/migrations`. */
  function DiscoveredMigrations(root: string, onDisk: string -> bool): string {
    Discovered(root, "/app/migrations", "/app/server/migrations", "/migrations", onDisk)
  }

  /** `loadConfig(args)`: each setting the caller gives wins; the others
      are discovered under the application root. */
  function LoadConfig(root: Option<string>, onDisk: string -> bool, databaseUrl: Option<string>, args: ConfigArgs): (c: TaskConfig)
    ensures args.appRoot.Some? && args.appRoot.value != "" ==> c.appRoot == args.appRoot
    ensures args.appRoot.None? || args.appRoot.value == "" ==> c.appRoot == root
    ensures args.migrationsPath.Some? && args.migrationsPath.value != "" ==> c.migrationsPath == args.migrationsPath.value
    ensures args.modelsPath.Some? && args.modelsPath.value != "" ==> c.modelsPath == args.modelsPath.value
    ensures args.knex.Some? ==> c.knex == Supplied(args.knex.value)
    ensures args.knex.None? ==> c.knex == Postgres(databaseUrl)
    ensures args.migrationsPath.None? || args.migrationsPath.value == "" ==>
      c.migrationsPath == DiscoveredMigrations(RootText(root), onDisk)
    ensures args.modelsPath.None? || args.modelsPath.value == "" ==>
      c.modelsPath == DiscoveredModels(RootText(root), onDisk)
  {
    var base := RootText(root);
    TaskConfig(
      if args.appRoot.Some? && args.appRoot.value != "" then args.appRoot else root,
      Given(args.migrationsPath, DiscoveredMigrations(base, onDisk)),
      Given(args.modelsPath, DiscoveredModels(base, onDisk)),
      match args.knex
      case Some(id) => Supplied(id)
      case None => Postgres(databaseUrl))
  }

  /** Without settings from the caller both paths lie under the root, and
      an unknown root shows up as the text "null" at their head. */
  lemma LoadConfigUnderRoot(root: Option<string>, onDisk: string -> bool, databaseUrl: Option<string>)
    ensures var c := LoadConfig(root, onDisk, databaseUrl, NoArgs);
      var prefix := RootText(root) + "/";
      StartsAt(c.migrationsPath, prefix, 0) && StartsAt(c.modelsPath, prefix, 0)
      && c.appRoot == root && c.knex == Postgres(databaseUrl)
  {
    var c := LoadConfig(root, onDisk, databaseUrl, NoArgs);
    var base := RootText(root);
    var m := DiscoveredMigrations(base, onDisk);
    if m == base + "/app/migrations" { UnderRoot(base, "/app/migrations"); }
    else if m == base + "/app/server/migrations" { UnderRoot(base, "/app/server/migrations"); }
    else { UnderRoot(base, "/migrations"); }
    var d := DiscoveredModels(base, onDisk);
    if d == base + "/models" { UnderRoot(base, "/models"); }
    else if d == base + "/app/models" { UnderRoot(base, "/app/models"); }
    else { UnderRoot(base, "/app/server/models"); }
  }

  /** A path under a root starts with the root and a slash. */
  lemma UnderRoot(root: string, tail: string)
    requires |tail| > 0 && tail[0] == '/'
    ensures StartsAt(root + tail, root + "/", 0)
  {
    assert (root + tail)[..|root| + 1] == root + "/";
  }

  /** `s.replace(new RegExp(pat, 'g'), rep)` for a pattern with no
      metacharacter: every leftmost non-overlapping occurrence replaced. */
  function ReplaceAll(s: string, pat: string, rep: string): string
    requires |pat| > 0
  {
    Join(Split(s, pat), rep)
  }

  /** A text without the pattern is left as it is. */
  lemma ReplaceAllAbsent(s: string, pat: string, rep: string)
    requires |pat| > 0 && !Contains(s, pat)
    ensures ReplaceAll(s, pat, rep) == s
  {
  }

  /** Replacing a pattern by itself is the identity. */
  lemma ReplaceAllSame(s: string, pat: string)
    requires |pat| > 0
    ensures ReplaceAll(s, pat, pat) == s
  {
    SplitJoin(s, pat);
  }

  /** The placeholder a key stands for: `{{KEY}}`, upper-cased. */
  function Placeholder(key: string): (p: string)
    ensures |p| == |key| + 4 && StartsAt(p, "{{", 0)
  {
    var p := "{{" + Upper(key) + "}}";
    assert p[..2] == "{{";
    p
  }

  /** The replacements in `Object.keys` order. */
  type Entries = seq<(string, string)>

  function KeysOf(es: Entries): set<string> {
    set i | 0 <= i < |es| :: es[i].0
  }

  lemma KeysOfCons(e: (string, string), rest: Entries)
    ensures KeysOf([e] + rest) == {e.0} + KeysOf(rest)
  {
    var r := [e] + rest;
    forall k | k in KeysOf(r)
      ensures k in {e.0} + KeysOf(rest)
    {
      var i :| 0 <= i < |r| && r[i].0 == k;
      if i > 0 {
        assert rest[i - 1].0 == k;
      }
    }
    forall k | k in KeysOf(rest)
      ensures k in KeysOf(r)
    {
      var i :| 0 <= i < |rest| && rest[i].0 == k;
      assert r[i + 1].0 == k;
    }
    assert r[0].0 == e.0;
  }

  /** The replacements after `replacements['\t'] = '    '`: an existing
      tab key keeps its place and takes the new value, otherwise the key is
      added last. */
  function WithTab(es: Entries): (r: Entries)
    ensures |r| == |es| || (|r| == |es| + 1 && r[|es|] == ("\t", "    "))
    ensures ("\t", "    ") in r
    ensures KeysOf(r) == KeysOf(es) + {"\t"}
    ensures forall i :: 0 <= i < |es| && es[i].0 != "\t" ==> r[i] == es[i]
    decreases |es|
  {
    if |es| == 0 then [("\t", "    ")]
    else if es[0].0 == "\t" then
      KeysOfCons(es[0], es[1..]);
      KeysOfCons(("\t", "    "), es[1..]);
      assert es == [es[0]] + es[1..];
      [("\t", "    ")] + es[1..]
    else
      var t := WithTab(es[1..]);
      KeysOfCons(es[0], t);
      KeysOfCons(es[0], es[1..]);
      assert es == [es[0]] + es[1..];
      [es[0]] + t
  }

  /** Each key in turn replaces every occurrence of its placeholder. */
  function Render(template: string, es: Entries): string
    decreases |es|
  {
    if |es| == 0 then template
    else Render(ReplaceAll(template, Placeholder(es[0].0), es[0].1), es[1..])
  }

  /** Where `saveTemplate` takes its text from: a first argument holding a
      newline is the text itself, anything else names a file under
      `templates/`, whose text `read` gives. */
  function TemplateSource(contentsOrName: string, read: string -> string): (t: string)
    ensures Contains(contentsOrName, "\n") ==> t == contentsOrName
    ensures !Contains(contentsOrName, "\n") ==> t == read(contentsOrName)
  {
    if Contains(contentsOrName, "\n") then contentsOrName else read(contentsOrName)
  }

  /** `saveTemplate(contentsOrName, replacements, path)`: the text written
      to `path`, and the replacements as the caller's object holds them
      afterwards. Creating the directory and writing the file are not
      modelled. */
  function SaveTemplate(contentsOrName: string, read: string -> string, es: Entries): (r: (string, Entries))
    ensures r.1 == WithTab(es)
    ensures r.0 == Render(TemplateSource(contentsOrName, read), WithTab(es))
  {
    var es' := WithTab(es);
    (Render(TemplateSource(contentsOrName, read), es'), es')
  }

  lemma ContainsPrefix(s: string, p: string, q: string)
    requires |p| > 0 && Contains(s, p + q)
    ensures Contains(s, p)
  {
    var i := Find(s, p + q, 0).value;
    assert s[i..i + |p|] == (p + q)[..|p|];
    assert StartsAt(s, p, i);
  }

  /** A text with no `{{` has no placeholder to replace: rendering leaves it
      as it is, bare tabs included. */
  lemma {:induction false} RenderWithoutPlaceholders(template: string, es: Entries)
    requires !Contains(template, "{{")
    ensures Render(template, es) == template
    decreases |es|
  {
    if |es| > 0 {
      var p := Placeholder(es[0].0);
      if Contains(template, p) {
        assert p == "{{" + p[2..];
        ContainsPrefix(template, "{{", p[2..]);
      }
      ReplaceAllAbsent(template, p, es[0].1);
      RenderWithoutPlaceholders(template, es[1..]);
    }
  }

  /** The tab entry only ever matches the literal placeholder `{{\t}}`: a
      template text with tabs and no placeholder is written with its tabs. */
  lemma SaveTemplateKeepsTabs(text: string, read: string -> string, es: Entries)
    requires Contains(text, "\n") && !Contains(text, "{{")
    ensures SaveTemplate(text, read, es).0 == text
  {
    RenderWithoutPlaceholders(text, WithTab(es));
  }

  predicate NoTab(s: string) {
    forall i :: 0 <= i < |s| ==> s[i] != '\t'
  }

  lemma NoTabOfFree(s: string)
    requires !Contains(s, "\t")
    ensures NoTab(s)
  {
    forall i | 0 <= i < |s|
      ensures s[i] != '\t'
    {
      if s[i] == '\t' {
        assert s[i..i + 1] == "\t";
        assert StartsAt(s, "\t", i);
      }
    }
  }

  lemma NoTabFree(s: string)
    requires NoTab(s)
    ensures !Contains(s, "\t")
  {
    forall j: nat | j + 1 <= |s|
      ensures !StartsAt(s, "\t", j)
    {
      assert s[j..j + 1][0] == s[j];
    }
  }

  lemma {:induction false} JoinNoTab(parts: seq<string>, sep: string)
    requires NoTab(sep) && forall k :: 0 <= k < |parts| ==> NoTab(parts[k])
    ensures NoTab(Join(parts, sep))
    decreases |parts|
  {
    if |parts| > 1 {
      JoinNoTab(parts[1..], sep);
    }
  }

  lemma ReplaceTabs(s: string)
    ensures NoTab(ReplaceAll(s, "\t", "    "))
    ensures NoTab(s) ==> ReplaceAll(s, "\t", "    ") == s
  {
    SplitPiecesFree(s, "\t");
    var parts := Split(s, "\t");
    forall k | 0 <= k < |parts|
      ensures NoTab(parts[k])
    {
      NoTabOfFree(parts[k]);
    }
    JoinNoTab(parts, "    ");
    if NoTab(s) {
      NoTabFree(s);
      ReplaceAllAbsent(s, "\t", "    ");
    }
  }

  /** Every tab turned into four spaces: what the tab entry of
      `saveTemplate` is there for. */
  function ExpandTabs(s: string): (r: string)
    ensures NoTab(r)
    ensures NoTab(s) ==> r == s
  {
    ReplaceTabs(s);
    ReplaceAll(s, "\t", "    ")
  }

  /** `saveTemplate` with its tabs changed to spaces, as its own comment
      says it does: the text written holds no tab. */
  function SaveTemplateExpanded(contentsOrName: string, read: string -> string, es: Entries): (r: (string, Entries))
    ensures NoTab(r.0)
    ensures r.1 == WithTab(es)
    ensures NoTab(SaveTemplate(contentsOrName, read, es).0) ==> r == SaveTemplate(contentsOrName, read, es)
  {
    var (text, es') := SaveTemplate(contentsOrName, read, es);
    (ExpandTabs(text), es')
  }

  /** A rendered column list with a tab: the text as written keeps it, the
      expanded one has four spaces in its place. */
  lemma TabWitness(read: string -> string)
    ensures SaveTemplate("x\n\ty", read, []).0 == "x\n\ty"
    ensures SaveTemplateExpanded("x\n\ty", read, []).0 == "x\n    y"
  {
    var t := "x\n\ty";
    assert StartsAt(t, "\n", 1) by { assert t[1..2] == "\n"; }
    assert !Contains(t, "{{") by {
      forall j | 0 <= j
        ensures !StartsAt(t, "{{", j)
      {
        if j + 2 <= |t| {
          assert t[j..j + 2][0] == t[j];
        }
      }
    }
    SaveTemplateKeepsTabs(t, read, []);
    assert t == "x\n" + "\t" + "y";
    SplitAfterFreeHead("x\n", "\t", "y");
    FreeOfNotContains("y", "\t");
    assert Split("y", "\t") == ["y"];
  }

  /** `thing.replace(new RegExp(base + '/?'), '')` for a base with no
      metacharacter: the first occurrence of the base, and a `/` right
      after it, removed; a path without the base is left as it is. */
  function JustFilename(thing: string, base: string): (r: string)
    ensures !Contains(thing, base) ==> r == thing
    ensures Contains(thing, base) ==>
      var i := Find(thing, base, 0).value;
      var j := i + |base|;
      r == thing[..i] + (if j < |thing| && thing[j] == '/' then thing[j + 1..] else thing[j..])
  {
    match Find(thing, base, 0)
    case None => thing
    case Some(i) =>
      var j := i + |base|;
      thing[..i] + (if j < |thing| && thing[j] == '/' then thing[j + 1..] else thing[j..])
  }

  /** A file named under its directory comes back as its bare name. */
  lemma JustFilenameOfChild(base: string, name: string)
    ensures JustFilename(base + "/" + name, base) == name
  {
    var s := base + "/" + name;
    assert StartsAt(s, base, 0) by { assert s[..|base|] == base; }
    assert Find(s, base, 0) == Some(0);
    assert s[|base|] == '/';
    assert s[|base| + 1..] == name;
  }
}

=== FILE: text.dfy ===
/** String operations of JavaScript the scaffolding and the relation resolver
    rely on: `split`/`join` with a string separator, the default ordering of
    `Array.prototype.sort`, ASCII case mapping and the `\s` class. Also the
    `Inflector`, the word-inflection library the source calls, kept
    uninterpreted. */
module Text {
  import opened Js

  /** The inflection library (`require('i')()`): its rules are not part of
      this model, so every operation is a parameter. */
  datatype Inflector = Inflector(
    pluralize: string -> string,
    singularize: string -> string,
    tableize: string -> string,
    dasherize: string -> string,
    underscore: string -> string,
    camelizeLower: string -> string) // camelize(s, false)

  predicate StartsAt(s: string, pat: string, i: nat) {
    i + |pat| <= |s| && s[i..i + |pat|] == pat
  }

  /** The first position at or after `from` where `pat` occurs (`indexOf`). */
  function Find(s: string, pat: string, from: nat): (r: Option<nat>)
    ensures r.Some? ==> from <= r.value && StartsAt(s, pat, r.value)
    ensures r.Some? ==> forall j :: from <= j < r.value ==> !StartsAt(s, pat, j)
    ensures r.None? ==> forall j :: from <= j ==> !StartsAt(s, pat, j)
    decreases |s| - from
  {
    if from + |pat| > |s| then None
    else if StartsAt(s, pat, from) then Some(from)
    else Find(s, pat, from + 1)
  }

  predicate Contains(s: string, pat: string) {
    Find(s, pat, 0).Some?
  }

  /** `s.split(sep)` for a non-empty string separator: cut at each leftmost,
      non-overlapping occurrence. */
  function Split(s: string, sep: string): (parts: seq<string>)
    requires |sep| > 0
    ensures |parts| >= 1
    decreases |s|
  {
    match Find(s, sep, 0)
    case None => [s]
    case Some(i) => [s[..i]] + Split(s[i + |sep|..], sep)
  }

  /** `parts.join(sep)`. */
  function Join(parts: seq<string>, sep: string): string {
    if |parts| == 0 then ""
    else if |parts| == 1 then parts[0]
    else parts[0] + sep + Join(parts[1..], sep)
  }

  /** Joining the pieces of a split with the same separator gives back the
      original string. */
  lemma {:induction false} SplitJoin(s: string, sep: string)
    requires |sep| > 0
    ensures Join(Split(s, sep), sep) == s
    decreases |s|, 1
  {
    if Find(s, sep, 0).Some? {
      SplitJoinStep(s, sep);
    } else {
      assert Split(s, sep) == [s];
    }
  }

  /** The inductive step of `SplitJoin`: `s` holds the separator. */
  lemma {:induction false} SplitJoinStep(s: string, sep: string)
    requires |sep| > 0 && Find(s, sep, 0).Some?
    ensures Join(Split(s, sep), sep) == s
    decreases |s|, 0
  {
    var i := Find(s, sep, 0).value;
    var rest := s[i + |sep|..];
    SplitJoin(rest, sep);
    var tail := Split(rest, sep);
    SplitFound(s, sep, i);
    JoinCons(s[..i], tail, sep);
    Reassemble(s, sep, i);
  }

  /** `Split` at a found occurrence: the text before it, then the split of
      the rest. */
  lemma SplitFound(s: string, sep: string, i: nat)
    requires |sep| > 0 && Find(s, sep, 0) == Some(i)
    ensures Split(s, sep) == [s[..i]] + Split(s[i + |sep|..], sep)
  {
  }

  /** A string is what comes before an occurrence, the occurrence, and what
      comes after. */
  lemma Reassemble(s: string, pat: string, i: nat)
    requires StartsAt(s, pat, i)
    ensures s[..i] + pat + s[i + |pat|..] == s
  {
    assert s == s[..i] + s[i..i + |pat|] + s[i + |pat|..];
  }

  lemma JoinCons(head: string, tail: seq<string>, sep: string)
    requires |tail| >= 1
    ensures Join([head] + tail, sep) == head + sep + Join(tail, sep)
  {
    assert ([head] + tail)[1..] == tail;
  }

  /** No piece of a split contains the separator. */
  lemma {:induction false} SplitPiecesFree(s: string, sep: string)
    requires |sep| > 0
    ensures forall k :: 0 <= k < |Split(s, sep)| ==> !Contains(Split(s, sep)[k], sep)
    decreases |s|
  {
    match Find(s, sep, 0)
    case None =>
    case Some(i) =>
      var rest := s[i + |sep|..];
      SplitPiecesFree(rest, sep);
      PrefixBeforeFirstIsFree(s, sep, i);
      assert Split(s, sep) == [s[..i]] + Split(rest, sep);
  }

  /** The text before the first occurrence of `pat` does not contain it. */
  lemma PrefixBeforeFirstIsFree(s: string, pat: string, i: nat)
    requires |pat| > 0 && i <= |s|
    requires forall j :: 0 <= j < i ==> !StartsAt(s, pat, j)
    ensures !Contains(s[..i], pat)
  {
    var p := s[..i];
    if Find(p, pat, 0).Some? {
      var j := Find(p, pat, 0).value;
      assert p[j..j + |pat|] == s[j..j + |pat|];
      assert StartsAt(s, pat, j);
    }
  }

  /** The first occurrence at or after `from` is the one found. */
  lemma FindAt(s: string, pat: string, from: nat, i: nat)
    requires from <= i && StartsAt(s, pat, i)
    requires forall j :: from <= j < i ==> !StartsAt(s, pat, j)
    ensures Find(s, pat, from) == Some(i)
  {
  }

  /** `s` holds no `c`. */
  predicate FreeOf(s: string, c: char) {
    forall i :: 0 <= i < |s| ==> s[i] != c
  }

  /** A text free of the separator's first character does not contain it. */
  lemma FreeOfNotContains(s: string, sep: string)
    requires |sep| > 0 && FreeOf(s, sep[0])
    ensures !Contains(s, sep)
  {
    forall j: nat | j + |sep| <= |s|
      ensures !StartsAt(s, sep, j)
    {
      assert s[j..j + |sep|][0] == s[j];
    }
  }

  /** A head free of the separator's first character is the first piece. */
  lemma SplitAfterFreeHead(p: string, sep: string, rest: string)
    requires |sep| > 0 && FreeOf(p, sep[0])
    ensures Split(p + sep + rest, sep) == [p] + Split(rest, sep)
  {
    var s := p + sep + rest;
    forall j: nat | j < |p|
      ensures !StartsAt(s, sep, j)
    {
      if j + |sep| <= |s| {
        assert s[j..j + |sep|][0] == s[j] == p[j];
      }
    }
    assert s[|p|..|p| + |sep|] == sep;
    FindAt(s, sep, 0, |p|);
    assert s[..|p|] == p && s[|p| + |sep|..] == rest;
  }

  /** Splitting a join gives the parts back when no part holds the
      separator's first character, so no separator can start inside one. */
  lemma {:induction false} JoinSplitFree(parts: seq<string>, sep: string)
    requires |sep| > 0 && |parts| >= 1
    requires forall k :: 0 <= k < |parts| ==> FreeOf(parts[k], sep[0])
    ensures Split(Join(parts, sep), sep) == parts
    decreases |parts|
  {
    if |parts| == 1 {
      FreeOfNotContains(parts[0], sep);
    } else {
      SplitAfterFreeHead(parts[0], sep, Join(parts[1..], sep));
      JoinSplitFree(parts[1..], sep);
      assert parts == [parts[0]] + parts[1..];
    }
  }

  /** The pieces of a split are free of whatever the text is free of. */
  lemma {:induction false} SplitPiecesFreeOf(s: string, sep: string, c: char)
    requires |sep| > 0 && FreeOf(s, c)
    ensures forall k :: 0 <= k < |Split(s, sep)| ==> FreeOf(Split(s, sep)[k], c)
    decreases |s|
  {
    match Find(s, sep, 0)
    case None =>
    case Some(i) =>
      var rest := s[i + |sep|..];
      SplitPiecesFreeOf(rest, sep, c);
      assert Split(s, sep) == [s[..i]] + Split(rest, sep);
  }

  /** Splitting at a one-character separator splits each side of an
      occurrence on its own. */
  lemma {:induction false} SplitAround(a: string, c: char, b: string)
    ensures Split(a + [c] + b, [c]) == Split(a, [c]) + Split(b, [c])
    decreases |a|, 1
  {
    if Find(a, [c], 0).None? {
      SplitAroundFree(a, c, b);
    } else {
      SplitAroundStep(a, c, b);
    }
  }

  /** `SplitAround` when `a` holds no separator: `a` is the first piece. */
  lemma SplitAroundFree(a: string, c: char, b: string)
    requires Find(a, [c], 0).None?
    ensures Split(a + [c] + b, [c]) == Split(a, [c]) + Split(b, [c])
  {
    var s := a + [c] + b;
    forall j: nat | j < |a|
      ensures !StartsAt(s, [c], j)
    {
      assert !StartsAt(a, [c], j);
      assert s[j..j + 1] == a[j..j + 1];
    }
    assert s[|a|..|a| + 1] == [c];
    FindAt(s, [c], 0, |a|);
    assert s[..|a|] == a && s[|a| + 1..] == b;
    assert Split(a, [c]) == [a];
  }

  /** The first separator of `a` is the first of `a + [c] + b`. */
  lemma FindInHead(a: string, c: char, b: string, i: nat)
    requires Find(a, [c], 0) == Some(i)
    ensures Find(a + [c] + b, [c], 0) == Some(i)
  {
    var s := a + [c] + b;
    forall j: nat | j < i
      ensures !StartsAt(s, [c], j)
    {
      assert !StartsAt(a, [c], j);
      assert s[j..j + 1] == a[j..j + 1];
    }
    assert s[i..i + 1] == a[i..i + 1];
    FindAt(s, [c], 0, i);
  }

  /** Cutting `a + [c] + b` at a position inside `a`. */
  lemma CutInHead(a: string, c: char, b: string, i: nat)
    requires i < |a|
    ensures (a + [c] + b)[..i] == a[..i]
    ensures (a + [c] + b)[i + 1..] == a[i + 1..] + [c] + b
  {
  }

  /** The inductive step of `SplitAround`: `a` holds a separator. */
  lemma {:induction false} SplitAroundStep(a: string, c: char, b: string)
    requires Find(a, [c], 0).Some?
    ensures Split(a + [c] + b, [c]) == Split(a, [c]) + Split(b, [c])
    decreases |a|, 0
  {
    var s := a + [c] + b;
    var i := Find(a, [c], 0).value;
    FindInHead(a, c, b, i);
    var a' := a[i + 1..];
    CutInHead(a, c, b, i);
    SplitAround(a', c, b);
    assert Split(s, [c]) == [a[..i]] + Split(a' + [c] + b, [c]);
    assert Split(a, [c]) == [a[..i]] + Split(a', [c]);
  }

  /** The text after the last one-character separator is the last piece. */
  lemma LastPieceAfter(a: string, c: char, b: string)
    requires FreeOf(b, c)
    ensures LastPiece(a + [c] + b, [c]) == b
  {
    SplitAround(a, c, b);
    FreeOfNotContains(b, [c]);
  }

  /** The last piece of `s.split(sep)`: the text after the last separator. */
  function LastPiece(s: string, sep: string): (r: string)
    requires |sep| > 0
  {
    var parts := Split(s, sep);
    parts[|parts| - 1]
  }

  /** `a < b` on JavaScript strings: the first differing character decides, a
      proper prefix is smaller. */
  predicate Below(a: string, b: string) {
    if |a| == 0 then |b| > 0
    else if |b| == 0 then false
    else if a[0] != b[0] then a[0] < b[0]
    else Below(a[1..], b[1..])
  }

  /** String comparison is a strict total order. */
  lemma {:induction false} BelowTrichotomy(a: string, b: string)
    ensures a == b || Below(a, b) || Below(b, a)
    ensures !(Below(a, b) && Below(b, a))
    ensures !Below(a, a)
    decreases |a|
  {
    if |a| > 0 && |b| > 0 && a[0] == b[0] {
      BelowTrichotomy(a[1..], b[1..]);
      if a[1..] == b[1..] {
        assert a == [a[0]] + a[1..] && b == [b[0]] + b[1..];
      }
    }
    if |a| > 0 {
      BelowTrichotomy(a[1..], a[1..]);
    }
  }

  /** `[a, b].sort()`: the default comparator orders by string value and the
      sort is stable. */
  function Sort2(a: string, b: string): (r: seq<string>)
    ensures |r| == 2 && multiset(r) == multiset{a, b}
    ensures !Below(r[1], r[0])
  {
    BelowTrichotomy(a, b);
    if Below(b, a) then [b, a] else [a, b]
  }

  /** Sorting two strings does not depend on the order they come in. */
  lemma Sort2Symmetric(a: string, b: string)
    ensures Sort2(a, b) == Sort2(b, a)
  {
    BelowTrichotomy(a, b);
  }

  function LowerChar(c: char): char {
    if 'A' <= c <= 'Z' then (c as int + 32) as char else c
  }

  function UpperChar(c: char): char {
    if 'a' <= c <= 'z' then (c as int - 32) as char else c
  }

  /** `toLowerCase` on ASCII letters. */
  function Lower(s: string): (r: string)
    ensures |r| == |s| && forall i :: 0 <= i < |s| ==> r[i] == LowerChar(s[i])
  {
    seq(|s|, i requires 0 <= i < |s| => LowerChar(s[i]))
  }

  /** `toUpperCase` on ASCII letters. */
  function Upper(s: string): (r: string)
    ensures |r| == |s| && forall i :: 0 <= i < |s| ==> r[i] == UpperChar(s[i])
  {
    seq(|s|, i requires 0 <= i < |s| => UpperChar(s[i]))
  }

  predicate EndsWith(s: string, suffix: string) {
    |suffix| <= |s| && s[|s| - |suffix|..] == suffix
  }

  /** A character of the JavaScript regular-expression class `\s`. */
  predicate IsSpace(c: char) {
    c == '\t' || c == '\n' || c == '\U{000B}' || c == '\U{000C}' || c == '\r' || c == ' '
    || c == '\U{00A0}' || c == '\U{1680}' || ('\U{2000}' <= c <= '\U{200A}')
    || c == '\U{2028}' || c == '\U{2029}' || c == '\U{202F}' || c == '\U{205F}'
    || c == '\U{3000}' || c == '\U{FEFF}'
  }

  /** A character the regular-expression `.` does not match. */
  predicate IsLineTerminator(c: char) {
    c == '\n' || c == '\r' || c == '\U{2028}' || c == '\U{2029}'
  }

  predicate NoLineTerminator(s: string) {
    forall i :: 0 <= i < |s| ==> !IsLineTerminator(s[i])
  }

  /** `s.replace(/\s/g, '-')`. */
  function DashSpaces(s: string): (r: string)
    ensures |r| == |s|
    ensures forall i :: 0 <= i < |s| ==> r[i] == (if IsSpace(s[i]) then '-' else s[i])
  {
    seq(|s|, i requires 0 <= i < |s| => if IsSpace(s[i]) then '-' else s[i])
  }

  /** Lower-casing a lower-cased string changes nothing. */
  lemma LowerIdempotent(s: string)
    ensures Lower(Lower(s)) == Lower(s)
  {
  }

  /** After the replacement no white space is left, only the characters
      that were not white space, and a second replacement changes nothing. */
  lemma DashSpacesLeavesNoSpace(s: string)
    ensures forall i :: 0 <= i < |s| ==> !IsSpace(DashSpaces(s)[i])
    ensures forall i :: 0 <= i < |s| && DashSpaces(s)[i] != '-' ==> DashSpaces(s)[i] == s[i]
    ensures DashSpaces(DashSpaces(s)) == DashSpaces(s)
  {
  }

  /** Decimal text of a natural number, as a template literal prints it. */
  function NatText(n: nat): (r: string)
    ensures |r| >= 1
  {
    if n < 10 then ["0123456789"[n]] else NatText(n / 10) + ["0123456789"[n % 10]]
  }
}
